=== FILE: README.md ===
# screeps-ai construction and worker core in Dafny

This project models the construction planner and the worker task machinery of
the screeps-ai bot, a TypeScript program that plays the game Screeps. Each
game tick:

- **The constructor.** A per-room priority queue of `ConstructTask`s is kept
  in `Memory.constructionQueues`. `schedule` adds work, with at most one task
  per tile; a scheduled road may be replaced. `tick` turns queued tasks into
  construction sites. It stops at the threshold of 95 existing sites and
  respects the per-room limit of 4. The global limit of 100 sites is
  checked only against the count taken at the start of the tick, so several
  rooms together can go past it.
- **The road constructor.** Creeps vote for tiles. Five live votes elect a
  tile and schedule a road there. `connect` schedules roads along paths.
- **The room builder.** It reads the objects on every tile in a square
  around a point of interest. It folds them into a cell matrix of free,
  disqualified, occupied and avoided cells, and marks the tiles near avoided
  areas and tight spaces. It then yields the free tiles, nearest rings first,
  keeping them apart from each other.
- **The building planner.** It decides how many structures of a plan are
  still wanted, and schedules them on the positions the room builder yields.
- **The worker.** A creep carries a current `WorkerTask` and a FIFO list of
  next tasks. `run` dispatches on the task's action.

Game-engine calls become parameters, as follows:

- room lookups become a `look` function;
- path lengths become a `pathLen` function;
- `PathFinder.search` becomes a `PathFinder` function from a cost surface to
  a path;
- `createConstructionSite` becomes a `create` function returning the engine's
  result code;
- `CONTROLLER_STRUCTURES` becomes a `ControllerStructures` table.

Mutable memory is modelled as values:

- the queues are a `map<string, seq<ConstructTask>>`;
- the road ballots are a `map<string, seq<int>>`;
- creep memory is a record.

The priority queues are sequences of `(priority, item)` entries. A heap
(`tasks/Queue.ts`) is modelled separately. The sorted queue of
`tasks/Queue.ts` has the same insert, peek and pop code as the one in
`utils/Queue.ts`, so `SortedQueue` models both.

Files and modules:

- `wrappers.dfy`: the `Option` type.
- `structures.dfy`: structure types, look objects, positions and the build
  priority list.
- `sorted_queue.dfy`: the sorted priority queue.
- `heap_queue.dfy`: the binary min-heap.
- `constructor.dfy`: construction tasks, the queue in memory, `schedule` and
  `tick`.
- `roads.dfy`: votes, road scheduling, the path cost surface and `connect`.
- `room_grid.dfy`: coordinate helpers and the ring generator
  `getCoordsWithinRange`.
- `placement.dfy`: the cell matrix, `markNearby`,
  `countQualifiedSpacesInRange` and `FindFreePosNearby`.
- `planner.dfy`: building plans, the level tables and `buildInRoom`.
- `worker_task.dfy`: the `WorkerAction` enumeration and the `WorkerTask`
  record.
- `worker.dfy`: the creep task list, dispatch and `pickBestEnergySource`.

Several behaviours of the code are modelled as written, and lemmas pin them
down:

- **Sorted-queue insert.** It never compares a new entry with the last
  element. It appends instead, so a queue can become unsorted
  (`SortedQueue.InsertNeverComparesLast`).
- **Pop order.** `pop` takes the *last* entry. In a sorted queue that is
  the one with the highest priority number, so `tick` then builds roads
  before spawns. Because of the insert quirk above, a queue loaded from
  memory need not be sorted, and then the last entry can be any task.
- **markNearby's skipped cell.** It compares the centre with swapped
  coordinates. So it skips the transposed cell `(centre.1, centre.0)`, not
  the centre.
- **Tight-space test.** `countQualifiedSpacesInRange` tests
  `dequalifiers.includes([type])`, which compares a fresh array by
  reference and is never true. Every neighbour counts, so for an interior
  cell the test only disqualifies it when more than 8 free neighbours are
  asked for (`Placement.TightSpaceNeedsNine`).
- **Zero means default.** Options are read with `||`. A road avoid rule of
  range 0 gets range 1, and a task priority of 0 becomes 5.
- **Extension plan filter.** The extension plan gives no structure filter,
  so every existing structure counts as an extension.
- **Cached site count.** `tick` reads the global number of sites once. Each
  room's budget is computed from that cached number, never from the sites
  created in earlier rooms. At 94 existing sites, two rooms with four
  acceptable tasks each get eight new sites, 102 in all
  (`Constructor.TickCanExceedSiteLimit`). Whether the engine accepts the
  extra sites is up to the `create` parameter; a refusal with `ERR_FULL`
  re-queues the task.
- **poiCount cap.** `buildInRoom` compares the room-wide running count
  `howMany` with `poiCount`, not the per-target `howManyHere`. The test runs
  after every position, including positions where scheduling was refused.
  So while the count equals `poiCount`, every later position stops the
  search, whether or not anything was scheduled there
  (`Planner.CapStopsAtRefused`). A count that starts below the cap stops
  there and never passes it (`Planner.CapNeverPassed`); the cap never fires
  when the count starts above it (`Planner.CapPassedNeverStops`).
- **isCheckered on negative coordinates.** It uses JavaScript's `%`, whose
  remainder on negative operands differs (`RoomGrid.CheckeredNegativeQuirk`).
- **Crashes become errors.**
  - An origin outside the room box reads `matrix[i]` of an undefined row and
    throws. The model returns `None`.
  - `RoomLevelRange` has no row for a level outside 0..8.
  - A structure type missing from the level table gives an undefined
    range. The search then asks the engine for an area with NaN bounds, and
    the model treats that search as failed (`None`) in a visible room.

## Model

| member | source | states |
|---|---|---|
| Structures.IndexOf | src/constructor/ConstructorController.ts:35 | `indexOf`: -1 exactly when the element is absent, otherwise the first index holding it |
| Structures.Priority | src/constructor/ConstructorController.ts:7-23 | a task's priority is the structure's position in the build-priority list, -1 exactly when it is not listed |
| Structures.SpawnFirst | src/constructor/ConstructorController.ts:8 | spawns get priority 0 |
| Structures.RoadLast | src/constructor/ConstructorController.ts:22 | roads get priority 14, higher than every other listed structure |
| Structures.FactoryUnlisted | src/constructor/ConstructorController.ts:7-23 | an unlisted structure (a factory) gets priority -1 |
| SortedQueue.InsertPos | src/utils/Queue.ts:44-54 | the insertion scan stops at the first entry of larger priority other than the last, and passes only entries of priority at most the new one |
| SortedQueue.Insert | src/utils/Queue.ts:38-55 | insert adds exactly the new entry at the scanned position, keeping the entries before and after in order |
| SortedQueue.ItemsInsert | src/utils/Queue.ts:38-55 | the queue's items after insert are the old items plus the new one |
| SortedQueue.InsertThenRemove | src/utils/Queue.ts:38-101 | removing at the insertion index undoes insert |
| SortedQueue.InsertAppends | src/utils/Queue.ts:44-48 | when no entry but possibly the last has a larger priority, insert appends |
| SortedQueue.InsertKeepsSorted | src/utils/Queue.ts:38-55 | on a sorted queue, insert keeps it sorted if and only if the queue is empty, the new priority is at least the last one, or the second-to-last already exceeds it |
| SortedQueue.InsertAfterEqual | src/utils/Queue.ts:50 | a new entry goes after every entry of equal priority (FIFO among equals) |
| SortedQueue.InsertNeverComparesLast | src/utils/Queue.ts:45-47 | inserting priority 1 into a queue holding only priority 5 appends and leaves the queue unsorted |
| SortedQueue.LoadInto | src/utils/Queue.ts:57-63 | loading inserts every item once: the items afterwards are the old ones plus the loaded ones |
| SortedQueue.Load | src/utils/Queue.ts:57-63 | a loaded queue holds exactly the given items |
| SortedQueue.LoadIntoSorted | src/utils/Queue.ts:57-63 | loading items that keep the queue sorted appends them in order |
| SortedQueue.LoadSortedIdentity | src/utils/Queue.ts:57-76 | loading a priority-sorted list and filtering with an always-true predicate gives the list back |
| SortedQueue.Filter | src/utils/Queue.ts:65-76 | filter keeps exactly the items satisfying the predicate, without adding any |
| SortedQueue.FilterAll | src/utils/Queue.ts:65-76 | an always-true filter lists every item in queue order |
| SortedQueue.FilterConcat | src/utils/Queue.ts:65-76 | filter distributes over concatenation of queues |
| SortedQueue.FindFrom | src/utils/Queue.ts:78-92 | the scan from a start index finds the first matching item and its index, and finds nothing only when no item from there on matches |
| SortedQueue.Find | src/utils/Queue.ts:78-92 | find returns the first matching item with its index, or nothing exactly when no item matches |
| SortedQueue.Remove | src/utils/Queue.ts:94-101 | remove succeeds exactly for an index inside the queue, and then deletes exactly that entry, shifting the rest; otherwise nothing changes |
| SortedQueue.RemoveItems | src/utils/Queue.ts:94-101 | a successful remove takes exactly the item at that index out of the queue |
| SortedQueue.Peek | src/utils/Queue.ts:107-109 | peek returns the first item, which on a sorted queue has the smallest priority, or nothing exactly when empty |
| SortedQueue.Pop | src/utils/Queue.ts:111-118 | pop removes and returns the last entry, which on a sorted queue has the largest priority |
| SortedQueue.PopItems | src/utils/Queue.ts:111-118 | pop takes exactly the last item out of the queue |
| SortedQueue.IsEmpty | src/utils/Queue.ts:103-105 | empty exactly when size is 0, exactly when pop and peek yield nothing |
| SortedQueue.Make | src/utils/Queue.ts:125-132 | the factory builds an empty queue without data, otherwise one holding exactly the data, in data order when it is already sorted |
| HeapQueue.Swap | src/tasks/Queue.ts:67-71 | swap exchanges two slots and leaves the others and the multiset unchanged |
| HeapQueue.RootIsMin | src/tasks/Queue.ts:58-63 | in a heap the root's priority is at most every node's |
| HeapQueue.Insert | src/tasks/Queue.ts:109-121 | insert with sift-up keeps the heap property and adds exactly the new node |
| HeapQueue.SiftUpStep | src/tasks/Queue.ts:113-119 | swapping a node with a parent that is not strictly smaller moves the only heap violation one level up |
| HeapQueue.ChildBound | src/tasks/Queue.ts:93-96 | the child picked as smaller has a priority no greater than every child of the node |
| HeapQueue.SiftDownStep | src/tasks/Queue.ts:93-103 | swapping with the smaller child moves the only heap violation one level down |
| HeapQueue.HeapBelowLeaf | src/tasks/Queue.ts:92 | when the sifted node has no child the whole sequence is a heap |
| HeapQueue.SiftDown | src/tasks/Queue.ts:91-104 | the sift-down loop restores the heap property without changing the contents |
| HeapQueue.Pop | src/tasks/Queue.ts:80-107 | pop returns the root, which has the minimum priority, removes exactly that node and keeps the heap property; on an empty heap it returns nothing |
| HeapQueue.Peek | src/tasks/Queue.ts:76 | peek returns a minimum-priority value, or nothing exactly when empty |
| HeapQueue.IsEmpty | src/tasks/Queue.ts:74 | empty exactly when size is 0 and peek yields nothing |
| HeapQueue.EmptyIsHeap | src/tasks/Queue.ts:59 | the initial empty heap satisfies the heap property |
| Constructor.NewTask | src/constructor/ConstructorController.ts:31-36 | a new task records its structure, position and room, and takes the structure's list priority |
| Constructor.NewTaskPriorities | src/constructor/ConstructorController.ts:31-36 | spawn tasks get 0, road tasks 14, unlisted structures -1 |
| Constructor.GetWorkQueue | src/constructor/ConstructorController.ts:62-68 | the room's work queue holds exactly the stored tasks (none for an unknown room), in stored order when that order is sorted |
| Constructor.SaveWorkQueue | src/constructor/ConstructorController.ts:70-73 | saving stores the queue's items under the room and changes no other room |
| Constructor.SaveLoadRoundTrip | src/constructor/ConstructorController.ts:62-73 | reading back a saved sorted queue gives the same queue |
| Constructor.GetScheduled | src/constructor/ConstructorController.ts:123-127 | the scheduled list holds exactly the room's stored tasks |
| Constructor.CheckSchedule | src/constructor/ConstructorController.ts:105-121 | finds a task at the position's tile, with its queue index, and finds none exactly when no stored task is on that tile |
| Constructor.Schedule | src/constructor/ConstructorController.ts:76-102 | scheduling succeeds exactly when the tile is free or holds a road task; a refusal changes nothing, and success touches only the task's room |
| Constructor.ScheduleContents | src/constructor/ConstructorController.ts:76-102 | a successful schedule adds the task, and when replacing a road removes exactly that road task |
| Constructor.SaveInserted | src/constructor/ConstructorController.ts:98-100 | insert then save stores the old items plus the task |
| Constructor.FoundIsStored | src/constructor/ConstructorController.ts:105-121 | searching the loaded queue finds a task at the tile exactly when such a task is stored |
| Constructor.Survivor | src/constructor/ConstructorController.ts:83-101 | after a successful schedule in a room, a task stays at each stored task's tile: the task itself, or the new task when it replaced that task |
| Constructor.ScheduleKeepsTiles | src/constructor/ConstructorController.ts:76-102 | every tile holding a stored task still holds one after any schedule |
| Constructor.TileStaysScheduled | src/constructor/ConstructorController.ts:105-121 | an occupied tile stays occupied under a change that keeps every task's tile |
| Constructor.KeepsTilesTrans | src/constructor/ConstructorController.ts:76-102 | keeping every scheduled tile composes over successive schedules |
| Constructor.ScheduleKeepsAll | src/constructor/ConstructorController.ts:76-102 | schedule never frees a scheduled tile |
| Constructor.ScheduleKeepsTile | src/constructor/ConstructorController.ts:76-102 | a tile found by checkSchedule is still found after any schedule |
| Constructor.RefusedTileTaken | src/constructor/ConstructorController.ts:79-95 | a refused schedule means the tile is already taken by a non-road task |
| Constructor.ScheduledIsStored | src/constructor/ConstructorController.ts:97-101 | after a successful schedule the task is stored and its tile is found |
| Constructor.FateOf | src/constructor/ConstructorController.ts:175-187 | a popped task becomes a site exactly when its room is visible and creation succeeds, and is re-queued exactly on ERR_FULL or ERR_RCL_NOT_ENOUGH in a visible room |
| Constructor.Drain | src/constructor/ConstructorController.ts:166-202 | the create loop pops from the end, creates at most the budget, stops only when the budget is used or the queue is empty, and sorts every popped task by its fate |
| Constructor.DrainConserves | src/constructor/ConstructorController.ts:166-202 | no task is lost or duplicated by the create loop: remaining, created, delayed and dropped tasks are exactly the original ones |
| Constructor.DrainStep | src/constructor/ConstructorController.ts:170-189 | one pop moves the last task into the list of its fate and leaves the rest of the queue to the next iteration |
| Constructor.Budget | src/constructor/ConstructorController.ts:166-169 | the site budget is the smaller of the global and per-room headroom |
| Constructor.BudgetIsLoopCondition | src/constructor/ConstructorController.ts:166-169 | the loop guard holds for n new sites exactly when n is below the budget |
| Constructor.TickRoom | src/constructor/ConstructorController.ts:148-210 | a room halts the tick exactly when its queue is empty or the limits are reached; otherwise only its queue is saved, with at most the budget of sites created, all successfully, and only tasks whose creation failed for good (an unseen room or an error other than full or level too low) discarded |
| Constructor.TickRoomConserves | src/constructor/ConstructorController.ts:163-210 | after a room's turn the saved queue plus created and dropped tasks are exactly the tasks that were stored |
| Constructor.TickRoomRequeues | src/constructor/ConstructorController.ts:181-210 | a stored task that `create` delays (the room is full, or its level too low) is back in the room's saved queue |
| Constructor.TickFrom | src/constructor/ConstructorController.ts:145-212 | rooms outside the list keep their queues and no queue appears outside the list; at most 4 sites per room are created, all successfully; a first room that halts ends the tick with nothing changed |
| Constructor.Tick | src/constructor/ConstructorController.ts:145-212 | a tick changes only the queues of visited rooms and creates at most 4 sites per room, all successful |
| Constructor.TickOverThreshold | src/constructor/ConstructorController.ts:156-161 | with 95 or more existing sites a tick changes nothing and creates nothing |
| Constructor.TickStopsAtEmptyRoom | src/constructor/ConstructorController.ts:150-153 | an empty queue in the first room ends the whole tick with nothing done |
| Constructor.TickStopsAtHaltingRoom | src/constructor/ConstructorController.ts:145-161 | a room at index i whose queue is empty or that has more than 4 sites ends the tick: every room listed only from i on keeps its queue, and at most 4·i sites are created |
| Constructor.TickRoomKeepsOthers | src/constructor/ConstructorController.ts:163-210 | a room's turn leaves every other room's stored queue as it was |
| Constructor.TickFromCons | src/constructor/ConstructorController.ts:145-212 | when the first room is handled, the tick is that room's outcome followed by the tick over the remaining rooms from the memory it saved |
| Constructor.DrainCreatesAll | src/constructor/ConstructorController.ts:166-202 | with every task visible and accepted and no more tasks than the budget, every queued task becomes a site |
| Constructor.RoomCreatesAll | src/constructor/ConstructorController.ts:156-210 | at 94 sites in all and none in the room, a room of four acceptable tasks gets all four built |
| Constructor.TickCanExceedSiteLimit | src/constructor/ConstructorController.ts:156-169 | the global limit is checked against the count cached before the tick: at 94 sites two rooms of four acceptable tasks get 8 sites, past the limit of 100 |
| Roads.NatToString | src/constructor/Roads.ts:63 | decimal rendering has at least one digit, no dash, and two or more digits exactly from 10 up |
| Roads.NatToStringInjective | src/constructor/Roads.ts:63 | distinct numbers render differently |
| Roads.Address | src/constructor/Roads.ts:63 | a ballot address starts with the room name and a dash, and has at least four more characters after the room name |
| Roads.AddressOfNatural | src/constructor/Roads.ts:63 | for non-negative coordinates the address is the room name, a dash, the decimal x, a dash and the decimal y |
| Roads.AddressInjective | src/constructor/Roads.ts:63 | for dash-free room names and non-negative coordinates, distinct tiles get distinct ballot addresses |
| Roads.ExpireVotes | src/constructor/Roads.ts:55-57 | keeps exactly the votes younger than the expiration, each with its multiplicity, and keeps them in order |
| Roads.ExpireConcat | src/constructor/Roads.ts:55-57 | expiring a concatenation expires each part: the filter works vote by vote |
| Roads.ExpireIdempotent | src/constructor/Roads.ts:55-57 | expiring twice at the same time is the same as once |
| Roads.LiveBallot | src/constructor/Roads.ts:55-57 | a ballot of votes all cast at a live time loses none |
| Roads.AllExpired | src/constructor/Roads.ts:55-57 | when every vote is old, expiring leaves none |
| Roads.VoteForRoad | src/constructor/Roads.ts:59-85 | a first vote records one ballot and elects nothing; otherwise the live votes plus one, all restamped now, elect exactly when they reach the threshold, which deletes the ballot |
| Roads.VoteIgnoresExpiration | src/constructor/Roads.ts:73 | the expiration argument is unused: the constant 100 applies |
| Roads.VoteGrows | src/constructor/Roads.ts:72-84 | a live ballot of k votes grows to k+1 votes stamped now while below the threshold |
| Roads.FifthVoteElects | src/constructor/Roads.ts:59-85 | five votes, each within 100 ticks of the previous, elect the tile on the fifth and clear its ballot |
| Roads.GapResetsBallot | src/constructor/Roads.ts:66-76 | after a gap of 100 ticks a ballot starts over at one vote |
| Roads.Gc | src/constructor/Roads.ts:143-152 | outside every 1000th tick and without force nothing changes; otherwise every ballot is expired and exactly the ones with a live vote remain |
| Roads.GcIdempotent | src/constructor/Roads.ts:143-152 | collecting twice at the same tick is the same as once |
| Roads.FindRoad | src/constructor/Roads.ts:41-48 | the search finds a road or road site on the tile, and finds none exactly when the tile has no such object |
| Roads.HaveRoad | src/constructor/Roads.ts:36-53 | a tile has a road exactly when its room is visible and a road or road construction site lies on it |
| Roads.BuildAt | src/constructor/Roads.ts:13-15 | building a road schedules it exactly when the tile is free or holds a road, and then a road task for the tile is stored in its room; the tile holds a task afterwards, and no tile is freed |
| Roads.ShouldBuildAt | src/constructor/Roads.ts:17-34 | in a visible room of level 2 or more without a road the vote is cast and its ballots kept, an elected tile is scheduled, the answer is `schedule`'s a true answer means a road task for the tile is stored, and every previously scheduled tile stays scheduled, and an unelected one changes nothing else; unseen rooms, rooms without a controller, low levels and existing roads change nothing; queues change only after an election |
| Roads.ShouldBuildAtFifth | src/constructor/Roads.ts:17-34 | after the fifth live vote on a road-less tile of a level-2 room the tile holds a task; when it was free or held a road task, the answer is true and a road task for it is stored |
| Roads.Paint | src/constructor/Roads.ts:105-125 | painting costs never removes a tile already set, and sets the tile of every item that has a cost |
| Roads.PaintIsLastWrite | src/constructor/Roads.ts:105-125 | a tile's painted cost is the last cost written to it, or its earlier cost |
| Roads.BuildingCost | src/constructor/Roads.ts:107-119 | roads cost 1, containers and own ramparts are left unset, everything else is blocked |
| Roads.TaskCost | src/constructor/Roads.ts:122-125 | a scheduled task always sets a cost, 1 exactly for roads |
| Roads.CostSurface | src/constructor/Roads.ts:105-127 | the cost surface sets every scheduled task's tile and the tile of every road, blocking structure or site |
| Roads.ScheduledOverrides | src/constructor/Roads.ts:101-127 | a scheduled task's tile costs 1 for a road and 0xff otherwise, whatever structures and sites are there |
| Roads.LastScheduled | src/constructor/Roads.ts:122-125 | the last scheduled task on a tile decides its cost |
| Roads.UntouchedTileUnset | src/constructor/Roads.ts:101-127 | a tile with no structure, site or scheduled task has no cost set |
| Roads.NoWriteAt | src/constructor/Roads.ts:105-125 | items on other tiles leave a tile's cost unchanged |
| Roads.RoomCosts | src/constructor/Roads.ts:101-128 | the callback gives no matrix exactly for a room that is not visible, and otherwise sets every scheduled tile of the room |
| Roads.BuildPath | src/constructor/Roads.ts:132-137 | after walking a path every tile on it has a road or a scheduled task, and no scheduled tile is freed |
| Roads.Connect | src/constructor/Roads.ts:87-141 | no destinations means no change; otherwise no scheduled tile is freed |
| RoomGrid.BoundCoords | src/constructor/RoomBuilder.ts:99-103 | clamps a coordinate into 2..47 |
| RoomGrid.IsCoordValid | src/constructor/RoomBuilder.ts:105-107 | valid exactly for 2..47 |
| RoomGrid.IsPosValid | src/constructor/RoomBuilder.ts:109-111 | valid exactly when both coordinates are in 2..47 |
| RoomGrid.IsEdge | src/constructor/RoomBuilder.ts:68-70 | every cell at Chebyshev distance `range` is on the edge, and no edge cell is nearer than `range` |
| RoomGrid.IsCloseToRoomEdge | src/constructor/RoomBuilder.ts:72-74 | close to the edge exactly when some neighbour of the tile leaves the valid 2..47 square; a tile not close is valid |
| RoomGrid.IsCheckered | src/constructor/RoomBuilder.ts:315-317 | on non-negative coordinates, checkered exactly when the two cells are an even number of steps apart |
| RoomGrid.CheckeredNegativeQuirk | src/constructor/RoomBuilder.ts:315-317 | with a negative coordinate the test is not the parity test |
| RoomGrid.RowPartMembers | src/constructor/RoomBuilder.ts:236-247 | `RowPart`, one column sweep, yields exactly the valid cells of that column span on the two ring rows |
| RoomGrid.ColPartMembers | src/constructor/RoomBuilder.ts:257-259 | `ColPart`, the transposed sweep, yields exactly the valid cells of that row span on the two ring columns |
| RoomGrid.RingMembers | src/constructor/RoomBuilder.ts:249-261 | `Ring`, one pass of the loop, yields exactly the valid cells at distance d |
| RoomGrid.DistIsRing | src/constructor/RoomBuilder.ts:249-261 | the cells at distance d are the cells on ring d's two rows strictly between its columns, plus the cells on its two columns |
| RoomGrid.Rings | src/constructor/RoomBuilder.ts:249-261 | the rings from d (at least 1) to range yield only valid cells at distance d to range |
| RoomGrid.RingsMembers | src/constructor/RoomBuilder.ts:249-261 | the rings from d to range yield exactly the valid cells at those distances |
| RoomGrid.CoordsWithinRange | src/constructor/RoomBuilder.ts:231-262 | the generator yields the origin first, then only valid cells at distance 1 to range |
| RoomGrid.CoordsMembers | src/constructor/RoomBuilder.ts:231-262 | the generator yields the origin and exactly the valid cells within the range |
| RoomGrid.CoordsOutward | src/constructor/RoomBuilder.ts:231-262 | cells come nearest first: distance from the origin never decreases |
| RoomGrid.RingsOutward | src/constructor/RoomBuilder.ts:249-261 | the rings yield cells in non-decreasing distance, none nearer than d |
| RoomGrid.RowPartDistinct | src/constructor/RoomBuilder.ts:236-247 | a column sweep yields no cell twice |
| RoomGrid.ColPartDistinct | src/constructor/RoomBuilder.ts:257-259 | a transposed sweep yields no cell twice |
| RoomGrid.RingsDistinct | src/constructor/RoomBuilder.ts:249-261 | the rings yield no cell twice |
| RoomGrid.CoordsDistinct | src/constructor/RoomBuilder.ts:231-262 | the generator yields no cell twice |
| Placement.OrInt | src/constructor/RoomBuilder.ts:25 | an option read with `\|\|`: a given nonzero value wins, otherwise the default |
| Placement.NewAvoidStruct | src/constructor/RoomBuilder.ts:16-29 | an avoid rule defaults to range 1, no kind and not checkered, and takes the options' values when given (range 0 read as 1) |
| Placement.AvoidListRoadRange | src/constructor/RoomBuilder.ts:56-65 | the stock road rule has range 1 (its 0 is read as the default) and resolves to disqualified; towers are avoided within 7 |
| Placement.Normalize | src/constructor/RoomBuilder.ts:152 | every avoid rule gets a nonzero kind, defaulting to avoid-area, with its range kept |
| Placement.NormalizeAll | src/constructor/RoomBuilder.ts:152 | every rule of the list is normalised in place |
| Placement.NormalizeIdempotent | src/constructor/RoomBuilder.ts:152 | normalising twice is normalising once |
| Placement.ApplyAvoids | src/constructor/RoomBuilder.ts:176-183 | the cell is kept or becomes a matching rule's kind and range; its range never drops, and ends at least that of every matching rule with a kind |
| Placement.ReduceStep | src/constructor/RoomBuilder.ts:162-184 | an object that no rule matches leaves the cell alone unless it blocks the tile, which makes any cell but an avoided area occupied; for an object that does not block the tile, the range never drops |
| Placement.CellOf | src/constructor/RoomBuilder.ts:162-185 | a tile whose objects neither block it nor match a rule keeps its initial cell |
| Placement.FreeOnlyUntouched | src/constructor/RoomBuilder.ts:157-185 | a tile stays free only if it started free and nothing on it blocks or matches a rule |
| Placement.StaysTaken | src/constructor/RoomBuilder.ts:162-185 | with normalised rules a non-free start never becomes free |
| Placement.BlockedIsOccupied | src/constructor/RoomBuilder.ts:164-173 | a wall, non-road structure or site, or source, not matched by a rule, makes the cell occupied |
| Placement.NoMatchUnchanged | src/constructor/RoomBuilder.ts:176-183 | rules that do not match an object leave the cell unchanged |
| Placement.MarkFrom | src/constructor/RoomBuilder.ts:304-312 | the marking loop disqualifies exactly the free cells it visits, apart from the transposed centre and checkered exemptions |
| Placement.MarkNearby | src/constructor/RoomBuilder.ts:295-313 | markNearby turns exactly the free cells within range, other than the transposed centre and checkered exemptions, into disqualified, and nothing else |
| Placement.ReachesGeometry | src/constructor/RoomBuilder.ts:295-313 | the cells markNearby reaches are the centre or valid cells within range, minus the transposed centre and checkered cells |
| Placement.CountFrom | src/constructor/RoomBuilder.ts:273-292 | a count below the cap is exactly the starting count plus the number of non-centre cells visited, whatever the matrix holds |
| Placement.CountQualified | src/constructor/RoomBuilder.ts:264-293 | the count from zero falls short of the cap exactly when the number of neighbours within range does |
| Placement.CountShortIff | src/constructor/RoomBuilder.ts:273-292 | the count falls short of the maximum exactly when the number of non-centre cells visited does |
| Placement.InteriorNeighbours | src/constructor/RoomBuilder.ts:274-275 | an interior cell has 8 neighbours at range 1 |
| Placement.TightSpaceNeedsNine | src/constructor/RoomBuilder.ts:199-203 | for an interior cell the tight-space test fails exactly when more than 8 free neighbours are asked for |
| Placement.Initial | src/constructor/RoomBuilder.ts:157-161 | a cell starts free exactly when it is neither on the search border nor close to the room edge, otherwise disqualified |
| Placement.SeedFrom | src/constructor/RoomBuilder.ts:156-186 | every visited tile's cell is the fold of its objects from its initial value; other cells are unchanged |
| Placement.Seeded | src/constructor/RoomBuilder.ts:150-186 | the first pass gives a cell to exactly the tiles within the bordered range |
| Placement.SeededCovers | src/constructor/RoomBuilder.ts:150-186 | the seeded matrix has a cell for every tile of the inner range |
| Placement.SeededFreeIsEntry | src/constructor/RoomBuilder.ts:150-186 | every free cell of the seeded matrix is the plain free entry |
| Placement.RefineStep | src/constructor/RoomBuilder.ts:191-205 | one cell of the second pass only demotes free cells, leaves no free cell in reach of an avoided cell, and keeps a free cell only with enough qualified neighbours |
| Placement.QualifiedStable | src/constructor/RoomBuilder.ts:264-293 | whether a cell has enough qualified neighbours depends only on which cells the matrix holds, not on their contents |
| Placement.RefineFrom | src/constructor/RoomBuilder.ts:191-205 | the second pass only turns free cells into disqualified, clears free cells around every avoided area, and leaves free only cells with enough free neighbours |
| Placement.YieldFrom | src/constructor/RoomBuilder.ts:210-228 | yielded tiles were free, within path range, in the room, and no two yielded tiles are within each other's markNearby reach (the transposed and checkered cells are exempt); nothing is missed: every free coordinate within path range that no yielded tile's marking reaches is yielded |
| Placement.Refined | src/constructor/RoomBuilder.ts:150-205 | after both passes only free cells were demoted, no free cell lies within an avoided area's range, and every free cell has enough free neighbours |
| Placement.FindFreePosNearby | src/constructor/RoomBuilder.ts:138-229 | an unseen room yields nothing; a visible one fails exactly when the target's box leaves the room; yielded tiles are in the room, within path range, and no two of them are within each other's markNearby reach (the transposed and checkered cells are exempt); every coordinate within range that is free after refinement, within path range and reached by no yielded tile's marking is yielded |
| Placement.FindFreeLegal | src/constructor/RoomBuilder.ts:138-229 | every yielded tile is within range of the target, away from the room edge, free of blocking objects, and passed the free-neighbour count |
| Placement.SeededFree | src/constructor/RoomBuilder.ts:157-185 | a free seeded cell is off the border, away from the room edge, and carries no blocking object |
| Planner.NewBuildingPlan | src/constructor/RoomBuilder.ts:339-367 | a plan takes defaults -1, 3, 3, no avoids, not checkered, accept-all filter, overridden by given non-zero options |
| Planner.ContainerBuildingPlan | src/constructor/RoomBuilder.ts:369-377 | the container plan: one per target, 1 free neighbour, spacing 7, counts containers and storage, avoids containers within 7 |
| Planner.ExtensionBuildingPlan | src/constructor/RoomBuilder.ts:379-393 | the extension plan: no cap, 3 free neighbours, spacing 1, six range-1 avoid rules and sources within 2, all resolving to avoid-area, and its filter counts every structure |
| Planner.RoomLevelRange | src/constructor/RoomBuilder.ts:395-439 | ranges exist only for levels 0..8 and lie between 1 and 15; containers have range 1 at every level; types outside the table have none |
| Planner.RangesNeverShrink | src/constructor/RoomBuilder.ts:395-439 | a structure's placement range never shrinks as the controller level rises |
| Planner.GetDesiredRange | src/constructor/RoomBuilder.ts:465-471 | range 5 without a controller, otherwise the level table's entry |
| Planner.GetDesiredNumber | src/constructor/RoomBuilder.ts:458-463 | zero without a controller, otherwise the controller table's count or zero |
| Planner.CountWhere | src/constructor/RoomBuilder.ts:482-486 | the count of matching elements, zero exactly when none match |
| Planner.Place | src/constructor/RoomBuilder.ts:513-522 | the placement loop lowers togo and raises howMany by the number of tiles scheduled, all taken from the yielded positions; the scheduling call is a parameter, which `PlaceAround` fills with `schedule` |
| Planner.SchedulingIsSound | src/constructor/RoomBuilder.ts:514 | scheduling a new task of the plan's type never frees a tile that holds a task and always leaves a task on the tile it was given |
| Planner.PlaceStep | src/constructor/RoomBuilder.ts:514 | after scheduling a task its tile holds a task |
| Planner.PlaceKeepsTile | src/constructor/RoomBuilder.ts:513-522 | the placement loop never frees a scheduled tile |
| Planner.PlaceKeepsTiles | src/constructor/RoomBuilder.ts:513-522 | the placement loop keeps every scheduled tile |
| Planner.PlacedScheduled | src/constructor/RoomBuilder.ts:513-522 | every tile counted as placed holds a task afterwards |
| Planner.PlaceTriesAll | src/constructor/RoomBuilder.ts:513-522 | if the loop neither finished nor hit the cap, every yielded position holds a task afterwards |
| Planner.CapPassedNeverStops | src/constructor/RoomBuilder.ts:519 | once the running count exceeds poiCount the cap never stops the loop |
| Planner.CapNeverPassed | src/constructor/RoomBuilder.ts:513-521 | a running count that starts below poiCount ends at most at poiCount: the loop stops as soon as the count reaches the cap, after a success as after a refusal |
| Planner.CapStopsAtRefused | src/constructor/RoomBuilder.ts:513-521 | while the running count equals poiCount, a refused position still ends the loop before the next position is tried |
| Planner.SearchAround | src/constructor/RoomBuilder.ts:502-509 | a target in an unseen room yields nothing; no two yielded positions are within each other's markNearby reach at the plan's distance (the transposed and checkered cells are exempt) |
| Planner.PlaceAround | src/constructor/RoomBuilder.ts:500-528 | over all targets togo drops by the number placed, placed tiles hold tasks, and no scheduled tile is freed |
| Planner.Existing | src/constructor/RoomBuilder.ts:482-489 | the existing count is at most the structures plus sites, and zero exactly when no structure passes the plan's filter and no site has the plan's type |
| Planner.ToGo | src/constructor/RoomBuilder.ts:482-490 | the number still wanted is at most the desired number less the existing ones, with equality exactly when no task of the type is scheduled |
| Planner.BuildTo | src/constructor/RoomBuilder.ts:492-532 | with togo below 1 nothing is done; never more than togo are placed, success means exactly togo, placed tiles hold tasks and no scheduled tile is freed |
| Planner.BuildInRoom | src/constructor/RoomBuilder.ts:481-533 | nothing is done when none are wanted; never more than togo are placed, success means exactly togo were placed, placed tiles hold tasks, and no scheduled tile is freed |
| WorkerTasks.Code | src/tasks/WorkerTask.ts:1-16 | each action has a number below 14, 0 exactly for idle |
| WorkerTasks.FromCode | src/tasks/WorkerTask.ts:1-16 | a number names an action exactly when it is in 0..13 |
| WorkerTasks.CodeRoundTrip | src/tasks/WorkerTask.ts:1-16 | numbering and reverse lookup are inverse |
| WorkerTasks.CodeInjective | src/tasks/WorkerTask.ts:1-16 | distinct actions have distinct numbers |
| WorkerTasks.NewWorkerTask | src/tasks/WorkerTask.ts:23-27 | a task keeps its action and target; a given non-zero priority is kept, otherwise 5 |
| WorkerTasks.ZeroPriorityIsDefault | src/tasks/WorkerTask.ts:26 | priority 0 is replaced by the default 5 |
| Worker.IdleTask | src/tasks/Worker.ts:79 | the idle task has no target and the default priority |
| Worker.QueueTask | src/tasks/Worker.ts:48-50 | queueing appends the task to the back of the next tasks |
| Worker.InjectTask | src/tasks/Worker.ts:53-56 | injecting makes the task current and puts the old current task at the front of the queue |
| Worker.PushTask | src/tasks/Worker.ts:59-61 | pushing puts the task at the front of the queue and keeps the current one |
| Worker.TargetTask | src/tasks/Worker.ts:64-66 | targeting changes only the current task's target |
| Worker.CompleteTask | src/tasks/Worker.ts:69-81 | completing moves to the first queued task, or to idle when the queue is empty |
| Worker.QueueMoveTask | src/tasks/Worker.ts:84-91 | a creep already moving is unchanged; otherwise a move task is injected in front |
| Worker.IdleStep | src/tasks/Worker.ts:94-104 | idling resets the role and moves to the next queued task if any |
| Worker.CompleteUndoesInject | src/tasks/Worker.ts:53-81 | completing right after an inject restores the creep |
| Worker.CompleteTakesPushed | src/tasks/Worker.ts:59-81 | completing right after a push makes the pushed task current |
| Worker.MoveThenComplete | src/tasks/Worker.ts:69-91 | a queued move, once completed, returns to the interrupted task |
| Worker.QueueMoveIdempotent | src/tasks/Worker.ts:84-91 | a second move request while moving is ignored |
| Worker.AdvanceRunsQueueInOrder | src/tasks/Worker.ts:69-81 | completing k+1 times runs the queued tasks in FIFO order, then idles |
| Worker.IdleStays | src/tasks/Worker.ts:69-81 | an idle creep with nothing queued stays idle |
| Worker.QueuedRunsLast | src/tasks/Worker.ts:48-81 | a queued task becomes current after every task queued before it |
| Worker.Dispatch | src/tasks/Worker.ts:530-592 | each action's handler maps back to that action, so no two actions share a handler |
| Worker.DispatchIsBijective | src/tasks/Worker.ts:530-592 | run dispatches each action to its own handler, and every handler is reached |
| Worker.PickBestEnergySource | src/tasks/Worker.ts:594-610 | no source exactly when every source has more than 100 miners; otherwise one with the fewest miners, the last such one |

## Left out

- Engine calls (`room.lookAt`, `lookAtArea`, `find`, `PathFinder.search`, `createConstructionSite`, `findInRange`, `Game.time`) are parameters; their internals are not modelled.
- `CONTROLLER_STRUCTURES` is a game constant table, passed in as `ControllerStructures`.
- The site caches (`buildSiteCache`, `countAllSites`, `getSitesForRoom`) are replaced by the counts they return, passed in.
- Destroying a road under a newly created site in `tick` is an engine side effect with no effect on the queues; it is left out.
- Console logging, `printMatrix` and `creep.say` have no effect on state and are left out.
- `getBuildingPoI` is replaced by the list of source positions passed in; `poiSort` is never used by the code.
- The cached `isCheckered` of an avoid-area cell is never set, so the second pass always marks without the checkered exemption; the model fixes it to false.
- The worker action handlers (`move`, `harvestEnergy`, `build`, and the rest), `spawn`, the role classes, `TaskController`, `main.ts` and random helpers call the engine for every step and are not part of this model; `run` is modelled as its dispatch.
- `Planner.SearchAround`: states only spacing and the unseen-room case; the placement guarantees are stated on `Placement.FindFreePosNearby` and `Placement.FindFreeLegal`.
- `Roads.Connect`: states that no scheduled tile is freed, not that every path tile gets a road, because the paths come from the path-finding oracle; `Roads.BuildPath` states the per-path guarantee.
- `Constructor.Tick`: does not state the per-room multiset conservation; `Constructor.TickRoomConserves` states it room by room.
- `Planner.BuildInRoom`: an undefined range or a target box leaving the room throws in the code; the model returns `None` and states nothing further for that case.
- Integers are unbounded; all counts in the code stay far below 2^53.

=== FILE: constructor.dfy ===
/** The construction scheduler of src/constructor/ConstructorController.ts.
    `Memory.constructionQueues` is a map from room name to the stored list of
    tasks; every operation reloads a room's queue from it through the sorted
    queue's `load` and writes it back with `filter(() => true)`. The engine's
    `createConstructionSite` is an oracle parameter. */
module Constructor {
  import opened Wrappers
  import opened Structures
  import SQ = SortedQueue

  const ConstructionSiteLimit: int := 100
  const ExistingSiteThreshold: int := 95
  const SitesPerRoomLimit: int := 4

  /** A build order. The constructor always copies `roomName` from the
      position, so it is derived from `pos` here. */
  datatype ConstructTask = ConstructTask(structure: StructureType, pos: Pos, priority: int) {
    function roomName(): string {
      pos.roomName
    }
  }

  /** `new ConstructTask(structure, pos)`: the priority is the structure's
      index in `structurePriority`. */
  function NewTask(structure: StructureType, pos: Pos): (t: ConstructTask)
    ensures t.structure == structure && t.pos == pos && t.roomName() == pos.roomName
    ensures t.priority == Priority(structure)
  {
    ConstructTask(structure, pos, Priority(structure))
  }

  /** A new spawn task is queued first (0), a road last (14), a factory at -1. */
  lemma NewTaskPriorities(pos: Pos)
    ensures NewTask(Spawn, pos).priority == 0
    ensures NewTask(Road, pos).priority == 14
    ensures NewTask(Factory, pos).priority == -1
  {
    SpawnFirst();
    RoadLast();
    FactoryUnlisted();
  }

  function TaskPriority(t: ConstructTask): int {
    t.priority
  }

  /** `Memory.constructionQueues`. */
  type Queues = map<string, seq<ConstructTask>>

  /** The stored list for a room; a missing entry reads as empty. */
  function Stored(mem: Queues, roomName: string): seq<ConstructTask> {
    if roomName in mem then mem[roomName] else []
  }

  /** `getWorkQueue`: the room's stored list, loaded through `insert`. It holds
      exactly the stored tasks, in the stored order when that order is sorted. */
  function GetWorkQueue(mem: Queues, roomName: string): (q: SQ.Queue<ConstructTask>)
    ensures multiset(SQ.Items(q)) == multiset(Stored(mem, roomName))
    ensures SQ.SortedBy(Stored(mem, roomName), TaskPriority) ==> SQ.Items(q) == Stored(mem, roomName)
  {
    SQ.Make(if roomName in mem then Some(mem[roomName]) else None, TaskPriority)
  }

  /** `saveWorkQueue`: stores the queue's items in queue order under the room,
      leaving every other room as it was. */
  function SaveWorkQueue(mem: Queues, roomName: string, q: SQ.Queue<ConstructTask>): (r: Queues)
    ensures r.Keys == mem.Keys + {roomName}
    ensures r[roomName] == SQ.Items(q)
    ensures forall n :: n in mem && n != roomName ==> r[n] == mem[n]
  {
    SQ.FilterAll(q);
    mem[roomName := SQ.Filter(q, _ => true)]
  }

  /** Every pair's priority is its task's own priority, as `insert(task)`
      stores it. */
  predicate Consistent(q: SQ.Queue<ConstructTask>) {
    forall i :: 0 <= i < |q| ==> q[i].priority == q[i].item.priority
  }

  /** Saving a sorted queue and loading it again gives back the same queue. */
  lemma SaveLoadRoundTrip(mem: Queues, roomName: string, q: SQ.Queue<ConstructTask>)
    requires SQ.Sorted(q) && Consistent(q)
    ensures GetWorkQueue(SaveWorkQueue(mem, roomName, q), roomName) == q
  {
    var items := SQ.Items(q);
    assert SQ.SortedBy(items, TaskPriority) by {
      forall i, j | 0 <= i < j < |items|
        ensures TaskPriority(items[i]) <= TaskPriority(items[j])
      {
        assert q[i].priority <= q[j].priority;
      }
    }
    SQ.LoadSortedIdentity(items, TaskPriority);
    assert SQ.Entries(items, TaskPriority) == q;
  }

  /** `getScheduled`: the room's queue as loaded, read back in queue order.
      It holds the stored tasks, in stored order when that order is sorted. */
  function GetScheduled(mem: Queues, roomName: string): (r: seq<ConstructTask>)
    ensures multiset(r) == multiset(Stored(mem, roomName))
    ensures SQ.SortedBy(Stored(mem, roomName), TaskPriority) ==> r == Stored(mem, roomName)
  {
    SQ.FilterAll(GetWorkQueue(mem, roomName));
    SQ.Filter(GetWorkQueue(mem, roomName), _ => true)
  }

  /** The duplicate test of `checkSchedule`: same room and same x, y. The
      structure type is not compared. */
  predicate AtTile(t: ConstructTask, pos: Pos) {
    t.roomName() == pos.roomName && t.pos.x == pos.x && t.pos.y == pos.y
  }

  /** `checkSchedule(pos)`: the first queued task at the tile, with its index
      in the loaded queue; `undefined` exactly when no stored task of the room
      is at that tile. */
  function CheckSchedule(mem: Queues, pos: Pos): (r: Option<SQ.Found<ConstructTask>>)
    ensures r.None? <==> forall t :: t in Stored(mem, pos.roomName) ==> !AtTile(t, pos)
    ensures r.Some? ==> AtTile(r.value.item, pos) && r.value.item in Stored(mem, pos.roomName)
    ensures r.Some? ==> var q := GetWorkQueue(mem, pos.roomName);
      0 <= r.value.idx < |q| && q[r.value.idx].item == r.value.item
  {
    var q := GetWorkQueue(mem, pos.roomName);
    var r := SQ.Find(q, t => AtTile(t, pos));
    FoundIsStored(Stored(mem, pos.roomName), q, pos, r);
    r
  }

  /** Searching a queue that holds the stored tasks finds a task at the tile
      exactly when one is stored there. */
  lemma FoundIsStored(stored: seq<ConstructTask>, q: SQ.Queue<ConstructTask>, pos: Pos,
                      r: Option<SQ.Found<ConstructTask>>)
    requires multiset(SQ.Items(q)) == multiset(stored)
    requires r == SQ.Find(q, t => AtTile(t, pos))
    ensures r.None? <==> forall t :: t in stored ==> !AtTile(t, pos)
    ensures r.Some? ==> AtTile(r.value.item, pos) && r.value.item in stored
  {
    var items := SQ.Items(q);
    assert forall t :: t in stored <==> t in items by {
      forall t ensures t in stored <==> t in items {
        assert t in stored <==> t in multiset(stored);
        assert t in items <==> t in multiset(items);
      }
    }
    if r.Some? {
      assert items[r.value.idx] == r.value.item;
    } else {
      forall t | t in items
        ensures !AtTile(t, pos)
      {
        var j :| 0 <= j < |items| && items[j] == t;
        assert q[j].item == t;
      }
    }
  }

  /** `schedule(task)`. With no task at the tile, the task is added; with a
      road there, the road is swapped for the task (even when the task is a
      road too); otherwise nothing changes and the result is false. */
  function Schedule(mem: Queues, task: ConstructTask): (r: (bool, Queues))
    ensures var found := CheckSchedule(mem, task.pos);
      r.0 <==> found.None? || found.value.item.structure == Road
    ensures !r.0 ==> r.1 == mem
    ensures r.0 ==> r.1.Keys == mem.Keys + {task.roomName()}
    ensures r.0 ==> forall n :: n in mem && n != task.roomName() ==> r.1[n] == mem[n]
  {
    var room := task.roomName();
    var q := GetWorkQueue(mem, room);
    match CheckSchedule(mem, task.pos)
    case None =>
      (true, SaveWorkQueue(mem, room, SQ.Insert(q, task.priority, task)))
    case Some(found) =>
      if found.item.structure == Road then
        (true, SaveWorkQueue(mem, room, SQ.Insert(SQ.Remove(q, found.idx).1, task.priority, task)))
      else
        (false, mem)
  }

  /** What a successful `schedule` stores for the task's room: the old tasks
      plus the new one, less the road it replaced, if any. */
  lemma ScheduleContents(mem: Queues, task: ConstructTask)
    requires Schedule(mem, task).0
    ensures var m := Schedule(mem, task).1; var found := CheckSchedule(mem, task.pos);
      found.None? ==>
      multiset(m[task.roomName()]) == multiset(Stored(mem, task.roomName())) + multiset{task}
    ensures var m := Schedule(mem, task).1; var found := CheckSchedule(mem, task.pos);
      found.Some? ==>
      multiset(m[task.roomName()]) + multiset{found.value.item}
      == multiset(Stored(mem, task.roomName())) + multiset{task}
  {
    var room := task.roomName();
    var q := GetWorkQueue(mem, room);
    var found := CheckSchedule(mem, task.pos);
    if found.None? {
      assert Schedule(mem, task).1 == SaveWorkQueue(mem, room, SQ.Insert(q, task.priority, task));
      SaveInserted(mem, room, q, task);
    } else {
      var removed := SQ.Remove(q, found.value.idx).1;
      assert Schedule(mem, task).1 == SaveWorkQueue(mem, room, SQ.Insert(removed, task.priority, task));
      SQ.RemoveItems(q, found.value.idx);
      SaveInserted(mem, room, removed, task);
    }
  }

  /** Inserting into a queue and saving it stores the queue's items plus the
      new task. */
  lemma SaveInserted(mem: Queues, room: string, q: SQ.Queue<ConstructTask>, task: ConstructTask)
    ensures multiset(SaveWorkQueue(mem, room, SQ.Insert(q, task.priority, task))[room])
      == multiset(SQ.Items(q)) + multiset{task}
  {
    SQ.ItemsInsert(q, task.priority, task);
  }

  /** A stored task at a tile stays scheduled at that tile through any call
      of `schedule`: the only task removed is a road at the new task's tile,
      and the new task takes its place. */
  lemma ScheduleKeepsTiles(mem: Queues, task: ConstructTask, t: ConstructTask)
    requires t in Stored(mem, t.roomName())
    ensures CheckSchedule(Schedule(mem, task).1, t.pos).Some?
  {
    var (ok, mem') := Schedule(mem, task);
    var room := t.roomName();
    if !ok || room != task.roomName() {
      assert Stored(mem', room) == Stored(mem, room);
      StoredAtTile(mem', t, t.pos);
    } else {
      var u := Survivor(mem, task, t);
      StoredAtTile(mem', u, t.pos);
    }
  }

  /** A stored task makes its tile scheduled. */
  lemma StoredAtTile(mem: Queues, u: ConstructTask, pos: Pos)
    requires u in Stored(mem, pos.roomName) && AtTile(u, pos)
    ensures CheckSchedule(mem, pos).Some?
  {
  }

  /** After a successful `schedule` in a task's room, some stored task sits at
      that task's tile: the task itself, or the new task when it replaced it. */
  lemma Survivor(mem: Queues, task: ConstructTask, t: ConstructTask) returns (u: ConstructTask)
    requires Schedule(mem, task).0 && t.roomName() == task.roomName()
    requires t in Stored(mem, t.roomName())
    ensures u in Stored(Schedule(mem, task).1, t.roomName()) && AtTile(u, t.pos)
  {
    var mem' := Schedule(mem, task).1;
    var room := t.roomName();
    var found := CheckSchedule(mem, task.pos);
    ScheduleContents(mem, task);
    var after := multiset(mem'[room]);
    var before := multiset(Stored(mem, room));
    assert t in before;
    if found.None? {
      u := t;
    } else if t == found.value.item {
      SurvivesSwap(after, t, before, task, task);
      u := task;
    } else {
      SurvivesSwap(after, found.value.item, before, task, t);
      u := t;
    }
    assert u in after;
    assert Stored(mem', room) == mem'[room];
  }

  /** After exchanging `out` for `added`, every other element of the old
      multiset is still there, and so is `added` when `out` was there. */
  lemma SurvivesSwap<T>(a: multiset<T>, out: T, b: multiset<T>, added: T, x: T)
    requires a + multiset{out} == b + multiset{added}
    requires x == added ==> x != out || out in b
    requires x != added ==> x in b && x != out
    ensures x in a
  {
    assert (a + multiset{out})[x] == a[x] + (if x == out then 1 else 0);
  }

  /** Every task stored in `mem` still has some task scheduled at its tile
      in `mem'`. */
  ghost predicate KeepsTiles(mem: Queues, mem': Queues) {
    forall t: ConstructTask :: t in Stored(mem, t.roomName()) ==> CheckSchedule(mem', t.pos).Some?
  }

  /** A tile with a task scheduled stays scheduled under `KeepsTiles`. */
  lemma TileStaysScheduled(mem: Queues, mem': Queues, pos: Pos)
    requires KeepsTiles(mem, mem')
    requires CheckSchedule(mem, pos).Some?
    ensures CheckSchedule(mem', pos).Some?
  {
    var t := CheckSchedule(mem, pos).value.item;
    assert t.pos == pos;
    assert t in Stored(mem, t.roomName());
  }

  lemma KeepsTilesTrans(m1: Queues, m2: Queues, m3: Queues)
    requires KeepsTiles(m1, m2) && KeepsTiles(m2, m3)
    ensures KeepsTiles(m1, m3)
  {
    forall t: ConstructTask | t in Stored(m1, t.roomName())
      ensures CheckSchedule(m3, t.pos).Some?
    {
      TileStaysScheduled(m2, m3, t.pos);
    }
  }

  /** `schedule` keeps every scheduled tile scheduled. */
  lemma ScheduleKeepsAll(mem: Queues, task: ConstructTask)
    ensures KeepsTiles(mem, Schedule(mem, task).1)
  {
    forall t: ConstructTask | t in Stored(mem, t.roomName())
      ensures CheckSchedule(Schedule(mem, task).1, t.pos).Some?
    {
      ScheduleKeepsTiles(mem, task, t);
    }
  }

  /** A scheduled tile stays scheduled through any call of `schedule`. */
  lemma ScheduleKeepsTile(mem: Queues, task: ConstructTask, pos: Pos)
    requires CheckSchedule(mem, pos).Some?
    ensures CheckSchedule(Schedule(mem, task).1, pos).Some?
  {
    var t := CheckSchedule(mem, pos).value.item;
    assert t.pos == pos;
    ScheduleKeepsTiles(mem, task, t);
  }

  /** A refused `schedule` found a task already at the tile. */
  lemma RefusedTileTaken(mem: Queues, task: ConstructTask)
    requires !Schedule(mem, task).0
    ensures CheckSchedule(mem, task.pos).Some?
  {
  }

  /** After a successful `schedule`, the task is stored under its room. */
  lemma ScheduledIsStored(mem: Queues, task: ConstructTask)
    requires Schedule(mem, task).0
    ensures task in Stored(Schedule(mem, task).1, task.roomName())
    ensures CheckSchedule(Schedule(mem, task).1, task.pos).Some?
  {
    var mem' := Schedule(mem, task).1;
    ScheduleContents(mem, task);
    assert task in multiset(mem'[task.roomName()]);
  }

  /** The engine's answer to `createConstructionSite`. */
  datatype SiteResult = Ok | ErrFull | ErrRclNotEnough | ErrOther(code: int)

  /** What happens to one popped task: a site is created; it is delayed for
      requeueing (ERR_FULL, ERR_RCL_NOT_ENOUGH); or it is discarded (its room
      is not visible, or any other error). */
  datatype Fate = Created | Delayed | Dropped

  function FateOf(task: ConstructTask, visible: set<string>, create: ConstructTask -> SiteResult): (f: Fate)
    ensures f == Created <==> task.roomName() in visible && create(task) == Ok
    ensures f == Delayed <==> task.roomName() in visible && create(task) in {ErrFull, ErrRclNotEnough}
  {
    if task.roomName() !in visible then Dropped
    else match create(task)
      case Ok => Created
      case ErrFull => Delayed
      case ErrRclNotEnough => Delayed
      case ErrOther(_) => Dropped
  }

  /** What one room's drain loop leaves behind: the unpopped queue, and the
      popped tasks split by fate, each list in pop order. */
  datatype Drained = Drained(
    rest: SQ.Queue<ConstructTask>,
    created: seq<ConstructTask>,
    delayed: seq<ConstructTask>,
    dropped: seq<ConstructTask>)

  /** The `while` loop of `tick` for one room. `budget` is how many more sites
      the global and per-room limits allow; the loop pops from the END of the
      queue until the queue is empty or the budget is used up. It stops only
      then, never creates more than the budget, and only pops. */
  function Drain(q: SQ.Queue<ConstructTask>, budget: int, visible: set<string>,
                 create: ConstructTask -> SiteResult): (r: Drained)
    ensures |r.rest| <= |q| && r.rest == q[..|r.rest|]
    ensures r.rest == [] || |r.created| >= budget
    ensures |r.created| <= if budget > 0 then budget else 0
    ensures forall t :: t in r.created ==> FateOf(t, visible, create) == Created
    ensures forall t :: t in r.delayed ==> FateOf(t, visible, create) == Delayed
    ensures forall t :: t in r.dropped ==> FateOf(t, visible, create) == Dropped
    decreases |q|
  {
    if budget <= 0 || SQ.IsEmpty(q) then Drained(q, [], [], [])
    else
      var (popped, rest) := SQ.Pop(q);
      var task := popped.value;
      match FateOf(task, visible, create)
      case Created =>
        var r := Drain(rest, budget - 1, visible, create);
        r.(created := [task] + r.created)
      case Delayed =>
        var r := Drain(rest, budget, visible, create);
        r.(delayed := [task] + r.delayed)
      case Dropped =>
        var r := Drain(rest, budget, visible, create);
        r.(dropped := [task] + r.dropped)
  }

  /** Every task of the queue is either left in it or popped into exactly one
      of the three lists. */
  lemma {:induction false} DrainConserves(q: SQ.Queue<ConstructTask>, budget: int, visible: set<string>,
                                          create: ConstructTask -> SiteResult)
    ensures var r := Drain(q, budget, visible, create);
      multiset(SQ.Items(r.rest)) + multiset(r.created) + multiset(r.delayed) + multiset(r.dropped)
      == multiset(SQ.Items(q))
    decreases |q|
  {
    if budget > 0 && |q| > 0 {
      var rest := SQ.Pop(q).1;
      var task := q[|q| - 1].item;
      var f := FateOf(task, visible, create);
      var b' := if f == Created then budget - 1 else budget;
      var r := Drain(q, budget, visible, create);
      var r' := Drain(rest, b', visible, create);
      DrainConserves(rest, b', visible, create);
      SQ.PopItems(q);
      DrainStep(q, budget, visible, create);
      Regroup(multiset(SQ.Items(r.rest)), multiset(r.created), multiset(r.delayed), multiset(r.dropped),
              multiset(r'.created), multiset(r'.delayed), multiset(r'.dropped),
              multiset{task}, multiset(SQ.Items(rest)), multiset(SQ.Items(q)));
    }
  }

  /** Multiset bookkeeping for one step of the drain. */
  lemma Regroup<T>(left: multiset<T>, c: multiset<T>, d: multiset<T>, e: multiset<T>,
                   c': multiset<T>, d': multiset<T>, e': multiset<T>,
                   popped: multiset<T>, rest: multiset<T>, all: multiset<T>)
    requires left + c' + d' + e' == rest
    requires c + d + e == c' + d' + e' + popped
    requires rest + popped == all
    ensures left + c + d + e == all
  {
    calc {
      left + c + d + e;
      left + (c + d + e);
      left + (c' + d' + e' + popped);
      (left + c' + d' + e') + popped;
      all;
    }
  }

  /** One pop of the drain loop moves the popped task into the list of its
      fate and leaves the rest to the next iteration. */
  lemma DrainStep(q: SQ.Queue<ConstructTask>, budget: int, visible: set<string>,
                  create: ConstructTask -> SiteResult)
    requires budget > 0 && |q| > 0
    ensures var task := q[|q| - 1].item;
      var f := FateOf(task, visible, create);
      var r := Drain(q, budget, visible, create);
      var r' := Drain(SQ.Pop(q).1, if f == Created then budget - 1 else budget, visible, create);
      r.rest == r'.rest &&
      multiset(r.created) + multiset(r.delayed) + multiset(r.dropped)
        == multiset(r'.created) + multiset(r'.delayed) + multiset(r'.dropped) + multiset{task}
  {
    var task := q[|q| - 1].item;
    var f := FateOf(task, visible, create);
    var r' := Drain(SQ.Pop(q).1, if f == Created then budget - 1 else budget, visible, create);
    var r := Drain(q, budget, visible, create);
    match f
    case Created =>
      assert r == r'.(created := [task] + r'.created);
    case Delayed =>
      assert r == r'.(delayed := [task] + r'.delayed);
    case Dropped =>
      assert r == r'.(dropped := [task] + r'.dropped);
  }

  /** The number of new sites the limits allow for a room, from the cached
      global count and the room's own count. */
  function Budget(siteCount: int, roomSites: int): (b: int)
    ensures b <= ConstructionSiteLimit - siteCount && b <= SitesPerRoomLimit - roomSites
    ensures b == ConstructionSiteLimit - siteCount || b == SitesPerRoomLimit - roomSites
  {
    if ConstructionSiteLimit - siteCount < SitesPerRoomLimit - roomSites
    then ConstructionSiteLimit - siteCount
    else SitesPerRoomLimit - roomSites
  }

  /** The loop condition of `tick` is exactly "the budget is not used up". */
  lemma BudgetIsLoopCondition(siteCount: int, roomSites: int, newSites: int)
    ensures newSites < Budget(siteCount, roomSites) <==>
      siteCount + newSites < ConstructionSiteLimit && roomSites + newSites < SitesPerRoomLimit
  {
  }

  /** The result of handling one room in `tick`. `Halt` is the `return` that
      ends the whole tick. */
  datatype RoomOutcome = Halt | Saved(mem: Queues, created: seq<ConstructTask>, dropped: seq<ConstructTask>)

  /** One iteration of `tick`'s room loop. It halts, touching nothing, when the
      room's queue is empty or the limits are already reached; otherwise it
      drains, re-inserts the delayed tasks after the loop, and saves. */
  function TickRoom(mem: Queues, room: string, siteCount: int, roomSites: nat, visible: set<string>,
                    create: ConstructTask -> SiteResult): (r: RoomOutcome)
    ensures r.Halt? <==>
      (|Stored(mem, room)| == 0 || siteCount >= ExistingSiteThreshold || roomSites > SitesPerRoomLimit)
    ensures r.Saved? ==> r.mem.Keys == mem.Keys + {room}
    ensures r.Saved? ==> forall n :: n in mem && n != room ==> r.mem[n] == mem[n]
    ensures r.Saved? ==> |r.created| <= Budget(siteCount, roomSites)
    ensures r.Saved? ==> forall t :: t in r.created ==> create(t) == Ok
    ensures r.Saved? ==> forall t :: t in r.dropped ==> FateOf(t, visible, create) == Dropped
  {
    var q := GetWorkQueue(mem, room);
    if SQ.IsEmpty(q) then Halt
    else if siteCount >= ExistingSiteThreshold || roomSites > SitesPerRoomLimit then Halt
    else
      var d := Drain(q, Budget(siteCount, roomSites), visible, create);
      Saved(SaveWorkQueue(mem, room, SQ.LoadInto(d.rest, d.delayed, TaskPriority)), d.created, d.dropped)
  }

  /** A room handled by `tick` keeps every task it had that was not turned
      into a site or discarded: the delayed ones are inserted back. */
  lemma TickRoomConserves(mem: Queues, room: string, siteCount: int, roomSites: nat, visible: set<string>,
                          create: ConstructTask -> SiteResult)
    ensures var r := TickRoom(mem, room, siteCount, roomSites, visible, create);
      r.Saved? ==> multiset(r.mem[room]) + multiset(r.created) + multiset(r.dropped) == multiset(Stored(mem, room))
  {
    var r := TickRoom(mem, room, siteCount, roomSites, visible, create);
    if r.Saved? {
      var q := GetWorkQueue(mem, room);
      var d := Drain(q, Budget(siteCount, roomSites), visible, create);
      DrainConserves(q, Budget(siteCount, roomSites), visible, create);
      assert multiset(r.mem[room]) == multiset(SQ.Items(d.rest)) + multiset(d.delayed);
    }
  }

  /** Only tasks whose creation failed for good are discarded: a task of the
      room that `create` merely delayed (the room is full, or its level too
      low) is back in the room's saved queue. */
  lemma TickRoomRequeues(mem: Queues, room: string, siteCount: int, roomSites: nat, visible: set<string>,
                         create: ConstructTask -> SiteResult, t: ConstructTask)
    requires TickRoom(mem, room, siteCount, roomSites, visible, create).Saved?
    requires t in Stored(mem, room) && FateOf(t, visible, create) == Delayed
    ensures t in TickRoom(mem, room, siteCount, roomSites, visible, create).mem[room]
  {
    var r := TickRoom(mem, room, siteCount, roomSites, visible, create);
    TickRoomConserves(mem, room, siteCount, roomSites, visible, create);
    assert t !in r.created;
    assert t !in r.dropped;
    DelayedKept(multiset(r.mem[room]), multiset(r.created), multiset(r.dropped), multiset(Stored(mem, room)), t);
  }

  /** A task of the whole that is neither created nor dropped is kept. */
  lemma DelayedKept(kept: multiset<ConstructTask>, created: multiset<ConstructTask>,
                    dropped: multiset<ConstructTask>, all: multiset<ConstructTask>, t: ConstructTask)
    requires kept + created + dropped == all
    requires t in all && t !in created && t !in dropped
    ensures t in kept
  {
    assert all[t] == kept[t] + created[t] + dropped[t];
  }

  /** The outcome of a whole `tick`. */
  datatype TickResult = TickResult(mem: Queues, created: seq<ConstructTask>, dropped: seq<ConstructTask>)

  function TickFrom(mem: Queues, rooms: seq<string>, siteCount: int, roomSites: string -> nat,
                    visible: set<string>, create: ConstructTask -> SiteResult): (r: TickResult)
    ensures forall n :: n in mem && n !in rooms ==> n in r.mem && r.mem[n] == mem[n]
    ensures forall n :: n in r.mem ==> n in mem || n in rooms
    ensures |r.created| <= SitesPerRoomLimit * |rooms|
    ensures forall t :: t in r.created ==> create(t) == Ok
    ensures |rooms| > 0 && TickRoom(mem, rooms[0], siteCount, roomSites(rooms[0]), visible, create).Halt? ==>
      r == TickResult(mem, [], [])
    decreases |rooms|
  {
    if |rooms| == 0 then TickResult(mem, [], [])
    else
      match TickRoom(mem, rooms[0], siteCount, roomSites(rooms[0]), visible, create)
      case Halt => TickResult(mem, [], [])
      case Saved(m, created, dropped) =>
        var rest := TickFrom(m, rooms[1..], siteCount, roomSites, visible, create);
        assert forall n :: n in rooms[1..] ==> n in rooms;
        assert SitesPerRoomLimit * |rooms| == SitesPerRoomLimit + SitesPerRoomLimit * |rooms[1..]|;
        TickResult(rest.mem, created + rest.created, dropped + rest.dropped)
  }

  /** `tick`: handles the visible rooms in order. `siteCount` is the cached
      global number of construction sites, constant during the tick;
      `roomSites` gives each room's count. Rooms outside the list are never
      touched, at most four sites are created per room, and every created
      site was accepted by the engine. */
  function Tick(mem: Queues, rooms: seq<string>, siteCount: int, roomSites: string -> nat,
                create: ConstructTask -> SiteResult): (r: TickResult)
    ensures forall n :: n in mem && n !in rooms ==> n in r.mem && r.mem[n] == mem[n]
    ensures |r.created| <= SitesPerRoomLimit * |rooms|
    ensures forall t :: t in r.created ==> create(t) == Ok
  {
    TickFrom(mem, rooms, siteCount, roomSites, (set n | n in rooms), create)
  }

  /** At or above the soft threshold of 95 sites, `tick` creates nothing and
      leaves every queue exactly as stored. */
  lemma TickOverThreshold(mem: Queues, rooms: seq<string>, siteCount: int, roomSites: string -> nat,
                          create: ConstructTask -> SiteResult)
    requires siteCount >= ExistingSiteThreshold
    ensures Tick(mem, rooms, siteCount, roomSites, create) == TickResult(mem, [], [])
  {
  }

  /** The empty-queue test uses `return`, not `continue`: a first room with
      nothing queued ends the tick, and later rooms with work are not drained. */
  lemma TickStopsAtEmptyRoom(mem: Queues, rooms: seq<string>, siteCount: int, roomSites: string -> nat,
                             create: ConstructTask -> SiteResult)
    requires |rooms| > 0 && |Stored(mem, rooms[0])| == 0
    ensures Tick(mem, rooms, siteCount, roomSites, create) == TickResult(mem, [], [])
  {
  }

  /** A room whose queue is empty, or whose own site count is over the
      per-room limit, ends the tick when it is reached, wherever it stands in
      the list: rooms listed from it on (and not before it) keep their queues,
      and only the rooms before it create sites. Earlier rooms never touch
      its queue, so it is still empty when reached. */
  lemma {:induction false} TickStopsAtHaltingRoom(mem: Queues, rooms: seq<string>, i: nat, siteCount: int,
                                                  roomSites: string -> nat, visible: set<string>,
                                                  create: ConstructTask -> SiteResult)
    requires i < |rooms|
    requires |Stored(mem, rooms[i])| == 0 || roomSites(rooms[i]) > SitesPerRoomLimit
    requires rooms[i] !in rooms[..i]
    ensures var r := TickFrom(mem, rooms, siteCount, roomSites, visible, create);
      forall n :: n in mem && n in rooms[i..] && n !in rooms[..i] ==> n in r.mem && r.mem[n] == mem[n]
    ensures |TickFrom(mem, rooms, siteCount, roomSites, visible, create).created| <= SitesPerRoomLimit * i
    decreases i
  {
    var first := TickRoom(mem, rooms[0], siteCount, roomSites(rooms[0]), visible, create);
    if i == 0 || first.Halt? {
      assert first.Halt?;
    } else {
      var m := first.mem;
      var tail := rooms[1..];
      ShiftRooms(rooms, i);
      TickRoomKeepsOthers(mem, rooms[0], siteCount, roomSites(rooms[0]), visible, create, rooms[i]);
      HaltingShifts(mem, m, rooms, i, roomSites);
      TickStopsAtHaltingRoom(m, tail, i - 1, siteCount, roomSites, visible, create);
      var rest := TickFrom(m, tail, siteCount, roomSites, visible, create);
      TickFromCons(mem, rooms, siteCount, roomSites, visible, create);
      KeepsUnreached(mem, m, rest.mem, rooms, i);
      assert SitesPerRoomLimit * i == SitesPerRoomLimit + SitesPerRoomLimit * (i - 1);
    }
  }

  /** A handled room leaves every other room's stored queue as it was. */
  lemma TickRoomKeepsOthers(mem: Queues, room: string, siteCount: int, roomSites: nat, visible: set<string>,
                            create: ConstructTask -> SiteResult, other: string)
    requires TickRoom(mem, room, siteCount, roomSites, visible, create).Saved? && other != room
    ensures Stored(TickRoom(mem, room, siteCount, roomSites, visible, create).mem, other) == Stored(mem, other)
    ensures other in mem ==> var m := TickRoom(mem, room, siteCount, roomSites, visible, create).mem;
      other in m && m[other] == mem[other]
  {
  }

  /** The tick over a list whose first room is handled: that room's outcome
      followed by the tick over the rest, from the memory it saved. */
  lemma TickFromCons(mem: Queues, rooms: seq<string>, siteCount: int, roomSites: string -> nat,
                     visible: set<string>, create: ConstructTask -> SiteResult)
    requires |rooms| > 0
    requires TickRoom(mem, rooms[0], siteCount, roomSites(rooms[0]), visible, create).Saved?
    ensures var first := TickRoom(mem, rooms[0], siteCount, roomSites(rooms[0]), visible, create);
      var rest := TickFrom(first.mem, rooms[1..], siteCount, roomSites, visible, create);
      TickFrom(mem, rooms, siteCount, roomSites, visible, create)
        == TickResult(rest.mem, first.created + rest.created, first.dropped + rest.dropped)
  {
  }

  /** Dropping the first room shifts every index down by one. */
  lemma ShiftRooms(rooms: seq<string>, i: nat)
    requires 0 < i < |rooms|
    requires rooms[i] !in rooms[..i]
    ensures rooms[1..][i - 1] == rooms[i] && rooms[0] != rooms[i]
    ensures rooms[1..][i - 1] !in rooms[1..][..i - 1]
  {
    assert rooms[0] == rooms[..i][0];
    assert forall x :: x in rooms[1..][..i - 1] ==> x in rooms[..i];
  }

  /** A room listed from index `i` on, and not before, is not the first room,
      and is listed from `i - 1` on, and not before, in the rest. */
  lemma ShiftRoom(rooms: seq<string>, i: nat, n: string)
    requires 0 < i < |rooms|
    requires n in rooms[i..] && n !in rooms[..i]
    ensures n != rooms[0] && n in rooms[1..][i - 1..] && n !in rooms[1..][..i - 1]
  {
    assert rooms[0] == rooms[..i][0];
    assert rooms[1..][i - 1..] == rooms[i..];
    assert forall x :: x in rooms[1..][..i - 1] ==> x in rooms[..i];
  }

  /** The halting room, untouched by the first room, still halts at its
      shifted index in the rest of the list. */
  lemma HaltingShifts(mem: Queues, m: Queues, rooms: seq<string>, i: nat, roomSites: string -> nat)
    requires 0 < i < |rooms| && rooms[i] !in rooms[..i]
    requires |Stored(mem, rooms[i])| == 0 || roomSites(rooms[i]) > SitesPerRoomLimit
    requires Stored(m, rooms[i]) == Stored(mem, rooms[i])
    ensures var tail := rooms[1..];
      (|Stored(m, tail[i - 1])| == 0 || roomSites(tail[i - 1]) > SitesPerRoomLimit) && tail[i - 1] !in tail[..i - 1]
  {
    ShiftRooms(rooms, i);
  }

  /** Composes "the first room keeps the others" with "the rest of the tick
      keeps the rooms it does not reach". */
  lemma KeepsUnreached(mem: Queues, m: Queues, restMem: Queues, rooms: seq<string>, i: nat)
    requires 0 < i < |rooms|
    requires forall n :: n in mem && n != rooms[0] ==> n in m && m[n] == mem[n]
    requires forall n :: n in m && n in rooms[1..][i - 1..] && n !in rooms[1..][..i - 1] ==>
      n in restMem && restMem[n] == m[n]
    ensures forall n :: n in mem && n in rooms[i..] && n !in rooms[..i] ==> n in restMem && restMem[n] == mem[n]
  {
    forall n | n in mem && n in rooms[i..] && n !in rooms[..i]
      ensures n in restMem && restMem[n] == mem[n]
    {
      ShiftRoom(rooms, i, n);
    }
  }

  /** With every task accepted and no more tasks than the budget, the drain
      turns the whole queue into sites. */
  lemma {:induction false} DrainCreatesAll(q: SQ.Queue<ConstructTask>, budget: int, visible: set<string>,
                                           create: ConstructTask -> SiteResult)
    requires |q| <= budget
    requires forall i :: 0 <= i < |q| ==> q[i].item.roomName() in visible && create(q[i].item) == Ok
    ensures |Drain(q, budget, visible, create).created| == |q|
    decreases |q|
  {
    if |q| > 0 {
      var rest := SQ.Pop(q).1;
      assert forall i :: 0 <= i < |rest| ==> rest[i] == q[i];
      DrainCreatesAll(rest, budget - 1, visible, create);
    }
  }

  /** The global limit of 100 sites is checked against the count taken at the
      start of the tick, never against the sites created in earlier rooms:
      at 94 existing sites, two rooms with four acceptable tasks each get
      eight new sites, 102 in all. */
  lemma TickCanExceedSiteLimit(mem: Queues, a: string, b: string, roomSites: string -> nat,
                               create: ConstructTask -> SiteResult)
    requires a != b && |Stored(mem, a)| == 4 && |Stored(mem, b)| == 4
    requires roomSites(a) == 0 && roomSites(b) == 0
    requires forall t :: (t in Stored(mem, a) || t in Stored(mem, b)) ==>
      t.roomName() in {a, b} && create(t) == Ok
    ensures |Tick(mem, [a, b], 94, roomSites, create).created| == 8
    ensures 94 + |Tick(mem, [a, b], 94, roomSites, create).created| > ConstructionSiteLimit
  {
    var rooms := [a, b];
    var visible := set n | n in rooms;
    assert visible == {a, b};
    assert rooms[0] == a && rooms[1..] == [b] && [b][0] == b && [b][1..] == [];
    RoomCreatesAll(mem, a, visible, create);
    var first := TickRoom(mem, a, 94, 0, visible, create);
    TickFromCons(mem, rooms, 94, roomSites, visible, create);
    TickRoomKeepsOthers(mem, a, 94, 0, visible, create, b);
    var m := first.mem;
    AcceptableTasks(Stored(mem, b), Stored(m, b), a, b, visible, create);
    RoomCreatesAll(m, b, visible, create);
    var second := TickRoom(m, b, 94, 0, visible, create);
    TickFromCons(m, [b], 94, roomSites, visible, create);
    var done := TickFrom(second.mem, [], 94, roomSites, visible, create);
    assert done.created == [];
    assert TickFrom(m, [b], 94, roomSites, visible, create).created == second.created;
    assert TickFrom(mem, rooms, 94, roomSites, visible, create).created == first.created + second.created;
  }

  /** Moves the acceptability of a room's tasks over to an equal queue and an
      equal set of visible rooms. */
  lemma AcceptableTasks(before: seq<ConstructTask>, after: seq<ConstructTask>, a: string, b: string,
                        visible: set<string>, create: ConstructTask -> SiteResult)
    requires after == before && visible == {a, b}
    requires forall t :: t in before ==> t.roomName() in {a, b} && create(t) == Ok
    ensures forall t :: t in after ==> t.roomName() in visible && create(t) == Ok
  {
  }

  /** A room of four acceptable tasks, with no sites of its own and 94 sites
      in all, gets all four built. */
  lemma RoomCreatesAll(mem: Queues, room: string, visible: set<string>, create: ConstructTask -> SiteResult)
    requires |Stored(mem, room)| == 4
    requires forall t :: t in Stored(mem, room) ==> t.roomName() in visible && create(t) == Ok
    ensures TickRoom(mem, room, 94, 0, visible, create).Saved?
    ensures |TickRoom(mem, room, 94, 0, visible, create).created| == 4
  {
    var q := GetWorkQueue(mem, room);
    assert |SQ.Items(q)| == 4 by {
      assert |multiset(SQ.Items(q))| == |multiset(Stored(mem, room))|;
    }
    forall i | 0 <= i < |q|
      ensures q[i].item.roomName() in visible && create(q[i].item) == Ok
    {
      assert SQ.Items(q)[i] == q[i].item;
      assert q[i].item in multiset(SQ.Items(q));
    }
    assert Budget(94, 0) == 4;
    DrainCreatesAll(q, 4, visible, create);
  }
}

=== FILE: heap_queue.dfy ===
/** The binary min-heap priority queue of src/tasks/Queue.ts
    (`heapPriorityQueue`). The heap is an array of nodes in which the node at
    index i has children at 2i+1 and 2i+2; `insert` pushes and sifts up,
    `pop` moves the last node to the root and sifts down. */
module HeapQueue {
  import opened Wrappers

  datatype Node<T> = Node(priority: int, value: T)

  function Parent(i: nat): nat
    requires i > 0
  {
    (i - 1) / 2
  }

  function Left(i: nat): nat {
    2 * i + 1
  }

  function Right(i: nat): nat {
    2 * i + 2
  }

  /** Every parent's priority is at most its child's. */
  predicate IsHeap<T>(h: seq<Node<T>>) {
    forall k :: 0 < k < |h| ==> h[Parent(k)].priority <= h[k].priority
  }

  /** The `swap` helper: exchanges two slots and keeps the multiset of nodes. */
  function Swap<T>(s: seq<T>, i: nat, j: nat): (r: seq<T>)
    requires i < |s| && j < |s|
    ensures |r| == |s| && r[i] == s[j] && r[j] == s[i]
    ensures forall k :: 0 <= k < |s| && k != i && k != j ==> r[k] == s[k]
    ensures multiset(r) == multiset(s)
  {
    s[i := s[j]][j := s[i]]
  }

  /** The root of a heap has the least priority of all nodes. */
  lemma {:induction false} RootIsMin<T>(h: seq<Node<T>>, k: nat)
    requires IsHeap(h) && k < |h|
    ensures h[0].priority <= h[k].priority
    decreases k
  {
    if k > 0 {
      RootIsMin(h, Parent(k));
    }
  }

  /** The sift-up invariant at `i`: every parent-child edge holds except the
      one into `i`, and `i`'s parent is no greater than `i`'s children. */
  predicate HeapAbove<T>(r: seq<Node<T>>, i: nat) {
    && (forall k :: 0 < k < |r| && k != i ==> r[Parent(k)].priority <= r[k].priority)
    && (i > 0 ==> forall k :: 0 < k < |r| && Parent(k) == i ==> r[Parent(i)].priority <= r[k].priority)
  }

  /** One sift-up step: swapping `i` with a parent that is not strictly
      smaller moves the only violation one level up. */
  lemma SiftUpStep<T>(r: seq<Node<T>>, i: nat)
    requires 0 < i < |r| && HeapAbove(r, i)
    requires r[Parent(i)].priority >= r[i].priority
    ensures HeapAbove(Swap(r, i, Parent(i)), Parent(i))
  {
    var p := Parent(i);
    var r' := Swap(r, i, p);
    forall k | 0 < k < |r'| && k != p
      ensures r'[Parent(k)].priority <= r'[k].priority
    {
      if k == i {
      } else if Parent(k) == i {
      } else if Parent(k) == p {
      }
    }
  }

  /** `insert`: pushes the node and sifts it up while its parent's priority is
      not strictly smaller. The heap property is kept and exactly one node is
      added. */
  method Insert<T>(h: seq<Node<T>>, priority: int, value: T) returns (r: seq<Node<T>>)
    requires IsHeap(h)
    ensures IsHeap(r)
    ensures |r| == |h| + 1
    ensures multiset(r) == multiset(h) + multiset{Node(priority, value)}
  {
    r := h + [Node(priority, value)];
    var i := |r| - 1;
    assert HeapAbove(r, i) by {
      assert forall k :: 0 <= k < |h| ==> r[k] == h[k];
    }
    while i > 0
      invariant 0 <= i < |r| == |h| + 1
      invariant multiset(r) == multiset(h) + multiset{Node(priority, value)}
      invariant HeapAbove(r, i)
    {
      var p := Parent(i);
      if r[p].priority < r[i].priority {
        break;
      }
      SiftUpStep(r, i);
      r := Swap(r, i, p);
      i := p;
    }
  }

  /** The sift-down invariant at `current`: every parent-child edge holds
      except those leaving `current`, and `current`'s parent is no greater
      than `current`'s children. */
  predicate HeapBelow<T>(r: seq<Node<T>>, current: nat) {
    && (forall k :: 0 < k < |r| && Parent(k) != current ==> r[Parent(k)].priority <= r[k].priority)
    && (current > 0 ==> forall k :: 0 < k < |r| && Parent(k) == current ==> r[Parent(current)].priority <= r[k].priority)
  }

  /** One sift-down step: swapping `current` with its smaller child, when that
      child is not strictly greater, moves the hole one level down. */
  lemma SiftDownStep<T>(r: seq<Node<T>>, current: nat, smaller: nat)
    requires HeapBelow(r, current)
    requires smaller == Left(current) || smaller == Right(current)
    requires smaller < |r|
    requires forall k :: 0 < k < |r| && Parent(k) == current ==> r[smaller].priority <= r[k].priority
    requires r[smaller].priority <= r[current].priority
    ensures HeapBelow(Swap(r, current, smaller), smaller)
  {
    var r' := Swap(r, current, smaller);
    assert Parent(smaller) == current;
    forall k | 0 < k < |r'| && Parent(k) != smaller
      ensures r'[Parent(k)].priority <= r'[k].priority
    {
      if k == smaller {
      } else if Parent(k) == current {
      } else if k == current {
      }
    }
  }

  /** A node whose index has no left child has no children at all. */
  lemma HeapBelowLeaf<T>(r: seq<Node<T>>, current: nat)
    requires HeapBelow(r, current)
    requires Left(current) >= |r|
    ensures IsHeap(r)
  {
  }

  /** The children of a node are exactly the indexes whose parent it is. */
  lemma ChildrenOf(k: nat, current: nat)
    requires k > 0
    ensures Parent(k) == current <==> k == Left(current) || k == Right(current)
  {
  }

  /** The child picked by the loop is no greater than any child. */
  lemma ChildBound<T>(r: seq<Node<T>>, current: nat, smaller: nat)
    requires smaller == Left(current) || smaller == Right(current)
    requires Left(current) < |r| && smaller < |r|
    requires r[smaller].priority <= r[Left(current)].priority
    requires Right(current) < |r| ==> r[smaller].priority <= r[Right(current)].priority
    ensures forall k :: 0 < k < |r| && Parent(k) == current ==> r[smaller].priority <= r[k].priority
  {
    forall k | 0 < k < |r| && Parent(k) == current
      ensures r[smaller].priority <= r[k].priority
    {
      ChildrenOf(k, current);
    }
  }

  /** When `current` is no greater than its children the hole is closed. */
  lemma HeapBelowDone<T>(r: seq<Node<T>>, current: nat)
    requires HeapBelow(r, current)
    requires forall k :: 0 < k < |r| && Parent(k) == current ==> r[current].priority <= r[k].priority
    ensures IsHeap(r)
  {
  }

  /** The sift-down loop of `pop`. */
  method SiftDown<T>(s: seq<Node<T>>) returns (r: seq<Node<T>>)
    requires HeapBelow(s, 0)
    ensures IsHeap(r)
    ensures multiset(r) == multiset(s)
  {
    r := s;
    var current := 0;
    while Left(current) < |r|
      invariant |r| == |s|
      invariant current < |r| || current == 0
      invariant multiset(r) == multiset(s)
      invariant HeapBelow(r, current)
      decreases |r| - current
    {
      var smaller := Left(current);
      if Right(current) < |r| && r[Right(current)].priority < r[Left(current)].priority {
        smaller := Right(current);
      }
      ChildBound(r, current, smaller);
      if r[smaller].priority > r[current].priority {
        HeapBelowDone(r, current);
        return;
      }
      SiftDownStep(r, current, smaller);
      r := Swap(r, current, smaller);
      current := smaller;
    }
    HeapBelowLeaf(r, current);
  }

  /** `pop`: `undefined` on an empty heap; otherwise returns the root's value,
      which has the least priority, and leaves a heap holding every other node. */
  method Pop<T>(h: seq<Node<T>>) returns (item: Option<T>, r: seq<Node<T>>)
    requires IsHeap(h)
    ensures |h| == 0 ==> item.None? && r == h
    ensures |h| > 0 ==> item == Some(h[0].value)
    ensures |h| > 0 ==> forall k :: 0 <= k < |h| ==> h[0].priority <= h[k].priority
    ensures |h| > 0 ==> multiset(r) + multiset{h[0]} == multiset(h)
    ensures IsHeap(r)
  {
    if |h| == 0 {
      return None, h;
    }
    forall k | 0 <= k < |h|
      ensures h[0].priority <= h[k].priority
    {
      RootIsMin(h, k);
    }
    var last := |h| - 1;
    var swapped := Swap(h, 0, last);
    assert swapped == swapped[..last] + [h[0]];
    var rest := swapped[..last];
    assert HeapBelow(rest, 0) by {
      forall k | 0 < k < |rest| && Parent(k) != 0
        ensures rest[Parent(k)].priority <= rest[k].priority
      {
        assert rest[k] == h[k] && rest[Parent(k)] == h[Parent(k)];
      }
    }
    r := SiftDown(rest);
    item := Some(h[0].value);
  }

  /** `peek`: the root's value, `undefined` when empty. */
  function Peek<T>(h: seq<Node<T>>): (r: Option<T>)
    requires IsHeap(h)
    ensures r.None? <==> |h| == 0
    ensures r.Some? ==> r.value == h[0].value && forall k :: 0 <= k < |h| ==> h[0].priority <= h[k].priority
  {
    if |h| == 0 then None
    else
      assert forall k :: 0 <= k < |h| ==> h[0].priority <= h[k].priority by {
        forall k | 0 <= k < |h| {
          RootIsMin(h, k);
        }
      }
      Some(h[0].value)
  }

  function Size<T>(h: seq<Node<T>>): nat {
    |h|
  }

  /** `isEmpty` holds exactly when `size` is 0, which is when `peek` has nothing. */
  function IsEmpty<T>(h: seq<Node<T>>): (r: bool)
    requires IsHeap(h)
    ensures r <==> Size(h) == 0
    ensures r <==> Peek(h).None?
  {
    |h| == 0
  }

  /** The empty heap every queue starts from satisfies the heap property. */
  lemma EmptyIsHeap<T>()
    ensures IsHeap<T>([])
  {
  }
}

=== FILE: placement.dfy ===
/** The free-position search of src/constructor/RoomBuilder.ts
    (`FindFreePosNearby` with `markNearby`, `countQualifiedSpacesInRange` and
    the avoid rules). The search works on a matrix of cells indexed
    `[row][column]`, that is `[y][x]`, built from the engine's `lookAtArea`;
    here it is a map keyed by `(row, column)`, and `lookAt` is an oracle
    parameter keyed by `(x, y)`. The path finder's path length is an oracle
    too.

    The generator is lazy, but nothing it reads changes while its consumer
    runs, so it is modelled as the full sequence of positions it would yield;
    a consumer that stops early reads a prefix. */
module Placement {
  import opened Wrappers
  import opened Structures
  import opened RoomGrid

  // ---------------------------------------------------------------------
  // Cells

  const FREE: int := 0
  const FREE_BUT_DISQUALIFIED: int := 1
  const OCCUPIED: int := 2
  const AVOID_AREA: int := 3

  /** A matrix cell after reduction: its type and the range of the avoid
      rule that set it (0 otherwise). */
  datatype Cell = Cell(kind: int, range: int)

  const FreeEntry: Cell := Cell(FREE, 0)
  const DisqualifiedEntry: Cell := Cell(FREE_BUT_DISQUALIFIED, 0)
  const OccupiedEntry: Cell := Cell(OCCUPIED, 0)

  type Matrix = map<Coord, Cell>

  // ---------------------------------------------------------------------
  // Avoid rules

  /** The options of `new AvoidStruct(type, opts)`. */
  datatype AvoidOpts = AvoidOpts(range: Option<int>, resolveTo: Option<int>, isCheckered: Option<bool>)

  /** An entry of an avoid list. `kind` is the `type` field: the cell type a
      matching tile resolves to, absent until the search fills it in. The
      `isCheckered` flag of a struct rule is never read by the search. */
  datatype AvoidRule =
    | AvoidStruct(structureType: StructureType, range: int, kind: Option<int>, isCheckered: bool)
    | AvoidSource(range: int, kind: Option<int>)

  /** `opts.x || d` for a numeric option: absent and 0 both give `d`. */
  function OrInt(v: Option<int>, d: int): (r: int)
    ensures v.Some? && v.value != 0 ==> r == v.value
    ensures v.None? || v.value == 0 ==> r == d
  {
    if v.Some? && v.value != 0 then v.value else d
  }

  /** `new AvoidStruct(type, opts)`: range 1 unless a non-zero range is
      given (so a range of 0 becomes 1), the `resolveTo` type, and the
      checkered flag. */
  function NewAvoidStruct(t: StructureType, opts: Option<AvoidOpts>): (r: AvoidRule)
    ensures r.AvoidStruct? && r.structureType == t
    ensures opts.None? ==> r.range == 1 && r.kind.None? && !r.isCheckered
    ensures opts.Some? ==> r.range == OrInt(opts.value.range, 1) && r.kind == opts.value.resolveTo
    ensures opts.Some? ==> r.isCheckered == opts.value.isCheckered.GetOr(false)
  {
    match opts
    case None => AvoidStruct(t, 1, None, false)
    case Some(o) => AvoidStruct(t, OrInt(o.range, 1), o.resolveTo, o.isCheckered.GetOr(false))
  }

  /** The exported `AvoidList` table, in declaration order. */
  function AvoidListTable(): seq<AvoidRule> {
    [ NewAvoidStruct(Road, Some(AvoidOpts(Some(0), Some(FREE_BUT_DISQUALIFIED), None))),
      NewAvoidStruct(Spawn, Some(AvoidOpts(Some(1), None, None))),
      NewAvoidStruct(Controller, Some(AvoidOpts(Some(4), None, None))),
      NewAvoidStruct(Extension, Some(AvoidOpts(Some(1), None, Some(true)))),
      NewAvoidStruct(Container, Some(AvoidOpts(Some(2), None, None))),
      NewAvoidStruct(Storage, Some(AvoidOpts(Some(2), None, None))),
      NewAvoidStruct(Tower, Some(AvoidOpts(Some(7), None, None))),
      AvoidSource(2, None) ]
  }

  /** The road entry of `AvoidList` asks for range 0 but gets range 1,
      because the constructor reads the range with `||`. */
  lemma AvoidListRoadRange()
    ensures AvoidListTable()[0] == AvoidStruct(Road, 1, Some(FREE_BUT_DISQUALIFIED), false)
    ensures AvoidListTable()[6].range == 7
  {
  }

  /** `a.type = a.type || AVOID_AREA`: a missing type, or FREE (0), becomes
      AVOID_AREA. */
  function Normalize(a: AvoidRule): (r: AvoidRule)
    ensures r.range == a.range && r.kind.Some? && r.kind.value != FREE
    ensures a.kind.Some? && a.kind.value != FREE ==> r == a
  {
    var k := OrInt(a.kind, AVOID_AREA);
    match a
    case AvoidStruct(t, range, _, c) => AvoidStruct(t, range, Some(k), c)
    case AvoidSource(range, _) => AvoidSource(range, Some(k))
  }

  function NormalizeAll(avoids: seq<AvoidRule>): (r: seq<AvoidRule>)
    ensures |r| == |avoids| && forall i :: 0 <= i < |avoids| ==> r[i] == Normalize(avoids[i])
  {
    seq(|avoids|, i requires 0 <= i < |avoids| => Normalize(avoids[i]))
  }

  /** Normalising is idempotent: the rule objects are shared and normalised
      on every search, which changes them only the first time. */
  lemma NormalizeIdempotent(a: AvoidRule)
    ensures Normalize(Normalize(a)) == Normalize(a)
  {
  }

  /** The `filter` of a rule: a structure or a construction site (of any
      owner) of the rule's type, or any source. */
  predicate Matches(a: AvoidRule, o: LookObject) {
    match a
    case AvoidStruct(t, _, _, _) => (o.StructureObj? || o.SiteObj?) && o.structureType == t
    case AvoidSource(_, _) => o.SourceObj?
  }

  /** A look result that occupies its tile: wall terrain, a structure or a
      construction site other than a road, or a source. */
  predicate Blocks(o: LookObject) {
    || o == TerrainObj(Wall)
    || (o.StructureObj? && o.structureType != Road)
    || (o.SiteObj? && o.structureType != Road)
    || o.SourceObj?
  }

  /** The `avoidList.forEach` for one look result: a matching rule with a
      larger range than the cell's, and a truthy type, overrides the cell. */
  function ApplyAvoids(res: Cell, o: LookObject, avoids: seq<AvoidRule>): (r: Cell)
    ensures r == res || exists a :: a in avoids && Matches(a, o) && a.kind.Some? && r == Cell(a.kind.value, a.range)
    ensures r.range >= res.range
    ensures forall a :: a in avoids && Matches(a, o) && a.kind.Some? && a.kind.value != 0 ==> r.range >= a.range
    decreases |avoids|
  {
    if |avoids| == 0 then res
    else
      var a := avoids[0];
      var res' := if Matches(a, o) && a.range > res.range && a.kind.Some? && a.kind.value != 0
        then Cell(a.kind.value, a.range) else res;
      var r := ApplyAvoids(res', o, avoids[1..]);
      assert forall b :: b in avoids[1..] ==> b in avoids;
      r
  }

  /** One step of the `reduce` over a tile's look results: an object no
      rule matches leaves the cell alone unless it blocks the tile, which
      makes any cell but an avoided area occupied. */
  function ReduceStep(res: Cell, o: LookObject, avoids: seq<AvoidRule>): (c: Cell)
    ensures (forall a :: a in avoids ==> !Matches(a, o)) && !Blocks(o) ==> c == res
    ensures (forall a :: a in avoids ==> !Matches(a, o)) && Blocks(o) && res.kind != AVOID_AREA ==>
      c == OccupiedEntry
    ensures c.range >= (if res.kind != AVOID_AREA && Blocks(o) then OccupiedEntry.range else res.range)
  {
    var before := if res.kind != AVOID_AREA && Blocks(o) then OccupiedEntry else res;
    var c := ApplyAvoids(before, o, avoids);
    assert (forall a :: a in avoids ==> !Matches(a, o)) ==> c == before by {
      if forall a :: a in avoids ==> !Matches(a, o) {
        NoMatchUnchanged(before, o, avoids);
      }
    }
    c
  }

  /** The reduced cell of a tile. A tile whose objects neither block it nor
      match a rule keeps its initial cell. */
  function CellOf(objs: seq<LookObject>, init: Cell, avoids: seq<AvoidRule>): (c: Cell)
    ensures (forall i :: 0 <= i < |objs| ==> !Blocks(objs[i]) && forall a :: a in avoids ==> !Matches(a, objs[i]))
      ==> c == init
    decreases |objs|
  {
    if |objs| == 0 then init else CellOf(objs[1..], ReduceStep(init, objs[0], avoids), avoids)
  }

  /** With normalised rules, a reduced cell is FREE only when it is the
      initial cell untouched: nothing on the tile blocked it or matched a
      rule. */
  lemma {:induction false} FreeOnlyUntouched(objs: seq<LookObject>, init: Cell, avoids: seq<AvoidRule>)
    requires forall a :: a in avoids ==> a.kind.Some? && a.kind.value != FREE
    requires init.kind == FREE
    ensures CellOf(objs, init, avoids).kind == FREE ==> CellOf(objs, init, avoids) == init
    ensures CellOf(objs, init, avoids).kind == FREE ==> forall o :: o in objs ==> !Blocks(o)
    decreases |objs|
  {
    if |objs| > 0 {
      var next := ReduceStep(init, objs[0], avoids);
      if next.kind == FREE {
        assert next == init && !Blocks(objs[0]);
        FreeOnlyUntouched(objs[1..], init, avoids);
        assert forall o :: o in objs ==> o == objs[0] || o in objs[1..];
      } else {
        StaysTaken(objs[1..], next, avoids);
      }
    }
  }

  lemma {:induction false} StaysTaken(objs: seq<LookObject>, init: Cell, avoids: seq<AvoidRule>)
    requires forall a :: a in avoids ==> a.kind.Some? && a.kind.value != FREE
    requires init.kind != FREE
    ensures CellOf(objs, init, avoids).kind != FREE
    decreases |objs|
  {
    if |objs| > 0 {
      StaysTaken(objs[1..], ReduceStep(init, objs[0], avoids), avoids);
    }
  }

  /** A wall, a non-road structure or site, or a source makes the tile
      OCCUPIED when no rule matches it. */
  lemma BlockedIsOccupied(o: LookObject, init: Cell, avoids: seq<AvoidRule>)
    requires init.kind != AVOID_AREA && Blocks(o)
    requires forall a :: a in avoids ==> !Matches(a, o)
    ensures CellOf([o], init, avoids) == OccupiedEntry
  {
    NoMatchUnchanged(OccupiedEntry, o, avoids);
  }

  lemma {:induction false} NoMatchUnchanged(res: Cell, o: LookObject, avoids: seq<AvoidRule>)
    requires forall a :: a in avoids ==> !Matches(a, o)
    ensures ApplyAvoids(res, o, avoids) == res
    decreases |avoids|
  {
    if |avoids| > 0 {
      assert avoids[0] in avoids;
      assert forall b :: b in avoids[1..] ==> b in avoids;
      NoMatchUnchanged(res, o, avoids[1..]);
    }
  }

  // ---------------------------------------------------------------------
  // markNearby

  /** The cells `markNearby(matrix, row, col, [FREE_ENTRY], ..., range,
      checkered)` may disqualify: those yielded by the ring generator around
      the centre, except the TRANSPOSED cell `(col, row)` (the skip test
      compares the centre's row with the cell's column), and, when
      checkered, except cells on the centre's checkerboard colour. */
  predicate Reaches(centre: Coord, range: int, checkered: bool, k: Coord) {
    && k in CoordsWithinRange(centre, range)
    && k != (centre.1, centre.0)
    && (!checkered || !IsCheckered(k, centre))
  }

  /** The `for` loop of `markNearby` over the remaining ring coordinates. */
  function MarkFrom(m: Matrix, cs: seq<Coord>, centre: Coord, checkered: bool): (r: Matrix)
    ensures r.Keys == m.Keys
    ensures forall k :: k in m ==>
      r[k] == (if m[k] == FreeEntry && k in cs && k != (centre.1, centre.0) && (!checkered || !IsCheckered(k, centre))
               then DisqualifiedEntry else m[k])
    decreases |cs|
  {
    if |cs| == 0 then m
    else
      var k := cs[0];
      var m' :=
        if k !in m || (centre.0 == k.1 && centre.1 == k.0) then m
        else if m[k] == FreeEntry && (!checkered || !IsCheckered(k, centre)) then m[k := DisqualifiedEntry]
        else m;
      assert forall j :: j in cs <==> j == k || j in cs[1..];
      MarkFrom(m', cs[1..], centre, checkered)
  }

  /** `markNearby`: disqualifies exactly the FREE cells it reaches and
      changes nothing else. */
  function MarkNearby(m: Matrix, centre: Coord, range: int, checkered: bool): (r: Matrix)
    ensures r.Keys == m.Keys
    ensures forall k :: k in m ==>
      r[k] == (if m[k] == FreeEntry && Reaches(centre, range, checkered, k) then DisqualifiedEntry else m[k])
  {
    MarkFrom(m, CoordsWithinRange(centre, range), centre, checkered)
  }

  /** Where `markNearby` reaches, in room geometry: the centre and the valid
      cells within `range` of it, less the transposed cell and, when
      checkered, the cells of the centre's colour. */
  lemma ReachesGeometry(centre: Coord, range: int, checkered: bool, k: Coord)
    ensures Reaches(centre, range, checkered, k) <==>
      && (k == centre || (IsPosValid(k) && 1 <= Dist(k, centre) <= range))
      && k != (centre.1, centre.0)
      && (!checkered || !IsCheckered(k, centre))
  {
    CoordsMembers(centre, range, k);
  }

  // ---------------------------------------------------------------------
  // countQualifiedSpacesInRange

  /** The loop of `countQualifiedSpacesInRange`. Its membership test asks
      whether the list of disqualifying types contains a freshly built
      one-element array, which it never does, so every cell other than the
      centre counts; the early return fires only on a cell inside the
      matrix. */
  function CountFrom(m: Matrix, cs: seq<Coord>, centre: Coord, count: int, maxCount: int): (r: int)
    ensures r < maxCount ==> r == count + Others(cs, centre)
    decreases |cs|
  {
    if |cs| == 0 then count
    else if cs[0] == centre then CountFrom(m, cs[1..], centre, count, maxCount)
    else if cs[0] in m && count + 1 >= maxCount then maxCount
    else CountFrom(m, cs[1..], centre, count + 1, maxCount)
  }

  /** The number of entries of `cs` other than `centre`. */
  function Others(cs: seq<Coord>, centre: Coord): nat
    decreases |cs|
  {
    if |cs| == 0 then 0 else (if cs[0] == centre then 0 else 1) + Others(cs[1..], centre)
  }

  /** The capped count of the neighbours of `centre` within `range`: short
      of the cap exactly when the number of neighbours is. */
  function CountQualified(m: Matrix, centre: Coord, range: int, maxCount: int): (r: int)
    ensures maxCount > r <==> maxCount > Others(CoordsWithinRange(centre, range), centre)
  {
    CountShortIff(m, CoordsWithinRange(centre, range), centre, 0, maxCount);
    CountFrom(m, CoordsWithinRange(centre, range), centre, 0, maxCount)
  }

  /** The capped count falls short of the cap exactly when the number of
      neighbours does: the matrix contents play no part. */
  lemma {:induction false} CountShortIff(m: Matrix, cs: seq<Coord>, centre: Coord, count: int, maxCount: int)
    ensures maxCount > CountFrom(m, cs, centre, count, maxCount) <==> maxCount > count + Others(cs, centre)
    decreases |cs|
  {
    if |cs| > 0 {
      if cs[0] == centre {
        CountShortIff(m, cs[1..], centre, count, maxCount);
      } else if !(cs[0] in m && count + 1 >= maxCount) {
        CountShortIff(m, cs[1..], centre, count + 1, maxCount);
      }
    }
  }

  lemma {:induction false} OthersConcat(a: seq<Coord>, b: seq<Coord>, centre: Coord)
    ensures Others(a + b, centre) == Others(a, centre) + Others(b, centre)
    decreases |a|
  {
    if |a| == 0 {
      assert a + b == b;
    } else {
      assert (a + b)[1..] == a[1..] + b;
      OthersConcat(a[1..], b, centre);
    }
  }

  /** A pair of distinct cells, neither of them the centre. */
  lemma OthersPair(x: Coord, y: Coord, centre: Coord)
    requires x != centre && y != centre
    ensures Others([x, y], centre) == 2
  {
    assert [x, y][1..] == [y];
    assert [y][1..] == [];
    assert Others([y], centre) == 1 + Others([], centre);
    assert Others([x, y], centre) == 1 + Others([y], centre);
  }

  /** The two cells of column `b` one row either side of `c`. */
  function Beside(c: Coord, b: int): seq<Coord> {
    [(c.0 - 1, b), (c.0 + 1, b)]
  }

  /** The ring generator at range 1 around an interior cell, spelt out. */
  lemma RingOneShape(c: Coord)
    requires 3 <= c.0 <= 46 && 3 <= c.1 <= 46
    ensures CoordsWithinRange(c, 1) ==
      [c] + ([(c.0, c.1 - 1), (c.0, c.1 + 1)] + (Beside(c, c.1 - 1) + (Beside(c, c.1) + Beside(c, c.1 + 1))))
  {
    assert RowPart(c, 1, c.0, c.0) == [(c.0, c.1 - 1), (c.0, c.1 + 1)] + RowPart(c, 1, c.0 + 1, c.0);
    ColOneShape(c);
    assert Rings(c, 1, 1) == Ring(c, 1) + Rings(c, 2, 1);
  }

  lemma ColOneShape(c: Coord)
    requires 3 <= c.0 <= 46 && 3 <= c.1 <= 46
    ensures ColPart(c, 1, c.1 - 1, c.1 + 1) == Beside(c, c.1 - 1) + (Beside(c, c.1) + Beside(c, c.1 + 1))
  {
    var lo, mid, hi := c.1 - 1, c.1, c.1 + 1;
    var e := ColPart(c, 1, hi + 1, hi);
    assert e == [];
    ColStep(c, hi, hi + 1, hi);
    assert ColPart(c, 1, hi, hi) == Beside(c, hi);
    ColStep(c, mid, hi, hi);
    ColStep(c, lo, mid, hi);
  }

  lemma ColStep(c: Coord, b: int, next: int, hi: int)
    requires 3 <= c.0 <= 46 && 2 <= b <= 47 && b <= hi && next == b + 1
    ensures ColPart(c, 1, b, hi) == Beside(c, b) + ColPart(c, 1, next, hi)
  {
    assert IsPosValid((c.0 - 1, b)) && IsPosValid((c.0 + 1, b));
  }

  /** A cell at least three tiles from the room's border has eight valid
      neighbours. */
  lemma InteriorNeighbours(c: Coord)
    requires 3 <= c.0 <= 46 && 3 <= c.1 <= 46
    ensures Others(CoordsWithinRange(c, 1), c) == 8
  {
    var r1 := [(c.0, c.1 - 1), (c.0, c.1 + 1)];
    var c1 := Beside(c, c.1 - 1);
    var c2 := Beside(c, c.1);
    var c3 := Beside(c, c.1 + 1);
    RingOneShape(c);
    OthersPair(r1[0], r1[1], c);
    OthersPair(c1[0], c1[1], c);
    OthersPair(c2[0], c2[1], c);
    OthersPair(c3[0], c3[1], c);
    OthersConcat(c2, c3, c);
    OthersConcat(c1, c2 + c3, c);
    OthersConcat(r1, c1 + (c2 + c3), c);
    OthersConcat([c], r1 + (c1 + (c2 + c3)), c);
    assert Others([c], c) == 0 + Others([], c);
  }

  /** The tight-space test of the search therefore disqualifies a cell away
      from the room's border only when more than eight free neighbours are
      asked for. */
  lemma TightSpaceNeedsNine(m: Matrix, c: Coord, n: int)
    requires 3 <= c.0 <= 46 && 3 <= c.1 <= 46
    ensures n > CountQualified(m, c, 1, n) <==> n > 8
  {
    CountShortIff(m, CoordsWithinRange(c, 1), c, 0, n);
    InteriorNeighbours(c);
  }

  // ---------------------------------------------------------------------
  // The three passes of FindFreePosNearby

  /** The starting cell: DISQUALIFIED on the border of the bordered square
      and near the room's edge, FREE elsewhere. */
  function Initial(i: int, j: int, target: Pos, bordered: int): (c: Cell)
    ensures c == FreeEntry || c == DisqualifiedEntry
    ensures c == FreeEntry <==> !IsEdge(i, j, target.x, target.y, bordered) && !IsCloseToRoomEdge(i, j)
  {
    if IsEdge(i, j, target.x, target.y, bordered) || IsCloseToRoomEdge(i, j) then DisqualifiedEntry
    else FreeEntry
  }

  function Swap(c: Coord): Coord {
    (c.1, c.0)
  }

  /** The first pass over `(x, y)` coordinates: each cell `[y][x]` becomes
      the reduction of its look results. */
  function SeedFrom(m: Matrix, cs: seq<Coord>, target: Pos, bordered: int,
                    look: Coord -> seq<LookObject>, avoids: seq<AvoidRule>): (r: Matrix)
    ensures forall k :: k in r <==> k in m || Swap(k) in cs
    ensures forall k :: k in r && Swap(k) !in cs ==> r[k] == m[k]
    ensures forall k :: k in r && Swap(k) in cs ==>
      r[k] == CellOf(look(Swap(k)), Initial(k.0, k.1, target, bordered), avoids)
    decreases |cs|
  {
    if |cs| == 0 then m
    else
      var c := cs[0];
      var m' := m[Swap(c) := CellOf(look(c), Initial(c.1, c.0, target, bordered), avoids)];
      assert forall j :: j in cs <==> j == c || j in cs[1..];
      SeedFrom(m', cs[1..], target, bordered, look, avoids)
  }

  /** `m2` is `m1` with some FREE cells disqualified and nothing else
      changed. */
  predicate Demoted(m1: Matrix, m2: Matrix) {
    && m2.Keys == m1.Keys
    && forall k :: k in m1 && m2[k] != m1[k] ==> m1[k] == FreeEntry && m2[k] == DisqualifiedEntry
  }

  /** Every cell of type FREE is the FREE entry itself. */
  predicate FreeIsEntry(m: Matrix) {
    forall k :: k in m && m[k].kind == FREE ==> m[k] == FreeEntry
  }

  lemma DemotedTrans(m1: Matrix, m2: Matrix, m3: Matrix)
    requires Demoted(m1, m2) && Demoted(m2, m3)
    ensures Demoted(m1, m3)
  {
  }

  /** No FREE cell of `m` is one that the avoid cell at `a` reaches. */
  predicate ClearOf(m: Matrix, a: Coord) {
    a in m && m[a].kind == AVOID_AREA ==>
      forall k :: k in m && m[k] == FreeEntry ==> !Reaches(a, m[a].range, false, k)
  }

  /** Whether a cell has enough qualified neighbours does not depend on the
      matrix contents, only on which cells it holds. */
  lemma QualifiedStable(m1: Matrix, m2: Matrix, k: Coord, minFree: int)
    requires m1.Keys == m2.Keys
    ensures minFree <= CountQualified(m1, k, 1, minFree) <==> minFree <= CountQualified(m2, k, 1, minFree)
  {
    CountShortIff(m1, CoordsWithinRange(k, 1), k, 0, minFree);
    CountShortIff(m2, CoordsWithinRange(k, 1), k, 0, minFree);
  }

  /** One cell of the second pass: an AVOID_AREA cell disqualifies the FREE
      cells within its range (never checkered, as the cells carry no
      checkered flag); a FREE cell with fewer qualified neighbours than asked
      for is disqualified. */
  function RefineStep(m: Matrix, k: Coord, minFree: int): (r: Matrix)
    requires k in m
    requires FreeIsEntry(m)
    ensures Demoted(m, r) && FreeIsEntry(r)
    ensures ClearOf(r, k)
    ensures r[k] == FreeEntry ==> minFree <= CountQualified(r, k, 1, minFree)
    ensures forall j :: j in m && ClearOf(m, j) ==> ClearOf(r, j)
  {
    var cell := m[k];
    var r :=
      if cell.kind == AVOID_AREA then MarkNearby(m, k, cell.range, false)
      else if cell.kind == FREE && minFree > CountQualified(m, k, 1, minFree) then m[k := DisqualifiedEntry]
      else m;
    assert Demoted(m, r) by {
      if cell.kind == AVOID_AREA {
        assert forall j :: j in m && r[j] != m[j] ==> m[j] == FreeEntry && r[j] == DisqualifiedEntry;
      }
    }
    QualifiedStable(m, r, k, minFree);
    r
  }

  /** The second pass over `(x, y)` coordinates, one `RefineStep` per cell. */
  function RefineFrom(m: Matrix, cs: seq<Coord>, minFree: int): (r: Matrix)
    requires forall c :: c in cs ==> Swap(c) in m
    requires FreeIsEntry(m)
    ensures Demoted(m, r) && FreeIsEntry(r)
    ensures forall c :: c in cs ==> ClearOf(r, Swap(c))
    ensures forall c :: c in cs && r[Swap(c)] == FreeEntry ==> minFree <= CountQualified(r, Swap(c), 1, minFree)
    ensures forall k :: k in m && ClearOf(m, k) ==> ClearOf(r, k)
    decreases |cs|
  {
    if |cs| == 0 then m
    else
      var k := Swap(cs[0]);
      var m' := RefineStep(m, k, minFree);
      var r := RefineFrom(m', cs[1..], minFree);
      DemotedTrans(m, m', r);
      assert r[k] == FreeEntry ==> minFree <= CountQualified(r, k, 1, minFree) by {
        QualifiedStable(m', r, k, minFree);
      }
      assert forall c :: c in cs ==> c == cs[0] || c in cs[1..];
      r
  }

  /** The positions `p` and `q` are kept apart by `markNearby` with the
      given spacing: `q` is not a cell that marking around `p` reaches. */
  predicate Spaced(p: Pos, q: Pos, spacing: int, checkered: bool) {
    !Reaches((p.y, p.x), spacing, checkered, (q.y, q.x))
  }

  /** A cell still FREE after marking around `k` was FREE before and out of
      the marking's reach. */
  lemma MarkedFree(m: Matrix, k: Coord, spacing: int, checkered: bool, q: Coord)
    requires q in MarkNearby(m, k, spacing, checkered)
    requires MarkNearby(m, k, spacing, checkered)[q] == FreeEntry
    ensures q in m && m[q] == FreeEntry && !Reaches(k, spacing, checkered, q)
  {
  }

  /** The positions yielded after `pos`, free once `pos` was marked, were
      free before and lie outside its reach. */
  lemma RestStaysFree(m: Matrix, pos: Pos, spacing: int, checkered: bool, rest: seq<Pos>)
    requires var m' := MarkNearby(m, (pos.y, pos.x), spacing, checkered);
      forall p :: p in rest ==> (p.y, p.x) in m' && m'[(p.y, p.x)] == FreeEntry
    ensures forall p :: p in rest ==> (p.y, p.x) in m && m[(p.y, p.x)] == FreeEntry && Spaced(pos, p, spacing, checkered)
  {
    forall p | p in rest
      ensures (p.y, p.x) in m && m[(p.y, p.x)] == FreeEntry && Spaced(pos, p, spacing, checkered)
    {
      MarkedFree(m, (pos.y, pos.x), spacing, checkered, (p.y, p.x));
    }
  }

  /** Prefixing a position spaced from every later one keeps a sequence
      pairwise spaced. */
  lemma ConsSpaced(pos: Pos, rest: seq<Pos>, spacing: int, checkered: bool)
    requires forall p :: p in rest ==> Spaced(pos, p, spacing, checkered)
    requires forall i, j :: 0 <= i < j < |rest| ==> Spaced(rest[i], rest[j], spacing, checkered)
    ensures var out := [pos] + rest;
      forall i, j :: 0 <= i < j < |out| ==> Spaced(out[i], out[j], spacing, checkered)
  {
    var out := [pos] + rest;
    forall i, j | 0 <= i < j < |out|
      ensures Spaced(out[i], out[j], spacing, checkered)
    {
      if i > 0 {
        assert out[i] == rest[i - 1] && out[j] == rest[j - 1];
      } else {
        assert out[j] == rest[j - 1] && out[j] in rest;
      }
    }
  }

  /** The `(x, y)` coordinate `c` is a candidate of the yield pass over `m`:
      its cell is FREE and its path to the target is no longer than `range`. */
  predicate Candidate(m: Matrix, c: Coord, roomName: string, range: int, pathLen: Pos -> int) {
    Swap(c) in m && m[Swap(c)] == FreeEntry && pathLen(Pos(c.0, c.1, roomName)) <= range
  }

  /** No position of `out` reaches the `(x, y)` coordinate `c` when marked. */
  predicate Unreached(out: seq<Pos>, c: Coord, roomName: string, spacing: int, checkered: bool) {
    forall p :: p in out ==> Spaced(p, Pos(c.0, c.1, roomName), spacing, checkered)
  }

  /** The yield pass over `(x, y)` coordinates: a cell still FREE whose path
      to the target is no longer than `range` is yielded, and the FREE cells
      around it are then disqualified with the spacing range. Nothing is
      missed: a candidate that no yielded position's marking reaches is
      yielded itself. */
  function YieldFrom(m: Matrix, cs: seq<Coord>, roomName: string, range: int, spacing: int,
                     checkered: bool, pathLen: Pos -> int): (out: seq<Pos>)
    ensures forall p :: p in out ==> (p.x, p.y) in cs && p.roomName == roomName
    ensures forall p :: p in out ==> (p.y, p.x) in m && m[(p.y, p.x)] == FreeEntry && pathLen(p) <= range
    ensures forall i, j :: 0 <= i < j < |out| ==> Spaced(out[i], out[j], spacing, checkered)
    ensures forall c :: (c in cs && Candidate(m, c, roomName, range, pathLen) && Unreached(out, c, roomName, spacing, checkered)
      ==> Pos(c.0, c.1, roomName) in out)
    decreases |cs|
  {
    if |cs| == 0 then []
    else
      var c := cs[0];
      var k := Swap(c);
      var pos := Pos(c.0, c.1, roomName);
      if k !in m || m[k] != FreeEntry || pathLen(pos) > range then
        var out := YieldFrom(m, cs[1..], roomName, range, spacing, checkered, pathLen);
        assert forall p :: p in out ==> (p.x, p.y) in cs;
        YieldSkips(m, cs, spacing, checkered, roomName, range, pathLen, out);
        out
      else
        var m' := MarkNearby(m, k, spacing, checkered);
        var rest := YieldFrom(m', cs[1..], roomName, range, spacing, checkered, pathLen);
        YieldCons(m, cs, roomName, range, spacing, checkered, pathLen, rest);
        [pos] + rest
  }

  /** The four guarantees of the yield pass over `cs` and `m` for the
      positions `out`: each is a FREE candidate of `cs` in the room, no two
      reach each other, and every candidate no yielded position reaches is
      yielded. */
  ghost predicate YieldsFrom(m: Matrix, cs: seq<Coord>, roomName: string, range: int, spacing: int,
                             checkered: bool, pathLen: Pos -> int, out: seq<Pos>) {
    && (forall p :: p in out ==> (p.x, p.y) in cs && p.roomName == roomName)
    && (forall p :: p in out ==> (p.y, p.x) in m && m[(p.y, p.x)] == FreeEntry && pathLen(p) <= range)
    && (forall i, j :: 0 <= i < j < |out| ==> Spaced(out[i], out[j], spacing, checkered))
    && (forall c :: (c in cs && Candidate(m, c, roomName, range, pathLen) && Unreached(out, c, roomName, spacing, checkered)
         ==> Pos(c.0, c.1, roomName) in out))
  }

  /** A yielding iteration: yielding the first candidate and then what the
      pass yields over the marked matrix keeps all four guarantees. */
  lemma YieldCons(m: Matrix, cs: seq<Coord>, roomName: string, range: int, spacing: int,
                  checkered: bool, pathLen: Pos -> int, rest: seq<Pos>)
    requires |cs| > 0 && Candidate(m, cs[0], roomName, range, pathLen)
    requires YieldsFrom(MarkNearby(m, Swap(cs[0]), spacing, checkered), cs[1..], roomName, range, spacing,
                        checkered, pathLen, rest)
    ensures YieldsFrom(m, cs, roomName, range, spacing, checkered, pathLen, [Pos(cs[0].0, cs[0].1, roomName)] + rest)
  {
    var pos := Pos(cs[0].0, cs[0].1, roomName);
    var m' := MarkNearby(m, Swap(cs[0]), spacing, checkered);
    ConsIn(cs, roomName, rest);
    ConsFree(m, cs, roomName, range, spacing, checkered, pathLen, rest);
    YieldMisses(m, m', cs, pos, spacing, checkered, roomName, range, pathLen, rest);
  }

  /** The first coordinate followed by positions of the rest are all
      positions of `cs` in the room. */
  lemma ConsIn(cs: seq<Coord>, roomName: string, rest: seq<Pos>)
    requires |cs| > 0
    requires forall p :: p in rest ==> (p.x, p.y) in cs[1..] && p.roomName == roomName
    ensures forall p :: p in [Pos(cs[0].0, cs[0].1, roomName)] + rest ==> (p.x, p.y) in cs && p.roomName == roomName
  {
    assert forall p :: p in [Pos(cs[0].0, cs[0].1, roomName)] + rest ==> p == Pos(cs[0].0, cs[0].1, roomName) || p in rest;
  }

  /** Yielding the first candidate, then positions still FREE after marking
      around it and pairwise spaced, gives FREE candidates of `m` that are
      pairwise spaced. */
  lemma ConsFree(m: Matrix, cs: seq<Coord>, roomName: string, range: int, spacing: int,
                 checkered: bool, pathLen: Pos -> int, rest: seq<Pos>)
    requires |cs| > 0 && Candidate(m, cs[0], roomName, range, pathLen)
    requires var m' := MarkNearby(m, Swap(cs[0]), spacing, checkered);
      forall p :: p in rest ==> (p.y, p.x) in m' && m'[(p.y, p.x)] == FreeEntry && pathLen(p) <= range
    requires forall i, j :: 0 <= i < j < |rest| ==> Spaced(rest[i], rest[j], spacing, checkered)
    ensures var out := [Pos(cs[0].0, cs[0].1, roomName)] + rest;
      forall p :: p in out ==> (p.y, p.x) in m && m[(p.y, p.x)] == FreeEntry && pathLen(p) <= range
    ensures var out := [Pos(cs[0].0, cs[0].1, roomName)] + rest;
      forall i, j :: 0 <= i < j < |out| ==> Spaced(out[i], out[j], spacing, checkered)
  {
    var pos := Pos(cs[0].0, cs[0].1, roomName);
    assert (pos.y, pos.x) == Swap(cs[0]);
    RestStaysFree(m, pos, spacing, checkered, rest);
    ConsSpaced(pos, rest, spacing, checkered);
    assert forall p :: p in [pos] + rest ==> p == pos || p in rest;
  }

  /** The completeness step of a yielding iteration: a later candidate that
      the new position does not reach is still a candidate after marking,
      so the rest of the pass yields it. */
  lemma YieldMisses(m: Matrix, m': Matrix, cs: seq<Coord>, pos: Pos, spacing: int, checkered: bool,
                    roomName: string, range: int, pathLen: Pos -> int, rest: seq<Pos>)
    requires |cs| > 0 && pos == Pos(cs[0].0, cs[0].1, roomName)
    requires m' == MarkNearby(m, (pos.y, pos.x), spacing, checkered)
    requires forall c :: (c in cs[1..] && Candidate(m', c, roomName, range, pathLen) && Unreached(rest, c, roomName, spacing, checkered)
      ==> Pos(c.0, c.1, roomName) in rest)
    ensures forall c :: (c in cs && Candidate(m, c, roomName, range, pathLen) && Unreached([pos] + rest, c, roomName, spacing, checkered)
      ==> Pos(c.0, c.1, roomName) in [pos] + rest)
  {
    forall c | c in cs && Candidate(m, c, roomName, range, pathLen) && Unreached([pos] + rest, c, roomName, spacing, checkered)
      ensures Pos(c.0, c.1, roomName) in [pos] + rest
    {
      if c != cs[0] {
        assert c in cs[1..];
        assert pos in [pos] + rest;
        assert !Reaches((pos.y, pos.x), spacing, checkered, Swap(c));
        assert Candidate(m', c, roomName, range, pathLen);
        assert forall p :: p in rest ==> p in [pos] + rest;
        assert Unreached(rest, c, roomName, spacing, checkered);
      }
    }
  }

  /** The completeness step of a skipping iteration: the skipped coordinate
      is no candidate, so every candidate lies further on. */
  lemma YieldSkips(m: Matrix, cs: seq<Coord>, spacing: int, checkered: bool,
                   roomName: string, range: int, pathLen: Pos -> int, out: seq<Pos>)
    requires |cs| > 0 && !Candidate(m, cs[0], roomName, range, pathLen)
    requires forall c :: (c in cs[1..] && Candidate(m, c, roomName, range, pathLen) && Unreached(out, c, roomName, spacing, checkered)
      ==> Pos(c.0, c.1, roomName) in out)
    ensures forall c :: (c in cs && Candidate(m, c, roomName, range, pathLen) && Unreached(out, c, roomName, spacing, checkered)
      ==> Pos(c.0, c.1, roomName) in out)
  {
    assert forall c :: c in cs ==> c == cs[0] || c in cs[1..];
  }

  /** Disqualifying more FREE cells can only remove yielded positions'
      candidates, never the clearance of an avoid cell. */
  lemma ClearOfDemoted(m1: Matrix, m2: Matrix, a: Coord)
    requires Demoted(m1, m2) && ClearOf(m1, a)
    ensures ClearOf(m2, a)
  {
  }

  /** Everything the search needs from the engine. */
  datatype SearchInput = SearchInput(
    visible: bool,
    look: Coord -> seq<LookObject>,
    pathLen: Pos -> int)

  /** The square `lookAtArea` is asked for, clamped to 2..47; the origin
      must lie inside it or the first reduction reads a missing cell. */
  predicate InBox(target: Pos, bordered: int) {
    && BoundCoords(target.y - bordered) <= target.y <= BoundCoords(target.y + bordered)
    && BoundCoords(target.x - bordered) <= target.x <= BoundCoords(target.x + bordered)
  }

  /** The seeded matrix of a search. */
  function Seeded(target: Pos, range: int, look: Coord -> seq<LookObject>, avoids: seq<AvoidRule>): (r: Matrix)
    ensures forall k :: k in r <==> Swap(k) in CoordsWithinRange((target.x, target.y), range + 1)
  {
    SeedFrom(map[], CoordsWithinRange((target.x, target.y), range + 1), target, range + 1, look, NormalizeAll(avoids))
  }

  /** A cell within a range is within every larger range. */
  lemma CoordsGrow(t: Coord, range: int, c: Coord)
    requires c in CoordsWithinRange(t, range)
    ensures c in CoordsWithinRange(t, range + 1)
  {
    CoordsMembers(t, range, c);
    CoordsMembers(t, range + 1, c);
  }

  lemma CoordsGrowAll(t: Coord, range: int, inner: seq<Coord>, outer: seq<Coord>)
    requires inner == CoordsWithinRange(t, range) && outer == CoordsWithinRange(t, range + 1)
    ensures forall c :: c in inner ==> c in outer
  {
    forall c | c in inner
      ensures c in outer
    {
      CoordsGrow(t, range, c);
    }
  }

  /** The seeded square covers every cell the later passes visit. */
  lemma SeededCovers(target: Pos, range: int, look: Coord -> seq<LookObject>, avoids: seq<AvoidRule>)
    ensures forall c :: c in CoordsWithinRange((target.x, target.y), range) ==> Swap(c) in Seeded(target, range, look, avoids)
  {
    var t := (target.x, target.y);
    var inner := CoordsWithinRange(t, range);
    var outer := CoordsWithinRange(t, range + 1);
    var m := Seeded(target, range, look, avoids);
    assert forall k :: k in m <==> Swap(k) in outer;
    CoordsGrowAll(t, range, inner, outer);
    forall c | c in inner
      ensures Swap(c) in m
    {
      assert Swap(Swap(c)) == c;
    }
  }

  lemma SeededFreeIsEntry(target: Pos, range: int, look: Coord -> seq<LookObject>, avoids: seq<AvoidRule>)
    ensures FreeIsEntry(Seeded(target, range, look, avoids))
  {
    var m := Seeded(target, range, look, avoids);
    var navoids := NormalizeAll(avoids);
    assert forall a :: a in navoids ==> a.kind.Some? && a.kind.value != FREE;
    forall k | k in m && m[k].kind == FREE
      ensures m[k] == FreeEntry
    {
      var init := Initial(k.0, k.1, target, range + 1);
      assert m[k] == CellOf(look(Swap(k)), init, navoids);
      if init != FreeEntry {
        StaysTaken(look(Swap(k)), init, navoids);
      } else {
        FreeOnlyUntouched(look(Swap(k)), init, navoids);
      }
    }
  }

  /** The matrix after the second pass. */
  function Refined(target: Pos, range: int, minFree: int, look: Coord -> seq<LookObject>,
                   avoids: seq<AvoidRule>): (r: Matrix)
    ensures Demoted(Seeded(target, range, look, avoids), r)
    ensures forall c :: c in CoordsWithinRange((target.x, target.y), range) ==> Swap(c) in r
    ensures forall c :: c in CoordsWithinRange((target.x, target.y), range) ==> ClearOf(r, Swap(c))
    ensures forall c :: c in CoordsWithinRange((target.x, target.y), range) && r[Swap(c)] == FreeEntry ==>
      minFree <= CountQualified(r, Swap(c), 1, minFree)
  {
    SeededCovers(target, range, look, avoids);
    SeededFreeIsEntry(target, range, look, avoids);
    var cs := CoordsWithinRange((target.x, target.y), range);
    var r := RefineFrom(Seeded(target, range, look, avoids), cs, minFree);
    assert forall c :: c in cs ==> Swap(c) in r;
    r
  }

  /** `FindFreePosNearby(target, range, numOfFreeAdjSpaces,
      avoidEachOtherRange, avoidList, avoidIsCheckered)`: nothing for an
      unseen room, a crash (None) when the target lies outside the area
      looked at, and otherwise the positions yielded in ring order: every
      candidate of the refined matrix within range is yielded unless an
      earlier yield's marking reached it. */
  function FindFreePosNearby(input: SearchInput, target: Pos, range: int, minFree: int, spacing: int,
                             avoids: seq<AvoidRule>, checkered: bool): (r: Option<seq<Pos>>)
    ensures !input.visible ==> r == Some([])
    ensures input.visible ==> (r.None? <==> !InBox(target, range + 1))
    ensures r.Some? ==> forall p :: p in r.value ==> p.roomName == target.roomName && input.pathLen(p) <= range
    ensures r.Some? ==> forall i, j :: 0 <= i < j < |r.value| ==> Spaced(r.value[i], r.value[j], spacing, checkered)
    ensures input.visible && r.Some? ==>
      var m := Refined(target, range, minFree, input.look, avoids);
      forall c :: (c in CoordsWithinRange((target.x, target.y), range)
                   && Candidate(m, c, target.roomName, range, input.pathLen)
                   && Unreached(r.value, c, target.roomName, spacing, checkered)
                   ==> Pos(c.0, c.1, target.roomName) in r.value)
  {
    if !input.visible then Some([])
    else if !InBox(target, range + 1) then None
    else
      var m := Refined(target, range, minFree, input.look, avoids);
      Some(YieldFrom(m, CoordsWithinRange((target.x, target.y), range), target.roomName, range, spacing,
                     checkered, input.pathLen))
  }

  /** Every position the search yields lies within `range` of the target,
      away from the room's edge, on a tile whose look results do not block
      it, with at least `minFree` qualified neighbours; and no avoided cell
      within `range` of the target reaches a cell still free (see
      `Refined`). */
  lemma FindFreeLegal(input: SearchInput, target: Pos, range: int, minFree: int, spacing: int,
                      avoids: seq<AvoidRule>, checkered: bool, p: Pos)
    requires var r := FindFreePosNearby(input, target, range, minFree, spacing, avoids, checkered);
      r.Some? && p in r.value
    ensures Dist((p.x, p.y), (target.x, target.y)) <= range
    ensures !IsCloseToRoomEdge(p.y, p.x)
    ensures forall o :: o in input.look((p.x, p.y)) ==> !Blocks(o)
    ensures minFree <= CountQualified(Refined(target, range, minFree, input.look, avoids), (p.y, p.x), 1, minFree)
  {
    var t := (target.x, target.y);
    var m0 := Seeded(target, range, input.look, avoids);
    var m := Refined(target, range, minFree, input.look, avoids);
    var cs := CoordsWithinRange(t, range);
    var out := YieldFrom(m, cs, target.roomName, range, spacing, checkered, input.pathLen);
    assert FindFreePosNearby(input, target, range, minFree, spacing, avoids, checkered) == Some(out);
    var k := (p.y, p.x);
    assert (p.x, p.y) in cs && k in m && m[k] == FreeEntry;
    assert Swap((p.x, p.y)) == k;
    assert m0[k] == FreeEntry;
    CoordsMembers(t, range, (p.x, p.y));
    SeededFree(target, range, input.look, avoids, (p.x, p.y));
  }

  /** A FREE seeded cell was seeded FREE and nothing on its tile blocks it. */
  lemma SeededFree(target: Pos, range: int, look: Coord -> seq<LookObject>, avoids: seq<AvoidRule>, c: Coord)
    requires Swap(c) in Seeded(target, range, look, avoids)
    requires Seeded(target, range, look, avoids)[Swap(c)] == FreeEntry
    ensures !IsCloseToRoomEdge(c.1, c.0) && !IsEdge(c.1, c.0, target.x, target.y, range + 1)
    ensures forall o :: o in look(c) ==> !Blocks(o)
  {
    var navoids := NormalizeAll(avoids);
    var init := Initial(c.1, c.0, target, range + 1);
    assert Seeded(target, range, look, avoids)[Swap(c)] == CellOf(look(c), init, navoids);
    FreeCell(look(c), init, navoids);
  }

  /** A tile reduced to the FREE entry under normalised rules started free
      and holds nothing that blocks it. */
  lemma FreeCell(objs: seq<LookObject>, init: Cell, avoids: seq<AvoidRule>)
    requires init == FreeEntry || init == DisqualifiedEntry
    requires forall a :: a in avoids ==> a.kind.Some? && a.kind.value != FREE
    requires CellOf(objs, init, avoids) == FreeEntry
    ensures init == FreeEntry && forall o :: o in objs ==> !Blocks(o)
  {
    if init != FreeEntry {
      StaysTaken(objs, init, avoids);
    } else {
      FreeOnlyUntouched(objs, init, avoids);
    }
  }
}

=== FILE: planner.dfy ===
/** The building planner of src/constructor/RoomBuilder.ts: building plans,
    the per-level placement ranges, and `buildInRoom`, which finds free
    positions around each source of a room, schedules a construction task at
    each and connects the placed positions to the source with roads.

    The engine's `CONTROLLER_STRUCTURES` table is a parameter, and so are the
    room's structures and construction sites, the path lengths the search
    asks the path finder for, and the path finder itself. */
module Planner {
  import opened Wrappers
  import opened Structures
  import opened Constructor
  import opened Placement
  import opened Roads

  // ---------------------------------------------------------------------
  // Plans

  /** A building plan. `poiCount` -1 means no cap. */
  datatype BuildingPlan = BuildingPlan(
    structureType: StructureType,
    poiCount: int,
    minFreeAdjSpaces: int,
    minPlacementDistance: int,
    avoidList: seq<AvoidRule>,
    avoidIsCheckered: bool,
    structureFilter: Building -> bool)

  datatype PlanOpts = PlanOpts(
    poiCount: Option<int>,
    minFreeAdjSpaces: Option<int>,
    minPlacementDistance: Option<int>,
    avoidList: Option<seq<AvoidRule>>,
    avoidIsCheckered: Option<bool>,
    filter: Option<Building -> bool>)

  /** `new BuildingPlan(type, opts)`: each option replaces its default only
      when it is truthy, so a 0 count or distance keeps the default. */
  function NewBuildingPlan(t: StructureType, opts: Option<PlanOpts>): (p: BuildingPlan)
    ensures p.structureType == t
    ensures opts.None? ==>
      && p.poiCount == -1 && p.minFreeAdjSpaces == 3 && p.minPlacementDistance == 3
      && p.avoidList == [] && !p.avoidIsCheckered && forall b :: p.structureFilter(b)
    ensures opts.Some? ==>
      && p.poiCount == OrInt(opts.value.poiCount, -1)
      && p.minFreeAdjSpaces == OrInt(opts.value.minFreeAdjSpaces, 3)
      && p.minPlacementDistance == OrInt(opts.value.minPlacementDistance, 3)
      && p.avoidList == opts.value.avoidList.GetOr([])
      && p.avoidIsCheckered == opts.value.avoidIsCheckered.GetOr(false)
    ensures opts.Some? && opts.value.filter.None? ==> forall b :: p.structureFilter(b)
  {
    match opts
    case None => BuildingPlan(t, -1, 3, 3, [], false, _ => true)
    case Some(o) =>
      BuildingPlan(t,
        OrInt(o.poiCount, -1),
        OrInt(o.minFreeAdjSpaces, 3),
        OrInt(o.minPlacementDistance, 3),
        o.avoidList.GetOr([]),
        o.avoidIsCheckered.GetOr(false),
        o.filter.GetOr(_ => true))
  }

  /** One container per source, seven tiles apart, counting containers and
      storage as existing: each search is capped at one placement, only
      containers and storage count, and placements stay seven tiles apart. */
  function ContainerBuildingPlan(): (p: BuildingPlan)
    ensures p.structureType == Container
    ensures p.poiCount == 1 && p.minFreeAdjSpaces == 1 && p.minPlacementDistance == 7
    ensures forall b :: p.structureFilter(b) <==> b.structureType in {Container, Storage}
    ensures p.avoidList == [AvoidStruct(Container, 7, None, false)]
  {
    NewBuildingPlan(Container, Some(PlanOpts(
      Some(1), Some(1), Some(7),
      Some([NewAvoidStruct(Container, Some(AvoidOpts(Some(7), None, None)))]),
      None,
      Some((b: Building) => b.structureType == Container || b.structureType == Storage))))
  }

  /** Extensions packed one tile apart, away from roads, spawns, the
      controller, other extensions, containers, storage and sources. The plan
      has no filter of its own, so EVERY structure in the room counts as an
      existing extension; its avoid rules all have range 1 except the
      source's, and all resolve to AVOID_AREA once normalised. */
  function ExtensionBuildingPlan(): (p: BuildingPlan)
    ensures p.structureType == Extension
    ensures p.poiCount == -1 && p.minFreeAdjSpaces == 3 && p.minPlacementDistance == 1
    ensures forall b :: p.structureFilter(b)
    ensures |p.avoidList| == 7
    ensures forall i :: 0 <= i < 6 ==> p.avoidList[i].range == 1
    ensures p.avoidList[6] == AvoidSource(2, None)
    ensures forall i :: 0 <= i < 7 ==> Normalize(p.avoidList[i]).kind == Some(AVOID_AREA)
  {
    NewBuildingPlan(Extension, Some(PlanOpts(
      None, Some(3), Some(1),
      Some([ NewAvoidStruct(Road, None), NewAvoidStruct(Spawn, None), NewAvoidStruct(Controller, None),
             NewAvoidStruct(Extension, None), NewAvoidStruct(Container, None), NewAvoidStruct(Storage, None),
             AvoidSource(2, None) ]),
      None, None)))
  }

  // ---------------------------------------------------------------------
  // Desired counts and ranges

  /** The `RoomLevelRange` table: the search range for a structure type at a
      controller level, absent where the table has no entry. Levels outside
      0..8 do not occur; the table has no row for them. */
  function RoomLevelRange(level: int, t: StructureType): (r: Option<int>)
    ensures r.Some? ==> 0 <= level <= 8 && 1 <= r.value <= 15
    ensures 0 <= level <= 8 && t == Container ==> r == Some(1)
    ensures t !in {Container, Extension, Tower, Storage, Spawn} ==> r.None?
  {
    if level < 0 || level > 8 then None
    else match t
      case Container => Some(1)
      case Extension =>
        if level < 2 then None else if level < 4 then Some(5) else if level < 6 then Some(8) else Some(11)
      case Tower => if level < 3 then None else if level < 8 then Some(5) else Some(15)
      case Storage => if level < 4 then None else Some(5)
      case Spawn => if level < 7 then None else Some(13)
      case _ => None
  }

  /** The table only widens: a type with a range at one level has a range at
      every higher level, at least as large. */
  lemma RangesNeverShrink(l1: int, l2: int, t: StructureType)
    requires 0 <= l1 <= l2 <= 8
    requires RoomLevelRange(l1, t).Some?
    ensures RoomLevelRange(l2, t).Some? && RoomLevelRange(l1, t).value <= RoomLevelRange(l2, t).value
  {
  }

  /** `getDesiredRange`: the table's entry at the controller's level, and 5
      in a room without a controller. */
  function GetDesiredRange(controllerLevel: Option<int>, t: StructureType): (r: Option<int>)
    ensures controllerLevel.None? ==> r == Some(5)
    ensures controllerLevel.Some? ==> r == RoomLevelRange(controllerLevel.value, t)
  {
    match controllerLevel
    case None => Some(5)
    case Some(level) => RoomLevelRange(level, t)
  }

  /** The engine's `CONTROLLER_STRUCTURES[type][level]`. */
  type ControllerStructures = (StructureType, int) -> Option<int>

  /** `getDesiredNumberOfStructs`: the engine's allowance at the controller's
      level, 0 where it has none, and 0 without a controller. */
  function GetDesiredNumber(controllerLevel: Option<int>, t: StructureType, table: ControllerStructures): (n: int)
    ensures controllerLevel.None? ==> n == 0
    ensures controllerLevel.Some? ==> n == table(t, controllerLevel.value).GetOr(0)
  {
    match controllerLevel
    case None => 0
    case Some(level) => table(t, level).GetOr(0)
  }

  // ---------------------------------------------------------------------
  // buildInRoom

  /** How many elements of `s` satisfy `f`. */
  function CountWhere<X>(s: seq<X>, f: X -> bool): (n: nat)
    ensures n <= |s|
    ensures n == 0 <==> forall x :: x in s ==> !f(x)
    decreases |s|
  {
    if |s| == 0 then 0
    else
      assert forall x :: x in s ==> x == s[0] || x in s[1..];
      (if f(s[0]) then 1 else 0) + CountWhere(s[1..], f)
  }

  /** The state of one `buildInRoom` call as it goes: tasks still to place,
      the running count, the queues, and the positions placed. */
  datatype Progress = Progress(togo: int, howMany: int, mem: Queues, placed: seq<Pos>)

  /** What scheduling a task of the plan's type at a position does to the
      queues: whether it was scheduled, and the queues afterwards. */
  type Scheduler = (Queues, Pos) -> (bool, Queues)

  /** `constructorController.schedule(new ConstructTask(t, pos))`. */
  function Scheduling(t: StructureType): Scheduler {
    (m: Queues, p: Pos) => Schedule(m, NewTask(t, p))
  }

  /** A scheduler that never frees a scheduled tile. */
  ghost predicate KeepsEveryTile(sched: Scheduler) {
    forall m: Queues, p: Pos, q: Pos :: CheckSchedule(m, q).Some? ==> CheckSchedule(sched(m, p).1, q).Some?
  }

  /** A scheduler that leaves the tile it was given scheduled, by the new
      task or by the one already there. */
  ghost predicate MarksTile(sched: Scheduler) {
    forall m: Queues, p: Pos :: CheckSchedule(sched(m, p).1, p).Some?
  }

  /** `schedule` has both properties the inner loop relies on. */
  lemma SchedulingIsSound(t: StructureType)
    ensures KeepsEveryTile(Scheduling(t)) && MarksTile(Scheduling(t))
  {
    forall m: Queues, p: Pos, q: Pos | CheckSchedule(m, q).Some?
      ensures CheckSchedule(Scheduling(t)(m, p).1, q).Some?
    {
      ScheduleKeepsTile(m, NewTask(t, p), q);
    }
    forall m: Queues, p: Pos
      ensures CheckSchedule(Scheduling(t)(m, p).1, p).Some?
    {
      PlaceStep(m, t, p);
    }
  }

  /** One call of `schedule` leaves the tile tried scheduled either way. */
  lemma PlaceStep(mem: Queues, t: StructureType, p: Pos)
    ensures CheckSchedule(Schedule(mem, NewTask(t, p)).1, p).Some?
  {
    if Schedule(mem, NewTask(t, p)).0 {
      ScheduledIsStored(mem, NewTask(t, p));
    }
  }

  /** The inner loop over one source's free positions: schedule a task at
      each; count each success; stop once nothing is left to place or the
      running count equals the plan's `poiCount`. Each placement is one
      fewer to go and one more counted. */
  function Place(sched: Scheduler, mem: Queues, poiCount: int, positions: seq<Pos>, togo: int, howMany: int): (r: Progress)
    requires togo >= 1
    ensures 0 <= r.togo == togo - |r.placed|
    ensures r.howMany == howMany + |r.placed|
    ensures forall p :: p in r.placed ==> p in positions
    decreases |positions|
  {
    if |positions| == 0 then Progress(togo, howMany, mem, [])
    else
      var p := positions[0];
      var s := sched(mem, p);
      var togo' := if s.0 then togo - 1 else togo;
      var howMany' := if s.0 then howMany + 1 else howMany;
      var placed := if s.0 then [p] else [];
      if togo' == 0 || howMany' == poiCount then Progress(togo', howMany', s.1, placed)
      else
        var rest := Place(sched, s.1, poiCount, positions[1..], togo', howMany');
        assert forall q :: q in placed + rest.placed ==> q == p || q in positions[1..];
        Progress(rest.togo, rest.howMany, rest.mem, placed + rest.placed)
  }

  /** The inner loop keeps a scheduled tile scheduled. */
  lemma {:induction false} PlaceKeepsTile(sched: Scheduler, mem: Queues, poiCount: int, positions: seq<Pos>,
                                          togo: int, howMany: int, q: Pos)
    requires KeepsEveryTile(sched)
    requires togo >= 1
    requires CheckSchedule(mem, q).Some?
    ensures CheckSchedule(Place(sched, mem, poiCount, positions, togo, howMany).mem, q).Some?
    decreases |positions|
  {
    if |positions| > 0 {
      var s := sched(mem, positions[0]);
      assert CheckSchedule(s.1, q).Some?;
      var togo' := if s.0 then togo - 1 else togo;
      var howMany' := if s.0 then howMany + 1 else howMany;
      if togo' != 0 && howMany' != poiCount {
        PlaceKeepsTile(sched, s.1, poiCount, positions[1..], togo', howMany', q);
      }
    }
  }

  /** The inner loop loses no scheduled tile. */
  lemma PlaceKeepsTiles(sched: Scheduler, mem: Queues, poiCount: int, positions: seq<Pos>,
                        togo: int, howMany: int)
    requires KeepsEveryTile(sched)
    requires togo >= 1
    ensures KeepsTiles(mem, Place(sched, mem, poiCount, positions, togo, howMany).mem)
  {
    forall u: ConstructTask | u in Stored(mem, u.roomName())
      ensures CheckSchedule(Place(sched, mem, poiCount, positions, togo, howMany).mem, u.pos).Some?
    {
      assert AtTile(u, u.pos);
      PlaceKeepsTile(sched, mem, poiCount, positions, togo, howMany, u.pos);
    }
  }

  /** Every position the inner loop places ends up scheduled. */
  lemma {:induction false} PlacedScheduled(sched: Scheduler, mem: Queues, poiCount: int, positions: seq<Pos>,
                                           togo: int, howMany: int, q: Pos)
    requires KeepsEveryTile(sched) && MarksTile(sched)
    requires togo >= 1
    requires q in Place(sched, mem, poiCount, positions, togo, howMany).placed
    ensures CheckSchedule(Place(sched, mem, poiCount, positions, togo, howMany).mem, q).Some?
    decreases |positions|
  {
    var p := positions[0];
    var s := sched(mem, p);
    assert CheckSchedule(s.1, p).Some?;
    var togo' := if s.0 then togo - 1 else togo;
    var howMany' := if s.0 then howMany + 1 else howMany;
    if togo' != 0 && howMany' != poiCount {
      var rest := Place(sched, s.1, poiCount, positions[1..], togo', howMany');
      if q in rest.placed {
        PlacedScheduled(sched, s.1, poiCount, positions[1..], togo', howMany', q);
      } else {
        PlaceKeepsTile(sched, s.1, poiCount, positions[1..], togo', howMany', p);
      }
    }
  }

  /** Unless the inner loop stopped early, every free position of the
      source ends up scheduled: placed here, or found taken. */
  lemma {:induction false} PlaceTriesAll(sched: Scheduler, mem: Queues, poiCount: int, positions: seq<Pos>,
                                         togo: int, howMany: int, q: Pos)
    requires KeepsEveryTile(sched) && MarksTile(sched)
    requires togo >= 1 && q in positions
    requires var r := Place(sched, mem, poiCount, positions, togo, howMany);
      r.togo > 0 && r.howMany != poiCount
    ensures CheckSchedule(Place(sched, mem, poiCount, positions, togo, howMany).mem, q).Some?
    decreases |positions|
  {
    var p := positions[0];
    var s := sched(mem, p);
    assert CheckSchedule(s.1, p).Some?;
    var togo' := if s.0 then togo - 1 else togo;
    var howMany' := if s.0 then howMany + 1 else howMany;
    if togo' != 0 && howMany' != poiCount {
      if q == p {
        PlaceKeepsTile(sched, s.1, poiCount, positions[1..], togo', howMany', p);
      } else {
        assert q in positions[1..];
        PlaceTriesAll(sched, s.1, poiCount, positions[1..], togo', howMany', q);
      }
    }
  }

  /** The cap of `poiCount` compares it with the running count, which starts
      at the number of existing structures and sites and grows across
      sources. Once that count is past the cap, the cap never stops the
      loop: every free position is tried until nothing is left to place. */
  lemma {:induction false} CapPassedNeverStops(sched: Scheduler, mem: Queues, poiCount: int, positions: seq<Pos>,
                                               togo: int, howMany: int)
    requires KeepsEveryTile(sched) && MarksTile(sched)
    requires togo >= 1 && howMany > poiCount
    ensures var r := Place(sched, mem, poiCount, positions, togo, howMany);
      r.togo > 0 ==> forall p :: p in positions ==> CheckSchedule(r.mem, p).Some?
  {
    var r := Place(sched, mem, poiCount, positions, togo, howMany);
    if r.togo > 0 {
      forall p | p in positions
        ensures CheckSchedule(r.mem, p).Some?
      {
        PlaceTriesAll(sched, mem, poiCount, positions, togo, howMany, p);
      }
    }
  }

  /** The cap test also runs after a refused position: while the running
      count equals `poiCount`, a position where nothing is scheduled still
      ends the loop, and the positions after it are never tried. */
  lemma CapStopsAtRefused(sched: Scheduler, mem: Queues, poiCount: int, positions: seq<Pos>,
                          togo: int, howMany: int)
    requires togo >= 1 && howMany == poiCount && |positions| >= 2
    requires !sched(mem, positions[0]).0
    ensures Place(sched, mem, poiCount, positions, togo, howMany)
      == Progress(togo, howMany, sched(mem, positions[0]).1, [])
  {
  }

  /** The cap stops the loop as soon as the running count reaches
      `poiCount`, after a success as after a refusal: a count that starts
      below the cap ends at most at it. */
  lemma {:induction false} CapNeverPassed(sched: Scheduler, mem: Queues, poiCount: int, positions: seq<Pos>,
                                          togo: int, howMany: int)
    requires togo >= 1 && howMany < poiCount
    ensures Place(sched, mem, poiCount, positions, togo, howMany).howMany <= poiCount
    decreases |positions|
  {
    if |positions| > 0 {
      var s := sched(mem, positions[0]);
      var togo' := if s.0 then togo - 1 else togo;
      var howMany' := if s.0 then howMany + 1 else howMany;
      if togo' != 0 && howMany' != poiCount {
        CapNeverPassed(sched, s.1, poiCount, positions[1..], togo', howMany');
      }
    }
  }

  /** The search of `buildInRoom` around one point of interest. A range
      missing from the table makes the search throw in a visible room. */
  function SearchAround(w: World, target: Pos, range: Option<int>, plan: BuildingPlan,
                        pathLen: (Pos, Pos) -> int): (r: Option<seq<Pos>>)
    ensures target.roomName !in w.rooms ==> r == Some([])
    ensures r.Some? ==> forall i, j :: 0 <= i < j < |r.value| ==>
      Spaced(r.value[i], r.value[j], plan.minPlacementDistance, plan.avoidIsCheckered)
  {
    var input := SearchInput(target.roomName in w.rooms,
                             (c: (int, int)) => w.lookAt(Pos(c.0, c.1, target.roomName)),
                             p => pathLen(p, target));
    match range
    case None => if input.visible then None else Some([])
    case Some(n) =>
      FindFreePosNearby(input, target, n, plan.minFreeAdjSpaces, plan.minPlacementDistance,
                        plan.avoidList, plan.avoidIsCheckered)
  }

  /** The outer loop over the points of interest: place around each, then
      connect its placed positions to it with roads; stop once nothing is
      left to place. None when a search throws. */
  function PlaceAround(w: World, mem: Queues, plan: BuildingPlan, range: Option<int>, pois: seq<Pos>,
                       togo: int, howMany: int, pathLen: (Pos, Pos) -> int, search: PathFinder): (r: Option<Progress>)
    requires togo >= 1
    ensures r.Some? ==> 0 <= r.value.togo == togo - |r.value.placed|
    ensures r.Some? ==> forall p :: p in r.value.placed ==> CheckSchedule(r.value.mem, p).Some?
    ensures r.Some? ==> KeepsTiles(mem, r.value.mem)
    decreases |pois|
  {
    if |pois| == 0 then Some(Progress(togo, howMany, mem, []))
    else
      var target := pois[0];
      match SearchAround(w, target, range, plan, pathLen)
      case None => None
      case Some(positions) =>
        var sched := Scheduling(plan.structureType);
        var here := Place(sched, mem, plan.poiCount, positions, togo, howMany);
        SchedulingIsSound(plan.structureType);
        PlaceKeepsTiles(sched, mem, plan.poiCount, positions, togo, howMany);
        var mem' := Connect(w, here.mem, target, here.placed, search);
        KeepsTilesTrans(mem, here.mem, mem');
        assert forall p :: p in here.placed ==> CheckSchedule(mem', p).Some? by {
          forall p | p in here.placed
            ensures CheckSchedule(mem', p).Some?
          {
            PlacedScheduled(sched, mem, plan.poiCount, positions, togo, howMany, p);
            TileStaysScheduled(here.mem, mem', p);
          }
        }
        if here.togo == 0 then Some(Progress(0, here.howMany, mem', here.placed))
        else
          match PlaceAround(w, mem', plan, range, pois[1..], here.togo, here.howMany, pathLen, search)
          case None => None
          case Some(rest) =>
            KeepsTilesTrans(mem, mem', rest.mem);
            assert forall p :: p in here.placed ==> CheckSchedule(rest.mem, p).Some? by {
              forall p | p in here.placed
                ensures CheckSchedule(rest.mem, p).Some?
              {
                TileStaysScheduled(mem', rest.mem, p);
              }
            }
            Some(Progress(rest.togo, rest.howMany, rest.mem, here.placed + rest.placed))
  }

  /** What `buildInRoom` needs from the room beyond the world view. */
  datatype RoomInfo = RoomInfo(
    structures: seq<Building>,
    sites: seq<Building>,
    sources: seq<Pos>)

  /** How many structures of the plan's type are still wanted: the engine's
      allowance less what exists (structures passing the plan's filter, and
      construction sites of the type) and what is already scheduled. */
  function ToGo(mem: Queues, room: string, level: Option<int>, plan: BuildingPlan, info: RoomInfo,
                table: ControllerStructures): (r: int)
    ensures r <= GetDesiredNumber(level, plan.structureType, table) - Existing(plan, info)
    ensures r == GetDesiredNumber(level, plan.structureType, table) - Existing(plan, info) <==>
      forall v :: v in GetScheduled(mem, room) ==> v.structure != plan.structureType
  {
    GetDesiredNumber(level, plan.structureType, table)
    - Existing(plan, info)
    - CountWhere(GetScheduled(mem, room), (v: ConstructTask) => v.structure == plan.structureType)
  }

  /** The structures passing the plan's filter and the construction sites
      of the plan's type. */
  function Existing(plan: BuildingPlan, info: RoomInfo): (n: nat)
    ensures n <= |info.structures| + |info.sites|
    ensures n == 0 <==>
      && (forall b :: b in info.structures ==> !plan.structureFilter(b))
      && (forall b :: b in info.sites ==> b.structureType != plan.structureType)
  {
    CountWhere(info.structures, plan.structureFilter)
    + CountWhere(info.sites, (s: Building) => s.structureType == plan.structureType)
  }

  datatype Built = Built(ok: bool, mem: Queues, placed: seq<Pos>)

  /** `buildInRoom(room, plan)`: false at once when nothing is wanted;
      otherwise true exactly when every wanted structure was scheduled.
      None when the search throws. */
  function BuildInRoom(w: World, mem: Queues, room: string, plan: BuildingPlan, info: RoomInfo,
                       table: ControllerStructures, pathLen: (Pos, Pos) -> int, search: PathFinder): (r: Option<Built>)
    requires room in w.rooms
    ensures var togo := ToGo(mem, room, w.rooms[room].controllerLevel, plan, info, table);
      togo < 1 ==> r == Some(Built(false, mem, []))
    ensures var togo := ToGo(mem, room, w.rooms[room].controllerLevel, plan, info, table);
      r.Some? ==> |r.value.placed| <= (if togo < 1 then 0 else togo) && (r.value.ok <==> togo >= 1 && |r.value.placed| == togo)
    ensures r.Some? ==> forall p :: p in r.value.placed ==> CheckSchedule(r.value.mem, p).Some?
    ensures r.Some? ==> KeepsTiles(mem, r.value.mem)
  {
    var level := w.rooms[room].controllerLevel;
    BuildTo(w, mem, plan, GetDesiredRange(level, plan.structureType), info,
            ToGo(mem, room, level, plan, info, table), pathLen, search)
  }

  /** The part of `buildInRoom` after the number still wanted is known. */
  function BuildTo(w: World, mem: Queues, plan: BuildingPlan, range: Option<int>, info: RoomInfo,
                   togo: int, pathLen: (Pos, Pos) -> int, search: PathFinder): (r: Option<Built>)
    ensures togo < 1 ==> r == Some(Built(false, mem, []))
    ensures r.Some? ==> |r.value.placed| <= (if togo < 1 then 0 else togo) && (r.value.ok <==> togo >= 1 && |r.value.placed| == togo)
    ensures r.Some? ==> forall p :: p in r.value.placed ==> CheckSchedule(r.value.mem, p).Some?
    ensures r.Some? ==> KeepsTiles(mem, r.value.mem)
  {
    if togo < 1 then Some(Built(false, mem, []))
    else
      match PlaceAround(w, mem, plan, range, info.sources, togo, Existing(plan, info), pathLen, search)
      case None => None
      case Some(p) => Some(Built(p.togo == 0, p.mem, p.placed))
  }
}

=== FILE: roads.dfy ===
/** The road planner of src/constructor/Roads.ts. Roads are voted for: a tile
    must be asked for repeatedly (`ELECTION_THRESHOLD` times, each vote within
    `VOTE_EXPIRATION` ticks of the last) before a road task is scheduled.
    `connect` lays roads along paths found by the engine's path finder, which
    is an oracle parameter here. `Game.time` is the parameter `now`. */
module Roads {
  import opened Wrappers
  import opened Structures
  import opened Constructor

  const VoteExpiration: int := 100
  const ElectionThreshold: int := 5
  const GcPeriod: int := 1000

  // ---------------------------------------------------------------------
  // Ballot addresses

  function DigitChar(d: nat): char
    requires d < 10
  {
    "0123456789"[d]
  }

  /** Decimal digits of a natural number, as a template literal prints it. */
  function NatToString(n: nat): (s: string)
    ensures |s| >= 1 && '-' !in s
    ensures n >= 10 <==> |s| >= 2
    decreases n
  {
    if n < 10 then [DigitChar(n)] else NatToString(n / 10) + [DigitChar(n % 10)]
  }

  /** A number in a template literal: a minus sign, then the digits. */
  function IntToString(i: int): string {
    if i < 0 then "-" + NatToString(-i) else NatToString(i)
  }

  /** The key of a tile's ballot in `Memory.roads`: `room-x-y`, the room
      name, a dash, and the two coordinates each after a dash. */
  function Address(p: Pos): (a: string)
    ensures |a| >= |p.roomName| + 4
    ensures a[..|p.roomName|] == p.roomName && a[|p.roomName|] == '-'
  {
    p.roomName + "-" + IntToString(p.x) + "-" + IntToString(p.y)
  }

  lemma {:induction false} NatToStringInjective(a: nat, b: nat)
    requires NatToString(a) == NatToString(b)
    ensures a == b
    decreases a
  {
    var s := NatToString(a);
    if a >= 10 {
      assert s == NatToString(a / 10) + [DigitChar(a % 10)];
      assert s == NatToString(b / 10) + [DigitChar(b % 10)];
      assert s[..|s| - 1] == NatToString(a / 10) && s[..|s| - 1] == NatToString(b / 10);
      NatToStringInjective(a / 10, b / 10);
      assert "0123456789"[a % 10] == s[|s| - 1] == "0123456789"[b % 10];
    } else {
      assert "0123456789"[a] == s[0] == "0123456789"[b];
    }
  }

  /** The first '-' of `a + "-" + b` is right after `a` when `a` has none. */
  lemma FirstDash(a: string, b: string)
    requires '-' !in a
    ensures IndexOf(a + "-" + b, '-') == |a|
  {
    var s := a + "-" + b;
    assert s[|a|] == '-';
    assert forall i :: 0 <= i < |a| ==> s[i] == a[i];
  }

  /** Splitting at the first '-' is unambiguous when the head has none. */
  lemma SplitAtDash(a1: string, b1: string, a2: string, b2: string)
    requires '-' !in a1 && '-' !in a2
    requires a1 + "-" + b1 == a2 + "-" + b2
    ensures a1 == a2 && b1 == b2
  {
    var s := a1 + "-" + b1;
    FirstDash(a1, b1);
    FirstDash(a2, b2);
    assert a1 == s[..|a1|] == a2;
    assert b1 == s[|a1| + 1..] == b2;
  }

  /** On non-negative coordinates the key is the room name followed by the
      dash-separated coordinate part. */
  lemma AddressOfNatural(p: Pos)
    requires p.x >= 0 && p.y >= 0
    ensures Address(p) == p.roomName + "-" + (NatToString(p.x) + "-" + NatToString(p.y))
  {
    var xs, ys := NatToString(p.x), NatToString(p.y);
    assert Address(p) == p.roomName + "-" + xs + "-" + ys;
  }

  /** Ballot addresses never collide: room names never contain '-' and
      coordinates are never negative, so the key determines the tile. */
  lemma AddressInjective(p: Pos, q: Pos)
    requires '-' !in p.roomName && '-' !in q.roomName
    requires p.x >= 0 && p.y >= 0 && q.x >= 0 && q.y >= 0
    requires Address(p) == Address(q)
    ensures p == q
  {
    var xp, yp := NatToString(p.x), NatToString(p.y);
    var xq, yq := NatToString(q.x), NatToString(q.y);
    AddressOfNatural(p);
    AddressOfNatural(q);
    SplitAtDash(p.roomName, xp + "-" + yp, q.roomName, xq + "-" + yq);
    SplitAtDash(xp, yp, xq, yq);
    NatToStringInjective(p.x, q.x);
    NatToStringInjective(p.y, q.y);
  }

  // ---------------------------------------------------------------------
  // Voting

  /** `Memory.roads`: the vote times recorded for each address. */
  type Ballots = map<string, seq<int>>

  /** `expireVotes`: the votes cast less than `expiration` ticks ago, in order. */
  function ExpireVotes(votes: seq<int>, expiration: int, now: int): (r: seq<int>)
    ensures |r| <= |votes|
    ensures forall t :: t in r <==> t in votes && t + expiration > now
    ensures forall i :: 0 <= i < |votes| && votes[i] + expiration > now ==> votes[i] in r
    ensures forall t :: multiset(r)[t] == if t + expiration > now then multiset(votes)[t] else 0
  {
    if |votes| == 0 then []
    else
      assert votes == [votes[0]] + votes[1..];
      (if votes[0] + expiration > now then [votes[0]] else []) + ExpireVotes(votes[1..], expiration, now)
  }

  /** Expiring keeps the surviving votes in their order: it distributes over
      concatenation. */
  lemma {:induction false} ExpireConcat(a: seq<int>, b: seq<int>, expiration: int, now: int)
    ensures ExpireVotes(a + b, expiration, now) == ExpireVotes(a, expiration, now) + ExpireVotes(b, expiration, now)
    decreases |a|
  {
    if |a| == 0 {
      assert a + b == b;
    } else {
      assert (a + b)[0] == a[0] && (a + b)[1..] == a[1..] + b;
      ExpireConcat(a[1..], b, expiration, now);
    }
  }

  /** Every vote is live again `expiration` ticks later or sooner: expiring
      twice at the same time is expiring once. */
  lemma {:induction false} ExpireIdempotent(votes: seq<int>, expiration: int, now: int)
    ensures ExpireVotes(ExpireVotes(votes, expiration, now), expiration, now) == ExpireVotes(votes, expiration, now)
  {
    if |votes| > 0 {
      ExpireIdempotent(votes[1..], expiration, now);
      var rest := ExpireVotes(votes[1..], expiration, now);
      if votes[0] + expiration > now {
        var e := [votes[0]] + rest;
        assert ExpireVotes(votes, expiration, now) == e;
        assert e[0] == votes[0] && e[1..] == rest;
        assert ExpireVotes(e, expiration, now) == [votes[0]] + ExpireVotes(rest, expiration, now);
      } else {
        assert ExpireVotes(votes, expiration, now) == [] + rest == rest;
      }
    }
  }

  /** A ballot in which every vote carries the same time. */
  function Ballot(n: nat, now: int): (r: seq<int>)
    ensures |r| == n && forall i :: 0 <= i < n ==> r[i] == now
  {
    seq(n, _ => now)
  }

  /** The outcome of a vote: whether the road is elected, and the ballots. */
  datatype Vote = Vote(elected: bool, ballots: Ballots)

  /** `voteForRoad`. A first vote opens the ballot with `[now]` and never
      elects. Otherwise the live votes (judged against `VOTE_EXPIRATION`, not
      the `expiration` argument) are all re-stamped with `now` and one more
      vote is added; the road is elected when that count reaches the
      threshold, and the ballot is then deleted. Other addresses are never
      touched. */
  function VoteForRoad(ballots: Ballots, target: Pos, threshold: int, expiration: int, now: int): (r: Vote)
    ensures var a := Address(target);
      a !in ballots ==> !r.elected && r.ballots == ballots[a := [now]]
    ensures var a := Address(target);
      a in ballots ==> var n := |ExpireVotes(ballots[a], VoteExpiration, now)| + 1;
        && (r.elected <==> n >= threshold)
        && (r.elected ==> r.ballots == ballots - {a})
        && (!r.elected ==> r.ballots == ballots[a := Ballot(n, now)])
  {
    var a := Address(target);
    if a !in ballots then Vote(false, ballots[a := [now]])
    else
      var live := ExpireVotes(ballots[a], VoteExpiration, now);
      var votes := Ballot(|live|, now) + [now];
      assert votes == Ballot(|live| + 1, now);
      if |votes| >= threshold then Vote(true, ballots - {a})
      else Vote(false, ballots[a := votes])
  }

  /** The `expiration` argument of `voteForRoad` has no effect. */
  lemma VoteIgnoresExpiration(ballots: Ballots, target: Pos, threshold: int, e1: int, e2: int, now: int)
    ensures VoteForRoad(ballots, target, threshold, e1, now) == VoteForRoad(ballots, target, threshold, e2, now)
  {
  }

  /** Casting `|times|` votes for one tile, in order. */
  function VoteRun(ballots: Ballots, target: Pos, times: seq<int>): (r: (seq<bool>, Ballots))
    ensures |r.0| == |times|
    decreases |times|
  {
    if |times| == 0 then ([], ballots)
    else
      var v := VoteForRoad(ballots, target, ElectionThreshold, VoteExpiration, times[0]);
      var rest := VoteRun(v.ballots, target, times[1..]);
      ([v.elected] + rest.0, rest.1)
  }

  /** Votes no more than `VOTE_EXPIRATION - 1` ticks apart. */
  predicate Steady(times: seq<int>) {
    forall i :: 0 < i < |times| ==> times[i - 1] <= times[i] < times[i - 1] + VoteExpiration
  }

  /** Re-voting within the expiry window grows the ballot by one. */
  lemma VoteGrows(ballots: Ballots, target: Pos, k: nat, last: int, now: int)
    requires Address(target) in ballots && ballots[Address(target)] == Ballot(k, last)
    requires last <= now < last + VoteExpiration
    requires k + 1 < ElectionThreshold
    ensures VoteForRoad(ballots, target, ElectionThreshold, VoteExpiration, now)
      == Vote(false, ballots[Address(target) := Ballot(k + 1, now)])
  {
    var live := ExpireVotes(Ballot(k, last), VoteExpiration, now);
    assert forall i :: 0 <= i < k ==> Ballot(k, last)[i] in live;
    LiveBallot(k, last, now);
  }

  /** A ballot whose common time is still live survives expiry whole. */
  lemma {:induction false} LiveBallot(k: nat, last: int, now: int)
    requires now < last + VoteExpiration
    ensures ExpireVotes(Ballot(k, last), VoteExpiration, now) == Ballot(k, last)
    decreases k
  {
    if k > 0 {
      assert Ballot(k, last)[1..] == Ballot(k - 1, last);
      LiveBallot(k - 1, last, now);
      assert Ballot(k, last) == [last] + Ballot(k - 1, last);
    }
  }

  /** The election: starting from no ballot, five steady votes elect the road
      on the fifth and only on the fifth, and leave no ballot behind. */
  lemma FifthVoteElects(ballots: Ballots, target: Pos, times: seq<int>)
    requires Address(target) !in ballots
    requires |times| == 5 && Steady(times)
    ensures VoteRun(ballots, target, times) == ([false, false, false, false, true], ballots)
  {
    var a := Address(target);
    var b1 := ballots[a := [times[0]]];
    var b2 := b1[a := Ballot(2, times[1])];
    var b3 := b2[a := Ballot(3, times[2])];
    var b4 := b3[a := Ballot(4, times[3])];
    FiveVotes(ballots, target, times);
    assert times[5..] == [];
    assert times[4..][1..] == times[5..];
    RunCons(b4, target, times[4..], Vote(true, ballots), ([], ballots));
    assert times[3..][1..] == times[4..] && [true] == [true] + [];
    RunCons(b3, target, times[3..], Vote(false, b4), ([true], ballots));
    assert times[2..][1..] == times[3..] && [false, true] == [false] + [true];
    RunCons(b2, target, times[2..], Vote(false, b3), ([false, true], ballots));
    assert times[1..][1..] == times[2..] && [false, false, true] == [false] + [false, true];
    RunCons(b1, target, times[1..], Vote(false, b2), ([false, false, true], ballots));
    assert [false, false, false, true] == [false] + [false, false, true];
    RunCons(ballots, target, times, Vote(false, b1), ([false, false, false, true], ballots));
    assert [false, false, false, false, true] == [false] + [false, false, false, true];
  }

  /** The five single votes of a steady run: four growing ballots, then the
      election that deletes the ballot. */
  lemma FiveVotes(ballots: Ballots, target: Pos, times: seq<int>)
    requires Address(target) !in ballots
    requires |times| == 5 && Steady(times)
    ensures var a := Address(target);
      var b1 := ballots[a := [times[0]]];
      var b2 := b1[a := Ballot(2, times[1])];
      var b3 := b2[a := Ballot(3, times[2])];
      var b4 := b3[a := Ballot(4, times[3])];
      && VoteForRoad(ballots, target, ElectionThreshold, VoteExpiration, times[0]) == Vote(false, b1)
      && VoteForRoad(b1, target, ElectionThreshold, VoteExpiration, times[1]) == Vote(false, b2)
      && VoteForRoad(b2, target, ElectionThreshold, VoteExpiration, times[2]) == Vote(false, b3)
      && VoteForRoad(b3, target, ElectionThreshold, VoteExpiration, times[3]) == Vote(false, b4)
      && VoteForRoad(b4, target, ElectionThreshold, VoteExpiration, times[4]) == Vote(true, ballots)
  {
    var a := Address(target);
    var b1 := ballots[a := [times[0]]];
    var b2 := b1[a := Ballot(2, times[1])];
    var b3 := b2[a := Ballot(3, times[2])];
    var b4 := b3[a := Ballot(4, times[3])];
    assert [times[0]] == Ballot(1, times[0]);
    VoteGrows(b1, target, 1, times[0], times[1]);
    VoteGrows(b2, target, 2, times[1], times[2]);
    VoteGrows(b3, target, 3, times[2], times[3]);
    LiveBallot(4, times[3], times[4]);
    assert b4 - {a} == ballots;
  }

  /** One vote of a run: its outcome, then the rest of the run from the
      ballots it leaves. */
  lemma RunCons(ballots: Ballots, target: Pos, times: seq<int>, v: Vote, rest: (seq<bool>, Ballots))
    requires |times| > 0
    requires VoteForRoad(ballots, target, ElectionThreshold, VoteExpiration, times[0]) == v
    requires VoteRun(v.ballots, target, times[1..]) == rest
    ensures VoteRun(ballots, target, times) == ([v.elected] + rest.0, rest.1)
  {
  }

  lemma {:induction false} AllExpired(votes: seq<int>, expiration: int, now: int)
    requires forall t :: t in votes ==> t + expiration <= now
    ensures ExpireVotes(votes, expiration, now) == []
  {
    if |votes| > 0 {
      assert votes[0] in votes;
      assert forall t :: t in votes[1..] ==> t in votes;
      AllExpired(votes[1..], expiration, now);
    }
  }

  /** A gap of `VOTE_EXPIRATION` ticks or more voids every earlier vote: the
      next vote leaves a ballot of one, as if starting afresh. */
  lemma GapResetsBallot(ballots: Ballots, target: Pos, now: int)
    requires Address(target) in ballots
    requires forall t :: t in ballots[Address(target)] ==> t + VoteExpiration <= now
    ensures VoteForRoad(ballots, target, ElectionThreshold, VoteExpiration, now)
      == Vote(false, ballots[Address(target) := [now]])
  {
    AllExpired(ballots[Address(target)], VoteExpiration, now);
    assert Ballot(1, now) == [now];
  }

  /** `gc(force)`: on a forced run or on ticks divisible by 1000, expires
      every ballot and deletes those left empty. A ballot survives exactly
      when it holds a live vote. */
  function Gc(ballots: Ballots, force: bool, now: int): (r: Ballots)
    ensures !force && now % GcPeriod != 0 ==> r == ballots
    ensures force || now % GcPeriod == 0 ==>
      && (forall a :: a in r <==> a in ballots && exists t :: t in ballots[a] && t + VoteExpiration > now)
      && (forall a :: a in r ==> r[a] == ExpireVotes(ballots[a], VoteExpiration, now))
  {
    if force || now % GcPeriod == 0 then
      var r := map a | a in ballots && |ExpireVotes(ballots[a], VoteExpiration, now)| > 0
        :: ExpireVotes(ballots[a], VoteExpiration, now);
      assert forall a :: a in ballots ==>
        (|ExpireVotes(ballots[a], VoteExpiration, now)| > 0 <==>
          exists t :: t in ballots[a] && t + VoteExpiration > now) by {
        forall a | a in ballots
          ensures |ExpireVotes(ballots[a], VoteExpiration, now)| > 0 <==>
            exists t :: t in ballots[a] && t + VoteExpiration > now
        {
          var e := ExpireVotes(ballots[a], VoteExpiration, now);
          if |e| > 0 {
            assert e[0] in e;
          }
        }
      }
      r
    else ballots
  }

  /** Collecting twice in one tick removes nothing more. */
  lemma GcIdempotent(ballots: Ballots, force: bool, now: int)
    ensures Gc(Gc(ballots, force, now), force, now) == Gc(ballots, force, now)
  {
    var g := Gc(ballots, force, now);
    if force || now % GcPeriod == 0 {
      forall a | a in g
        ensures ExpireVotes(g[a], VoteExpiration, now) == g[a]
      {
        ExpireIdempotent(ballots[a], VoteExpiration, now);
      }
    }
  }

  // ---------------------------------------------------------------------
  // Deciding on a road

  /** What the road planner can see of a room: its controller level, if the
      room has a controller. A room missing from the map is not visible. */
  datatype RoomView = RoomView(controllerLevel: Option<int>)

  /** A road, or a construction site for one (of any owner). */
  predicate IsRoadObject(o: LookObject) {
    (o.StructureObj? || o.SiteObj?) && o.structureType == Road
  }

  /** The `find` of `haveRoad`: the first road object on the tile. */
  function FindRoad(objs: seq<LookObject>): (r: Option<LookObject>)
    ensures r.Some? ==> r.value in objs && IsRoadObject(r.value)
    ensures r.None? <==> forall o :: o in objs ==> !IsRoadObject(o)
    decreases |objs|
  {
    if |objs| == 0 then None
    else if IsRoadObject(objs[0]) then Some(objs[0])
    else
      var r := FindRoad(objs[1..]);
      assert forall o :: o in objs ==> o == objs[0] || o in objs[1..];
      r
  }

  /** `haveRoad`: the tile holds a road or a road construction site (of any
      owner). An unseen room has none. */
  predicate HaveRoad(rooms: map<string, RoomView>, lookAt: Pos -> seq<LookObject>, target: Pos): (b: bool)
    ensures b <==> target.roomName in rooms && exists o :: o in lookAt(target) && IsRoadObject(o)
  {
    target.roomName in rooms && FindRoad(lookAt(target)).Some?
  }

  /** `buildAt`: schedules a road task at the tile. It succeeds unless a
      task other than a road is already queued there; either way the tile
      ends up with a task, and no tile loses its task. */
  function BuildAt(mem: Queues, target: Pos): (r: (bool, Queues))
    ensures var found := CheckSchedule(mem, target);
      r.0 <==> found.None? || found.value.item.structure == Road
    ensures !r.0 ==> r.1 == mem
    ensures CheckSchedule(r.1, target).Some?
    ensures KeepsTiles(mem, r.1)
    ensures r.0 ==> NewTask(Road, target) in Stored(r.1, target.roomName)
  {
    var task := NewTask(Road, target);
    var r := Schedule(mem, task);
    assert r.0 ==> task in Stored(r.1, target.roomName) by {
      if r.0 {
        ScheduledIsStored(mem, task);
      }
    }
    assert CheckSchedule(r.1, target).Some? by {
      if r.0 {
        ScheduledIsStored(mem, task);
      }
    }
    assert KeepsTiles(mem, r.1) by {
      forall t: ConstructTask | t in Stored(mem, t.roomName())
        ensures CheckSchedule(r.1, t.pos).Some?
      {
        ScheduleKeepsTiles(mem, task, t);
      }
    }
    r
  }

  /** The state `shouldBuildAt` reads and writes. */
  datatype RoadState = RoadState(ballots: Ballots, queues: Queues)

  /** `shouldBuildAt`: in a visible room with a controller of level 2 or
      more, a tile without a road gets a vote; when the vote elects the road,
      the road is scheduled and the result is `schedule`'s. Every other case
      answers false, and only a vote changes anything. */
  function ShouldBuildAt(s: RoadState, rooms: map<string, RoomView>, lookAt: Pos -> seq<LookObject>,
                         target: Pos, now: int): (r: (bool, RoadState))
    ensures r.0 ==> CheckSchedule(r.1.queues, target).Some?
    ensures VoteForRoad(s.ballots, target, ElectionThreshold, VoteExpiration, now).elected
      && target.roomName in rooms && rooms[target.roomName].controllerLevel.Some?
      && rooms[target.roomName].controllerLevel.value >= 2 && !HaveRoad(rooms, lookAt, target)
      ==> CheckSchedule(r.1.queues, target).Some?
    ensures target.roomName !in rooms || rooms[target.roomName].controllerLevel.None?
      || rooms[target.roomName].controllerLevel.value < 2 || HaveRoad(rooms, lookAt, target)
      ==> r == (false, s)
    ensures r.1.queues != s.queues ==>
      VoteForRoad(s.ballots, target, ElectionThreshold, VoteExpiration, now).elected
    ensures target.roomName in rooms && rooms[target.roomName].controllerLevel.Some?
      && rooms[target.roomName].controllerLevel.value >= 2 && !HaveRoad(rooms, lookAt, target)
      ==> r.1.ballots == VoteForRoad(s.ballots, target, ElectionThreshold, VoteExpiration, now).ballots
    ensures target.roomName in rooms && rooms[target.roomName].controllerLevel.Some?
      && rooms[target.roomName].controllerLevel.value >= 2 && !HaveRoad(rooms, lookAt, target)
      && !VoteForRoad(s.ballots, target, ElectionThreshold, VoteExpiration, now).elected
      ==> r == (false, s.(ballots := VoteForRoad(s.ballots, target, ElectionThreshold, VoteExpiration, now).ballots))
    ensures VoteForRoad(s.ballots, target, ElectionThreshold, VoteExpiration, now).elected
      && target.roomName in rooms && rooms[target.roomName].controllerLevel.Some?
      && rooms[target.roomName].controllerLevel.value >= 2 && !HaveRoad(rooms, lookAt, target)
      ==> r.0 == BuildAt(s.queues, target).0 && KeepsTiles(s.queues, r.1.queues)
    ensures r.0 ==> NewTask(Road, target) in Stored(r.1.queues, target.roomName)
  {
    if target.roomName !in rooms then (false, s)
    else match rooms[target.roomName].controllerLevel
      case None => (false, s)
      case Some(level) =>
        if level < 2 then (false, s)
        else if HaveRoad(rooms, lookAt, target) then (false, s)
        else
          var v := VoteForRoad(s.ballots, target, ElectionThreshold, VoteExpiration, now);
          if v.elected then
            var b := BuildAt(s.queues, target);
            (b.0, RoadState(v.ballots, b.1))
          else (false, RoadState(v.ballots, s.queues))
  }

  /** Five steady requests for a tile with no road, in a room of level 2 or
      more, elect it: after the fifth the tile has a scheduled task. */
  lemma ShouldBuildAtFifth(s: RoadState, rooms: map<string, RoomView>, lookAt: Pos -> seq<LookObject>,
                           target: Pos, now: int)
    requires target.roomName in rooms
    requires rooms[target.roomName].controllerLevel.Some? && rooms[target.roomName].controllerLevel.value >= 2
    requires !HaveRoad(rooms, lookAt, target)
    requires Address(target) in s.ballots && s.ballots[Address(target)] == Ballot(4, now)
    ensures CheckSchedule(ShouldBuildAt(s, rooms, lookAt, target, now).1.queues, target).Some?
    ensures var found := CheckSchedule(s.queues, target);
      found.None? || found.value.item.structure == Road ==>
        var r := ShouldBuildAt(s, rooms, lookAt, target, now);
        r.0 && NewTask(Road, target) in Stored(r.1.queues, target.roomName)
  {
    LiveBallot(4, now, now);
  }

  // ---------------------------------------------------------------------
  // The cost surface for path finding

  /** A `PathFinder.CostMatrix`: tiles set explicitly; the rest are 0, which
      the engine reads as "use the terrain cost". */
  type CostMatrix = map<(int, int), int>

  /** Applies `costs.set` for every item in order; an item whose cost is
      None leaves its tile alone. Later writes win. */
  function Paint<X>(m: CostMatrix, items: seq<X>, tile: X -> (int, int), cost: X -> Option<int>): (r: CostMatrix)
    ensures forall k :: k in m ==> k in r
    ensures forall x :: x in items && cost(x).Some? ==> tile(x) in r
    decreases |items|
  {
    if |items| == 0 then m
    else
      var x := items[0];
      var m' := if cost(x).Some? then m[tile(x) := cost(x).value] else m;
      assert forall y :: y in items ==> y == x || y in items[1..];
      Paint(m', items[1..], tile, cost)
  }

  /** The reference reading of a painted tile: the cost of the LAST item at
      that tile that has one, or what the tile held before. */
  function LastCost<X>(before: Option<int>, items: seq<X>, tile: X -> (int, int), cost: X -> Option<int>,
                       k: (int, int)): Option<int>
    decreases |items|
  {
    if |items| == 0 then before
    else
      var x := items[|items| - 1];
      if tile(x) == k && cost(x).Some? then cost(x)
      else LastCost(before, items[..|items| - 1], tile, cost, k)
  }

  function Get(m: CostMatrix, k: (int, int)): Option<int> {
    if k in m then Some(m[k]) else None
  }

  lemma {:induction false} LastCostFront<X>(before: Option<int>, x: X, items: seq<X>, tile: X -> (int, int),
                                             cost: X -> Option<int>, k: (int, int))
    ensures LastCost(before, [x] + items, tile, cost, k)
      == LastCost(if tile(x) == k && cost(x).Some? then cost(x) else before, items, tile, cost, k)
    decreases |items|
  {
    if |items| > 0 {
      var all := [x] + items;
      assert all[|all| - 1] == items[|items| - 1];
      assert all[..|all| - 1] == [x] + items[..|items| - 1];
      LastCostFront(before, x, items[..|items| - 1], tile, cost, k);
    } else {
      assert ([x] + items)[..0] == [];
    }
  }

  /** Painting agrees with the reference reading on every tile. */
  lemma {:induction false} PaintIsLastWrite<X>(m: CostMatrix, items: seq<X>, tile: X -> (int, int),
                                               cost: X -> Option<int>, k: (int, int))
    ensures Get(Paint(m, items, tile, cost), k) == LastCost(Get(m, k), items, tile, cost, k)
    decreases |items|
  {
    if |items| > 0 {
      var x := items[0];
      var m' := if cost(x).Some? then m[tile(x) := cost(x).value] else m;
      PaintIsLastWrite(m', items[1..], tile, cost, k);
      assert items == [x] + items[1..];
      LastCostFront(Get(m, k), x, items[1..], tile, cost, k);
    }
  }

  /** The cost a structure or a construction site gets: 1 for a road; 255
      (impassable) for anything else except containers and own ramparts,
      which keep their tile's cost. */
  function BuildingCost(b: Building): (c: Option<int>)
    ensures c == Some(1) <==> b.structureType == Road
    ensures c.None? <==> b.structureType == Container || (b.structureType == Rampart && b.my)
  {
    if b.structureType == Road then Some(1)
    else if b.structureType != Container && (b.structureType != Rampart || !b.my) then Some(0xff)
    else None
  }

  function BuildingTile(b: Building): (int, int) {
    (b.x, b.y)
  }

  /** A scheduled task's cost: 1 for a road, 255 for anything else. */
  function TaskCost(t: ConstructTask): (c: Option<int>)
    ensures c.Some? && (c.value == 1 <==> t.structure == Road)
  {
    Some(if t.structure == Road then 1 else 0xff)
  }

  function TaskTile(t: ConstructTask): (int, int) {
    (t.pos.x, t.pos.y)
  }

  /** The `roomCallback` of `connect` for a visible room: structures, then
      own construction sites, then the room's scheduled tasks. */
  function CostSurface(structures: seq<Building>, sites: seq<Building>, scheduled: seq<ConstructTask>): (r: CostMatrix)
    ensures forall t :: t in scheduled ==> TaskTile(t) in r
    ensures forall b :: (b in structures || b in sites) && BuildingCost(b).Some? ==> BuildingTile(b) in r
  {
    var m1 := Paint(map[], structures, BuildingTile, BuildingCost);
    var m2 := Paint(m1, sites, BuildingTile, BuildingCost);
    Paint(m2, scheduled, TaskTile, TaskCost)
  }

  /** Scheduled tasks take precedence over what is built: a tile with a
      scheduled task costs 1 if the last such task is a road and 255
      otherwise, whatever stands or is being built there. */
  lemma ScheduledOverrides(structures: seq<Building>, sites: seq<Building>, scheduled: seq<ConstructTask>, i: nat)
    requires i < |scheduled|
    requires forall j :: i < j < |scheduled| ==> TaskTile(scheduled[j]) != TaskTile(scheduled[i])
    ensures var k := TaskTile(scheduled[i]);
      k in CostSurface(structures, sites, scheduled)
      && CostSurface(structures, sites, scheduled)[k] == (if scheduled[i].structure == Road then 1 else 0xff)
  {
    var k := TaskTile(scheduled[i]);
    var m1 := Paint(map[], structures, BuildingTile, BuildingCost);
    var m2 := Paint(m1, sites, BuildingTile, BuildingCost);
    PaintIsLastWrite(m2, scheduled, TaskTile, TaskCost, k);
    LastScheduled(Get(m2, k), scheduled, i);
  }

  lemma {:induction false} LastScheduled(before: Option<int>, scheduled: seq<ConstructTask>, i: nat)
    requires i < |scheduled|
    requires forall j :: i < j < |scheduled| ==> TaskTile(scheduled[j]) != TaskTile(scheduled[i])
    ensures LastCost(before, scheduled, TaskTile, TaskCost, TaskTile(scheduled[i])) == TaskCost(scheduled[i])
    decreases |scheduled|
  {
    if i < |scheduled| - 1 {
      LastScheduled(before, scheduled[..|scheduled| - 1], i);
    }
  }

  /** A tile nobody built on or scheduled stays unset: its cost comes from
      the terrain. */
  lemma UntouchedTileUnset(structures: seq<Building>, sites: seq<Building>, scheduled: seq<ConstructTask>, k: (int, int))
    requires forall b :: b in structures ==> BuildingTile(b) != k
    requires forall b :: b in sites ==> BuildingTile(b) != k
    requires forall t :: t in scheduled ==> TaskTile(t) != k
    ensures k !in CostSurface(structures, sites, scheduled)
  {
    var m1 := Paint(map[], structures, BuildingTile, BuildingCost);
    var m2 := Paint(m1, sites, BuildingTile, BuildingCost);
    PaintIsLastWrite(map[], structures, BuildingTile, BuildingCost, k);
    NoWriteAt(None, structures, BuildingTile, BuildingCost, k);
    PaintIsLastWrite(m1, sites, BuildingTile, BuildingCost, k);
    NoWriteAt(None, sites, BuildingTile, BuildingCost, k);
    PaintIsLastWrite(m2, scheduled, TaskTile, TaskCost, k);
    NoWriteAt(None, scheduled, TaskTile, TaskCost, k);
  }

  lemma {:induction false} NoWriteAt<X>(before: Option<int>, items: seq<X>, tile: X -> (int, int),
                                        cost: X -> Option<int>, k: (int, int))
    requires forall x :: x in items ==> tile(x) != k
    ensures LastCost(before, items, tile, cost, k) == before
    decreases |items|
  {
    if |items| > 0 {
      assert items[|items| - 1] in items;
      NoWriteAt(before, items[..|items| - 1], tile, cost, k);
    }
  }

  // ---------------------------------------------------------------------
  // Connecting positions with roads

  /** What `connect` reads of the world: the visible rooms, each tile's
      contents, each room's structures and own construction sites. */
  datatype World = World(
    rooms: map<string, RoomView>,
    lookAt: Pos -> seq<LookObject>,
    structures: string -> seq<Building>,
    mySites: string -> seq<Building>)

  /** The cost callback handed to the path finder: no matrix for a room that
      is not visible. */
  function RoomCosts(w: World, mem: Queues, roomName: string): (r: Option<CostMatrix>)
    ensures r.None? <==> roomName !in w.rooms
    ensures r.Some? ==> forall t :: t in GetScheduled(mem, roomName) ==> TaskTile(t) in r.value
  {
    if roomName !in w.rooms then None
    else Some(CostSurface(w.structures(roomName), w.mySites(roomName), GetScheduled(mem, roomName)))
  }

  /** The path finder: from a start to a goal (within range 1), given the
      cost callback. */
  type PathFinder = (Pos, Pos, string -> Option<CostMatrix>) -> seq<Pos>

  /** The `forEach` over one path: every tile without a road is passed to
      `buildAt`, whose answer is ignored. */
  function BuildPath(w: World, mem: Queues, path: seq<Pos>): (r: Queues)
    ensures KeepsTiles(mem, r)
    ensures forall p :: p in path ==> HaveRoad(w.rooms, w.lookAt, p) || CheckSchedule(r, p).Some?
    decreases |path|
  {
    if |path| == 0 then mem
    else
      var p := path[0];
      var m := if HaveRoad(w.rooms, w.lookAt, p) then mem else BuildAt(mem, p).1;
      assert !HaveRoad(w.rooms, w.lookAt, p) ==> CheckSchedule(m, p).Some? by {
        if !HaveRoad(w.rooms, w.lookAt, p) {
          var task := NewTask(Road, p);
          if Schedule(mem, task).0 {
            ScheduledIsStored(mem, task);
          } else {
            var found := CheckSchedule(mem, task.pos);
            ScheduleKeepsTiles(mem, task, found.value.item);
          }
        }
      }
      var r := BuildPath(w, m, path[1..]);
      assert !HaveRoad(w.rooms, w.lookAt, p) ==> CheckSchedule(r, p).Some? by {
        if !HaveRoad(w.rooms, w.lookAt, p) {
          var found := CheckSchedule(m, p);
          assert found.value.item in Stored(m, found.value.item.roomName());
        }
      }
      r
  }

  /** `connect(target, destinations)`: for each destination in turn, asks
      the path finder for a path from `target` with the current costs and
      builds along it. Nothing happens without destinations. */
  function Connect(w: World, mem: Queues, target: Pos, destinations: seq<Pos>, search: PathFinder): (r: Queues)
    ensures |destinations| == 0 ==> r == mem
    ensures KeepsTiles(mem, r)
    decreases |destinations|
  {
    if |destinations| == 0 then mem
    else
      var path := search(target, destinations[0], roomName => RoomCosts(w, mem, roomName));
      var m := BuildPath(w, mem, path);
      var r := Connect(w, m, target, destinations[1..], search);
      assert KeepsTiles(mem, r) by {
        forall t: ConstructTask | t in Stored(mem, t.roomName())
          ensures CheckSchedule(r, t.pos).Some?
        {
          var found := CheckSchedule(m, t.pos);
          assert found.value.item in Stored(m, found.value.item.roomName());
          assert found.value.item.pos == t.pos;
        }
      }
      r
  }
}

=== FILE: room_grid.dfy ===
/** Coordinate helpers of the `RoomBuilding` class in
    src/constructor/RoomBuilder.ts: clamping to the buildable part of a room,
    validity, edge tests, the checkerboard test and the `getCoordsWithinRange`
    generator, which walks square rings around an origin.

    A coordinate pair is `(first, second)`; the generator is symmetric in the
    two, and its callers use it both as `(x, y)` and as `(row, column)`. */
module RoomGrid {

  type Coord = (int, int)

  function Abs(n: int): nat {
    if n < 0 then -n else n
  }

  /** Chebyshev distance: the ring a coordinate lies on around another. */
  function Dist(a: Coord, b: Coord): nat {
    var d0 := Abs(a.0 - b.0);
    var d1 := Abs(a.1 - b.1);
    if d0 < d1 then d1 else d0
  }

  /** `boundCoords`: clamps to the range 2..47. */
  function BoundCoords(n: int): (r: int)
    ensures 2 <= r <= 47
    ensures n < 2 ==> r == 2
    ensures n > 47 ==> r == 47
    ensures 2 <= n <= 47 ==> r == n
  {
    if n < 2 then 2 else if n > 47 then 47 else n
  }

  /** `isCoordValid`: the coordinate is its own clamp, that is, 2..47. */
  function IsCoordValid(n: int): (b: bool)
    ensures b <==> 2 <= n <= 47
  {
    n == BoundCoords(n)
  }

  function IsPosValid(c: Coord): (b: bool)
    ensures b <==> 2 <= c.0 <= 47 && 2 <= c.1 <= 47
  {
    IsCoordValid(c.0) && IsCoordValid(c.1)
  }

  /** `isEdge(i, j, pos, range)`: row `i` or column `j` lies exactly `range`
      away from the position, so the cell is on the border of the square. */
  function IsEdge(i: int, j: int, px: int, py: int, range: int): (b: bool)
    ensures Dist((i, j), (py, px)) == range ==> b
    ensures b ==> Dist((i, j), (py, px)) >= range
  {
    Abs(j - px) == range || Abs(i - py) == range
  }

  /** `isCloseToRoomEdge`: within three tiles of the room's border, that is,
      some neighbour of the tile lies outside the valid 2..47 square. */
  function IsCloseToRoomEdge(i: int, j: int): (b: bool)
    ensures !b ==> IsPosValid((i, j))
    ensures b <==> !(IsPosValid((i - 1, j - 1)) && IsPosValid((i + 1, j + 1)))
  {
    i < 3 || j < 3 || i > 46 || j > 46
  }

  /** JavaScript's `%`: the remainder takes the sign of the dividend. */
  function JsRem(a: int, b: int): int
    requires b > 0
  {
    if a >= 0 then a % b else -((-a) % b)
  }

  /** `isCheckered`: the two coordinate sums have the same remainder. On
      the room's grid (no negative coordinates) this holds exactly at an even
      number of orthogonal steps from the origin: diagonal neighbours pass,
      orthogonal ones do not. */
  function IsCheckered(c: Coord, origin: Coord): (b: bool)
    ensures c.0 >= 0 && c.1 >= 0 && origin.0 >= 0 && origin.1 >= 0 ==>
      (b <==> (c.0 - origin.0 + c.1 - origin.1) % 2 == 0)
  {
    JsRem(c.0 + origin.0, 2) == JsRem(c.1 + origin.1, 2)
  }

  /** With a negative sum the JavaScript remainder breaks the checkerboard:
      -1 and 1 are both odd but their remainders differ. */
  lemma CheckeredNegativeQuirk()
    ensures !IsCheckered((-1, 1), (0, 0))
  {
  }

  // ---------------------------------------------------------------------
  // The ring generator

  /** The first half of ring `d`: for each first coordinate from `a` to `hi`,
      the cells at `origin.1 - d` and then `origin.1 + d`, each only when
      valid. */
  function RowPart(origin: Coord, d: int, a: int, hi: int): seq<Coord>
    decreases hi - a + 1
  {
    if a > hi then []
    else
      (if IsPosValid((a, origin.1 - d)) then [(a, origin.1 - d)] else [])
      + (if IsPosValid((a, origin.1 + d)) then [(a, origin.1 + d)] else [])
      + RowPart(origin, d, a + 1, hi)
  }

  /** The second half of ring `d`: for each second coordinate from `b` to
      `hi`, the cells at `origin.0 - d` and then `origin.0 + d`. */
  function ColPart(origin: Coord, d: int, b: int, hi: int): seq<Coord>
    decreases hi - b + 1
  {
    if b > hi then []
    else
      (if IsPosValid((origin.0 - d, b)) then [(origin.0 - d, b)] else [])
      + (if IsPosValid((origin.0 + d, b)) then [(origin.0 + d, b)] else [])
      + ColPart(origin, d, b + 1, hi)
  }

  /** One pass of the generator's `while` loop: the two sides at distance
      `d` along the second coordinate (corners excluded), then the two sides
      at distance `d` along the first. */
  function Ring(origin: Coord, d: int): seq<Coord>
  {
    RowPart(origin, d, origin.0 - (d - 1), origin.0 + (d - 1))
    + ColPart(origin, d, origin.1 - d, origin.1 + d)
  }

  function Rings(origin: Coord, d: int, range: int): (s: seq<Coord>)
    ensures d >= 1 ==> forall i :: 0 <= i < |s| ==> IsPosValid(s[i]) && d <= Dist(s[i], origin) <= range
    decreases range - d + 1
  {
    if d > range then []
    else
      var ring := Ring(origin, d);
      assert d >= 1 ==> forall i :: 0 <= i < |ring| ==> IsPosValid(ring[i]) && Dist(ring[i], origin) == d by {
        if d >= 1 {
          forall i | 0 <= i < |ring|
            ensures IsPosValid(ring[i]) && Dist(ring[i], origin) == d
          {
            RingMembers(origin, d, ring[i]);
          }
        }
      }
      ring + Rings(origin, d + 1, range)
  }

  /** `getCoordsWithinRange(origin, range)`: the origin, unchecked, then the
      valid cells of rings 1 to `range`. */
  function CoordsWithinRange(origin: Coord, range: int): (s: seq<Coord>)
    ensures |s| > 0 && s[0] == origin
    ensures forall i :: 1 <= i < |s| ==> IsPosValid(s[i]) && 1 <= Dist(s[i], origin) <= range
  {
    [origin] + Rings(origin, 1, range)
  }

  lemma {:induction false} RowPartMembers(origin: Coord, d: int, a: int, hi: int, c: Coord)
    ensures c in RowPart(origin, d, a, hi) <==>
      IsPosValid(c) && a <= c.0 <= hi && (c.1 == origin.1 - d || c.1 == origin.1 + d)
    decreases hi - a + 1
  {
    if a <= hi {
      RowPartMembers(origin, d, a + 1, hi, c);
    }
  }

  lemma {:induction false} ColPartMembers(origin: Coord, d: int, b: int, hi: int, c: Coord)
    ensures c in ColPart(origin, d, b, hi) <==>
      IsPosValid(c) && b <= c.1 <= hi && (c.0 == origin.0 - d || c.0 == origin.0 + d)
    decreases hi - b + 1
  {
    if b <= hi {
      ColPartMembers(origin, d, b + 1, hi, c);
    }
  }

  /** Ring `d` holds exactly the valid cells at distance `d`. */
  lemma RingMembers(origin: Coord, d: int, c: Coord)
    requires d >= 1
    ensures c in Ring(origin, d) <==> IsPosValid(c) && Dist(c, origin) == d
  {
    RowPartMembers(origin, d, origin.0 - (d - 1), origin.0 + (d - 1), c);
    ColPartMembers(origin, d, origin.1 - d, origin.1 + d, c);
    DistIsRing(origin, d, c);
  }

  /** The cells at distance `d` are those on its two rows strictly inside
      its columns, and those on its two columns. */
  lemma DistIsRing(origin: Coord, d: int, c: Coord)
    requires d >= 1
    ensures Dist(c, origin) == d <==>
      || (origin.0 - (d - 1) <= c.0 <= origin.0 + (d - 1) && (c.1 == origin.1 - d || c.1 == origin.1 + d))
      || (origin.1 - d <= c.1 <= origin.1 + d && (c.0 == origin.0 - d || c.0 == origin.0 + d))
  {
  }

  lemma {:induction false} RingsMembers(origin: Coord, d: int, range: int, c: Coord)
    requires d >= 1
    ensures c in Rings(origin, d, range) <==> IsPosValid(c) && d <= Dist(c, origin) <= range
    decreases range - d + 1
  {
    if d <= range {
      var inner := Ring(origin, d);
      var outer := Rings(origin, d + 1, range);
      assert Rings(origin, d, range) == inner + outer;
      assert c in inner + outer <==> c in inner || c in outer;
      RingMembers(origin, d, c);
      RingsMembers(origin, d + 1, range, c);
    }
  }

  /** The generator yields the origin and exactly the valid cells within
      `range` of it; with `range` below 1, only the origin. */
  lemma CoordsMembers(origin: Coord, range: int, c: Coord)
    ensures c in CoordsWithinRange(origin, range) <==>
      c == origin || (IsPosValid(c) && 1 <= Dist(c, origin) <= range)
  {
    RingsMembers(origin, 1, range, c);
  }

  /** The generator never goes back inward: distances from the origin never
      decrease along the sequence, so nearer cells come first. */
  lemma CoordsOutward(origin: Coord, range: int)
    ensures Outward(CoordsWithinRange(origin, range), origin, 0)
  {
    RingsOutward(origin, 1, range);
    var s := CoordsWithinRange(origin, range);
    var rest := Rings(origin, 1, range);
    forall i, j | 0 <= i < j < |s|
      ensures Dist(s[i], origin) <= Dist(s[j], origin)
    {
      if i > 0 {
        assert s[i] == rest[i - 1];
      }
      assert s[j] == rest[j - 1];
    }
  }

  /** Distances from `origin` never decrease along `s`, and start at `d`. */
  predicate Outward(s: seq<Coord>, origin: Coord, d: int) {
    && (forall i :: 0 <= i < |s| ==> Dist(s[i], origin) >= d)
    && (forall i, j :: 0 <= i < j < |s| ==> Dist(s[i], origin) <= Dist(s[j], origin))
  }

  lemma {:induction false} RingsOutward(origin: Coord, d: int, range: int)
    requires d >= 1
    ensures Outward(Rings(origin, d, range), origin, d)
    decreases range - d + 1
  {
    if d <= range {
      var ring := Ring(origin, d);
      var rest := Rings(origin, d + 1, range);
      RingsOutward(origin, d + 1, range);
      forall i | 0 <= i < |ring|
        ensures Dist(ring[i], origin) == d
      {
        RingMembers(origin, d, ring[i]);
      }
      assert Rings(origin, d, range) == ring + rest;
      OutwardConcat(ring, rest, origin, d);
    }
  }

  /** A ring at distance `d` followed by cells outward from `d + 1` is
      outward from `d`. */
  lemma OutwardConcat(ring: seq<Coord>, rest: seq<Coord>, origin: Coord, d: int)
    requires forall i :: 0 <= i < |ring| ==> Dist(ring[i], origin) == d
    requires Outward(rest, origin, d + 1)
    ensures Outward(ring + rest, origin, d)
  {
    var s := ring + rest;
    forall i | 0 <= i < |s|
      ensures Dist(s[i], origin) >= d
    {
      if i >= |ring| {
        assert s[i] == rest[i - |ring|];
      }
    }
    forall i, j | 0 <= i < j < |s|
      ensures Dist(s[i], origin) <= Dist(s[j], origin)
    {
      if i >= |ring| {
        assert s[i] == rest[i - |ring|] && s[j] == rest[j - |ring|];
      } else if j >= |ring| {
        assert s[i] == ring[i] && s[j] == rest[j - |ring|];
      } else {
        assert s[i] == ring[i] && s[j] == ring[j];
      }
    }
  }

  /** No duplicates. */
  predicate Distinct<T(==)>(s: seq<T>) {
    forall i, j :: 0 <= i < j < |s| ==> s[i] != s[j]
  }

  lemma DistinctConcat<T>(a: seq<T>, b: seq<T>)
    requires Distinct(a) && Distinct(b)
    requires forall x :: x in a ==> x !in b
    ensures Distinct(a + b)
  {
    var s := a + b;
    forall i, j | 0 <= i < j < |s|
      ensures s[i] != s[j]
    {
      if i < |a| && j >= |a| {
        assert s[i] in a && s[j] == b[j - |a|];
      } else if j < |a| {
        assert s[i] == a[i] && s[j] == a[j];
      } else {
        assert s[i] == b[i - |a|] && s[j] == b[j - |a|];
      }
    }
  }

  lemma {:induction false} RowPartDistinct(origin: Coord, d: int, a: int, hi: int)
    requires d >= 1
    ensures Distinct(RowPart(origin, d, a, hi))
    decreases hi - a + 1
  {
    if a <= hi {
      var head := (if IsPosValid((a, origin.1 - d)) then [(a, origin.1 - d)] else [])
        + (if IsPosValid((a, origin.1 + d)) then [(a, origin.1 + d)] else []);
      RowPartDistinct(origin, d, a + 1, hi);
      forall x | x in head
        ensures x !in RowPart(origin, d, a + 1, hi)
      {
        RowPartMembers(origin, d, a + 1, hi, x);
      }
      DistinctConcat(head, RowPart(origin, d, a + 1, hi));
    }
  }

  lemma {:induction false} ColPartDistinct(origin: Coord, d: int, b: int, hi: int)
    requires d >= 1
    ensures Distinct(ColPart(origin, d, b, hi))
    decreases hi - b + 1
  {
    if b <= hi {
      var head := (if IsPosValid((origin.0 - d, b)) then [(origin.0 - d, b)] else [])
        + (if IsPosValid((origin.0 + d, b)) then [(origin.0 + d, b)] else []);
      ColPartDistinct(origin, d, b + 1, hi);
      forall x | x in head
        ensures x !in ColPart(origin, d, b + 1, hi)
      {
        ColPartMembers(origin, d, b + 1, hi, x);
      }
      DistinctConcat(head, ColPart(origin, d, b + 1, hi));
    }
  }

  /** Every row cell lies strictly inside the ring's columns. */
  lemma {:induction false} RowPartInside(origin: Coord, d: int, a: int, hi: int, c: Coord)
    requires c in RowPart(origin, d, a, hi)
    ensures a <= c.0 <= hi
    decreases hi - a + 1
  {
    if c !in (if IsPosValid((a, origin.1 - d)) then [(a, origin.1 - d)] else [])
        + (if IsPosValid((a, origin.1 + d)) then [(a, origin.1 + d)] else []) {
      RowPartInside(origin, d, a + 1, hi, c);
    }
  }

  /** Every column cell lies on one of the ring's two columns. */
  lemma {:induction false} ColPartOnColumns(origin: Coord, d: int, b: int, hi: int, c: Coord)
    requires c in ColPart(origin, d, b, hi)
    ensures c.0 == origin.0 - d || c.0 == origin.0 + d
    decreases hi - b + 1
  {
    if c !in (if IsPosValid((origin.0 - d, b)) then [(origin.0 - d, b)] else [])
        + (if IsPosValid((origin.0 + d, b)) then [(origin.0 + d, b)] else []) {
      ColPartOnColumns(origin, d, b + 1, hi, c);
    }
  }

  /** The two halves of a ring share no cell: row cells sit on the ring's
      rows strictly inside its columns, column cells on its columns. */
  lemma RowsMissCols(origin: Coord, d: int, x: Coord)
    requires d >= 1
    requires x in RowPart(origin, d, origin.0 - (d - 1), origin.0 + (d - 1))
    ensures x !in ColPart(origin, d, origin.1 - d, origin.1 + d)
  {
    RowPartInside(origin, d, origin.0 - (d - 1), origin.0 + (d - 1), x);
    if x in ColPart(origin, d, origin.1 - d, origin.1 + d) {
      ColPartOnColumns(origin, d, origin.1 - d, origin.1 + d, x);
    }
  }

  lemma RowsMissAllCols(origin: Coord, d: int, rows: seq<Coord>, cols: seq<Coord>)
    requires d >= 1
    requires rows == RowPart(origin, d, origin.0 - (d - 1), origin.0 + (d - 1))
    requires cols == ColPart(origin, d, origin.1 - d, origin.1 + d)
    ensures forall x :: x in rows ==> x !in cols
  {
    forall x | x in rows
      ensures x !in cols
    {
      RowsMissCols(origin, d, x);
    }
  }

  lemma RingDistinct(origin: Coord, d: int)
    requires d >= 1
    ensures Distinct(Ring(origin, d))
  {
    var rows := RowPart(origin, d, origin.0 - (d - 1), origin.0 + (d - 1));
    var cols := ColPart(origin, d, origin.1 - d, origin.1 + d);
    RowPartDistinct(origin, d, origin.0 - (d - 1), origin.0 + (d - 1));
    ColPartDistinct(origin, d, origin.1 - d, origin.1 + d);
    RowsMissAllCols(origin, d, rows, cols);
    DistinctConcat(rows, cols);
  }

  /** A ring shares no cell with the rings outside it. */
  lemma RingMissesOuter(origin: Coord, d: int, range: int, x: Coord)
    requires d >= 1 && x in Ring(origin, d)
    ensures x !in Rings(origin, d + 1, range)
  {
    RingMembers(origin, d, x);
    RingsMembers(origin, d + 1, range, x);
  }

  lemma {:induction false} RingsDistinct(origin: Coord, d: int, range: int)
    requires d >= 1
    ensures Distinct(Rings(origin, d, range))
    decreases range - d + 1
  {
    if d <= range {
      RingDistinct(origin, d);
      RingsDistinct(origin, d + 1, range);
      forall x | x in Ring(origin, d)
        ensures x !in Rings(origin, d + 1, range)
      {
        RingMissesOuter(origin, d, range, x);
      }
      DistinctConcat(Ring(origin, d), Rings(origin, d + 1, range));
    }
  }

  /** The generator yields every cell at most once. */
  lemma CoordsDistinct(origin: Coord, range: int)
    ensures Distinct(CoordsWithinRange(origin, range))
  {
    RingsDistinct(origin, 1, range);
    forall x | x in [origin]
      ensures x !in Rings(origin, 1, range)
    {
      RingsMembers(origin, 1, range, x);
    }
    DistinctConcat([origin], Rings(origin, 1, range));
  }
}

=== FILE: sorted_queue.dfy ===
/** The array-backed "sorted" priority queue of src/utils/Queue.ts. The older
    copy in src/tasks/Queue.ts (`sortedPriorityQueue` taking `(item, priority)`)
    runs the same insertion loop, `peek` and `pop`, so both are modelled here.

    The queue is a sequence of `[priority, item]` pairs. Its insertion loop
    never compares the new priority against the last stored pair, and `pop`
    takes the LAST pair: both are modelled as written. */
module SortedQueue {
  import opened Wrappers

  /** One stored pair `[priority, item]`; the priority is copied at insertion. */
  datatype Entry<T> = Entry(priority: int, item: T)

  type Queue<T> = seq<Entry<T>>

  /** The result of `find`: the matching item and its position. */
  datatype Found<T> = Found(item: T, idx: int)

  /** Entries are in non-decreasing priority order. */
  predicate Sorted<T>(q: Queue<T>) {
    forall i, j :: 0 <= i < j < |q| ==> q[i].priority <= q[j].priority
  }

  /** Items are in non-decreasing order of `prio`. */
  predicate SortedBy<T>(items: seq<T>, prio: T -> int) {
    forall i, j :: 0 <= i < j < |items| ==> prio(items[i]) <= prio(items[j])
  }

  /** The stored items, in queue order. */
  function Items<T>(q: Queue<T>): (r: seq<T>)
    ensures |r| == |q|
    ensures forall i :: 0 <= i < |q| ==> r[i] == q[i].item
  {
    seq(|q|, i requires 0 <= i < |q| => q[i].item)
  }

  /** The pairs that loading `items` would store if no reordering happened. */
  function Entries<T>(items: seq<T>, prio: T -> int): (r: Queue<T>)
    ensures |r| == |items|
    ensures forall i :: 0 <= i < |items| ==> r[i] == Entry(prio(items[i]), items[i])
  {
    seq(|items|, i requires 0 <= i < |items| => Entry(prio(items[i]), items[i]))
  }

  lemma ItemsConcat<T>(a: Queue<T>, b: Queue<T>)
    ensures Items(a + b) == Items(a) + Items(b)
  {
  }

  /** The position `insert` splices a new pair of priority `p` into, scanning
      from `index`: the first position before the last one whose priority is
      strictly greater than `p`, or the end of the queue. */
  function InsertPos<T>(q: Queue<T>, p: int, index: nat): (k: nat)
    requires index <= |q|
    ensures index <= k <= |q|
    ensures k == |q| || (k < |q| - 1 && q[k].priority > p)
    ensures forall j :: index <= j < k && j < |q| - 1 ==> q[j].priority <= p
    decreases |q| - index
  {
    if index + 1 >= |q| then |q|
    else if q[index].priority > p then index
    else InsertPos(q, p, index + 1)
  }

  /** `insert`: the new pair lands at `InsertPos`, everything else keeps its
      relative order. */
  function Insert<T>(q: Queue<T>, priority: int, item: T): (r: Queue<T>)
    ensures |r| == |q| + 1
    ensures var k := InsertPos(q, priority, 0);
      r[k] == Entry(priority, item) && r[..k] == q[..k] && r[k + 1..] == q[k..]
    ensures multiset(r) == multiset(q) + multiset{Entry(priority, item)}
  {
    var k := InsertPos(q, priority, 0);
    assert q == q[..k] + q[k..];
    q[..k] + [Entry(priority, item)] + q[k..]
  }

  lemma ItemsInsert<T>(q: Queue<T>, priority: int, item: T)
    ensures multiset(Items(Insert(q, priority, item))) == multiset(Items(q)) + multiset{item}
  {
    var k := InsertPos(q, priority, 0);
    var front, back, e := q[..k], q[k..], Entry(priority, item);
    var r := Insert(q, priority, item);
    assert r == front + [e] + back;
    assert q == front + back;
    assert Items([e]) == [item];
    calc {
      multiset(Items(r));
    == { ItemsConcat(front + [e], back); ItemsConcat(front, [e]); }
      multiset(Items(front) + [item] + Items(back));
    ==
      multiset(Items(front) + Items(back)) + multiset{item};
    == { ItemsConcat(front, back); }
      multiset(Items(q)) + multiset{item};
    }
  }

  /** Removing the freshly inserted pair gives back the old queue: insertion
      disturbs nothing else. */
  lemma InsertThenRemove<T>(q: Queue<T>, priority: int, item: T)
    ensures Remove(Insert(q, priority, item), InsertPos(q, priority, 0)) == (true, q)
  {
    var k := InsertPos(q, priority, 0);
    var r := Insert(q, priority, item);
    assert r[..k] + r[k + 1..] == q;
  }

  /** When no pair before the last has a greater priority, `insert` appends. */
  lemma InsertAppends<T>(q: Queue<T>, priority: int, item: T)
    requires forall j :: 0 <= j < |q| - 1 ==> q[j].priority <= priority
    ensures Insert(q, priority, item) == q + [Entry(priority, item)]
  {
    var k := InsertPos(q, priority, 0);
    assert k == |q|;
    assert q[..k] == q;
  }

  /** Where each pair of the old queue ends up after `insert`. */
  lemma InsertAt<T>(q: Queue<T>, priority: int, item: T, i: nat)
    requires i <= |q|
    ensures var k := InsertPos(q, priority, 0);
      Insert(q, priority, item)[i] ==
        if i < k then q[i] else if i == k then Entry(priority, item) else q[i - 1]
  {
    var k := InsertPos(q, priority, 0);
    var r := Insert(q, priority, item);
    if i < k {
      assert r[..k][i] == q[..k][i];
    } else if i > k {
      assert r[k + 1..][i - k - 1] == q[k..][i - k - 1];
    }
  }

  /** Inserting a pair not below any stored pair at the end keeps a sorted
      queue sorted. */
  lemma AppendKeepsSorted<T>(q: Queue<T>, priority: int, item: T)
    requires Sorted(q) && InsertPos(q, priority, 0) == |q|
    requires forall j :: 0 <= j < |q| ==> q[j].priority <= priority
    ensures Sorted(Insert(q, priority, item))
  {
    var r := Insert(q, priority, item);
    forall i, j | 0 <= i < j < |r|
      ensures r[i].priority <= r[j].priority
    {
      InsertAt(q, priority, item, i);
      InsertAt(q, priority, item, j);
    }
  }

  /** Inserting before the first greater pair keeps a sorted queue sorted. */
  lemma SpliceKeepsSorted<T>(q: Queue<T>, priority: int, item: T)
    requires Sorted(q)
    requires var k := InsertPos(q, priority, 0);
      k < |q| && q[k].priority > priority
    ensures Sorted(Insert(q, priority, item))
  {
    var k := InsertPos(q, priority, 0);
    var r := Insert(q, priority, item);
    forall i, j | 0 <= i < j < |r|
      ensures r[i].priority <= r[j].priority
    {
      InsertAt(q, priority, item, i);
      InsertAt(q, priority, item, j);
    }
  }

  /** On a sorted queue, `insert` keeps the queue sorted exactly when the new
      priority is not below the last pair's, or some pair before the last one
      exceeds it. Otherwise the pair is appended out of order, because the loop
      never looks at the last pair. */
  lemma {:induction false} InsertKeepsSorted<T>(q: Queue<T>, priority: int, item: T)
    requires Sorted(q)
    ensures Sorted(Insert(q, priority, item)) <==>
      (|q| == 0 || q[|q| - 1].priority <= priority || (|q| >= 2 && q[|q| - 2].priority > priority))
  {
    var k := InsertPos(q, priority, 0);
    if |q| == 0 {
      AppendKeepsSorted(q, priority, item);
    } else if k == |q| {
      if q[|q| - 1].priority <= priority {
        AppendKeepsSorted(q, priority, item);
      } else {
        InsertAt(q, priority, item, |q| - 1);
        InsertAt(q, priority, item, |q|);
      }
      assert |q| >= 2 ==> q[|q| - 2].priority <= priority;
    } else {
      assert q[|q| - 2].priority >= q[k].priority;
      SpliceKeepsSorted(q, priority, item);
    }
  }

  /** Equal priorities keep insertion order: in a sorted queue the new pair
      goes after every stored pair of the same priority. */
  lemma InsertAfterEqual<T>(q: Queue<T>, priority: int, item: T, j: int)
    requires Sorted(q)
    requires 0 <= j < |q| && q[j].priority == priority
    ensures j < InsertPos(q, priority, 0)
  {
    var k := InsertPos(q, priority, 0);
    assert k < |q| ==> q[k].priority > q[j].priority;
  }

  /** The last pair is never compared: a smaller priority inserted into a
      one-element queue is appended after it, and the queue is left unsorted. */
  lemma InsertNeverComparesLast<T>(a: T, b: T)
    ensures Insert([Entry(5, a)], 1, b) == [Entry(5, a), Entry(1, b)]
    ensures !Sorted(Insert([Entry(5, a)], 1, b))
  {
    var r := Insert([Entry(5, a)], 1, b);
    assert r[0].priority > r[1].priority;
  }

  /** `load` over an accumulating queue: each item is inserted in list order. */
  function LoadInto<T>(q: Queue<T>, items: seq<T>, prio: T -> int): (r: Queue<T>)
    ensures |r| == |q| + |items|
    ensures multiset(Items(r)) == multiset(Items(q)) + multiset(items)
    decreases |items|
  {
    if |items| == 0 then q
    else
      ItemsInsert(q, prio(items[0]), items[0]);
      assert items == [items[0]] + items[1..];
      LoadInto(Insert(q, prio(items[0]), items[0]), items[1..], prio)
  }

  /** `load`: discards the old contents and inserts every item in order. The
      result holds exactly the given items, possibly reordered. */
  function Load<T>(items: seq<T>, prio: T -> int): (r: Queue<T>)
    ensures |r| == |items|
    ensures multiset(Items(r)) == multiset(items)
  {
    LoadInto([], items, prio)
  }

  lemma {:induction false} LoadIntoSorted<T>(q: Queue<T>, items: seq<T>, prio: T -> int)
    requires Sorted(q + Entries(items, prio))
    ensures LoadInto(q, items, prio) == q + Entries(items, prio)
    decreases |items|
  {
    if |items| > 0 {
      var e := Entry(prio(items[0]), items[0]);
      var all := q + Entries(items, prio);
      assert all[|q|] == e;
      forall j | 0 <= j < |q| - 1
        ensures q[j].priority <= e.priority
      {
        assert all[j] == q[j];
      }
      InsertAppends(q, e.priority, e.item);
      assert q + [e] + Entries(items[1..], prio) == all;
      LoadIntoSorted(q + [e], items[1..], prio);
    }
  }

  /** Loading a list already sorted by priority stores it unchanged, so
      reading it back with `filter(() => true)` is the identity. */
  lemma LoadSortedIdentity<T>(items: seq<T>, prio: T -> int)
    requires SortedBy(items, prio)
    ensures Load(items, prio) == Entries(items, prio)
    ensures Filter(Load(items, prio), _ => true) == items
  {
    assert [] + Entries(items, prio) == Entries(items, prio);
    LoadIntoSorted([], items, prio);
    FilterAll(Load(items, prio));
  }

  /** `filter`: the items satisfying `f`, in queue order. */
  function Filter<T>(q: Queue<T>, f: T -> bool): (r: seq<T>)
    ensures |r| <= |q|
    ensures forall x :: x in r ==> f(x)
    ensures forall i :: 0 <= i < |q| && f(q[i].item) ==> q[i].item in r
    ensures multiset(r) <= multiset(Items(q))
  {
    if |q| == 0 then []
    else
      assert Items(q) == [q[0].item] + Items(q[1..]);
      (if f(q[0].item) then [q[0].item] else []) + Filter(q[1..], f)
  }

  /** Filtering with an always-true predicate reads out every item in order:
      this is how the queue is persisted. */
  lemma {:induction false} FilterAll<T>(q: Queue<T>)
    ensures Filter(q, _ => true) == Items(q)
  {
    if |q| > 0 {
      FilterAll(q[1..]);
      assert Items(q) == [q[0].item] + Items(q[1..]);
    }
  }

  /** Filtering keeps queue order: it distributes over concatenation. */
  lemma {:induction false} FilterConcat<T>(a: Queue<T>, b: Queue<T>, f: T -> bool)
    ensures Filter(a + b, f) == Filter(a, f) + Filter(b, f)
  {
    if |a| > 0 {
      assert (a + b)[1..] == a[1..] + b;
      FilterConcat(a[1..], b, f);
    } else {
      assert a + b == b;
    }
  }

  function FindFrom<T>(q: Queue<T>, f: T -> bool, start: nat): (r: Option<Found<T>>)
    requires start <= |q|
    ensures r.Some? ==> start <= r.value.idx < |q| && q[r.value.idx].item == r.value.item && f(r.value.item)
    ensures r.Some? ==> forall j :: start <= j < r.value.idx ==> !f(q[j].item)
    ensures r.None? <==> forall j :: start <= j < |q| ==> !f(q[j].item)
    decreases |q| - start
  {
    if start == |q| then None
    else if f(q[start].item) then Some(Found(q[start].item, start))
    else FindFrom(q, f, start + 1)
  }

  /** `find`: the first item satisfying `f` together with its position;
      `undefined` exactly when no item matches. */
  function Find<T>(q: Queue<T>, f: T -> bool): (r: Option<Found<T>>)
    ensures r.Some? ==> 0 <= r.value.idx < |q| && q[r.value.idx].item == r.value.item && f(r.value.item)
    ensures r.Some? ==> forall j :: 0 <= j < r.value.idx ==> !f(q[j].item)
    ensures r.None? <==> forall j :: 0 <= j < |q| ==> !f(q[j].item)
  {
    FindFrom(q, f, 0)
  }

  /** `remove(idx)`: fails without change for an index outside the queue,
      otherwise deletes exactly that pair. */
  function Remove<T>(q: Queue<T>, idx: int): (r: (bool, Queue<T>))
    ensures r.0 <==> 0 <= idx < |q|
    ensures !r.0 ==> r.1 == q
    ensures r.0 ==> |r.1| == |q| - 1
    ensures r.0 ==> forall j :: 0 <= j < idx ==> r.1[j] == q[j]
    ensures r.0 ==> forall j :: idx <= j < |r.1| ==> r.1[j] == q[j + 1]
    ensures r.0 ==> multiset(r.1) + multiset{q[idx]} == multiset(q)
  {
    if idx < 0 || idx > |q| - 1 then (false, q)
    else
      assert q == q[..idx] + [q[idx]] + q[idx + 1..];
      (true, q[..idx] + q[idx + 1..])
  }

  /** Removing a pair removes exactly its item from the stored items. */
  lemma RemoveItems<T>(q: Queue<T>, idx: int)
    requires 0 <= idx < |q|
    ensures multiset(Items(Remove(q, idx).1)) + multiset{q[idx].item} == multiset(Items(q))
  {
    assert q == q[..idx] + [q[idx]] + q[idx + 1..];
    ItemsConcat(q[..idx] + [q[idx]], q[idx + 1..]);
    ItemsConcat(q[..idx], [q[idx]]);
    ItemsConcat(q[..idx], q[idx + 1..]);
  }

  /** Popping removes exactly the last item from the stored items. */
  lemma PopItems<T>(q: Queue<T>)
    requires |q| > 0
    ensures multiset(Items(Pop(q).1)) + multiset{q[|q| - 1].item} == multiset(Items(q))
  {
    ItemsConcat(q[..|q| - 1], [q[|q| - 1]]);
    assert q == q[..|q| - 1] + [q[|q| - 1]];
  }

  /** `peek`: the first item, without changing the queue. */
  function Peek<T>(q: Queue<T>): (r: Option<T>)
    ensures r.None? <==> |q| == 0
    ensures r.Some? ==> r.value == q[0].item
    ensures Sorted(q) && r.Some? ==> forall j :: 0 <= j < |q| ==> q[0].priority <= q[j].priority
  {
    if |q| == 0 then None else Some(q[0].item)
  }

  /** `pop`: removes and returns the LAST item. */
  function Pop<T>(q: Queue<T>): (r: (Option<T>, Queue<T>))
    ensures |q| == 0 ==> r == (None, q)
    ensures |q| > 0 ==> r.0 == Some(q[|q| - 1].item) && r.1 + [q[|q| - 1]] == q
    ensures Sorted(q) && |q| > 0 ==> forall j :: 0 <= j < |q| ==> q[j].priority <= q[|q| - 1].priority
  {
    if |q| == 0 then (None, q)
    else (Some(q[|q| - 1].item), q[..|q| - 1])
  }

  function Size<T>(q: Queue<T>): nat {
    |q|
  }

  /** `isEmpty` holds exactly when `peek` and `pop` have nothing to return. */
  function IsEmpty<T>(q: Queue<T>): (r: bool)
    ensures r <==> Size(q) == 0
    ensures r <==> Pop(q).0.None?
    ensures r <==> Peek(q).None?
  {
    |q| == 0
  }

  /** The `sortedPriorityQueue(data?)` factory: empty, or loaded from `data`. */
  function Make<T>(data: Option<seq<T>>, prio: T -> int): (r: Queue<T>)
    ensures data.None? ==> r == []
    ensures data.Some? ==> multiset(Items(r)) == multiset(data.value)
    ensures data.Some? && SortedBy(data.value, prio) ==> Items(r) == data.value
  {
    match data
    case None => []
    case Some(items) =>
      assert SortedBy(items, prio) ==> Items(Load(items, prio)) == items by {
        if SortedBy(items, prio) {
          LoadSortedIdentity(items, prio);
          FilterAll(Load(items, prio));
        }
      }
      Load(items, prio)
  }
}

=== FILE: structures.dfy ===
/** Structure kinds and the room contents the construction core reads from
    the game engine. Engine queries (`lookAt`, `lookAtArea`, `room.find`)
    are represented by these values, passed in by the caller. */
module Structures {

  /** The structure constants the construction core mentions. `Factory` is
      buildable but missing from the priority list; `Controller` and
      `KeeperLair` are never built by the bot but show up in room contents. */
  datatype StructureType =
    | Spawn | Storage | Tower | Extension | Container | Link | ConstructedWall
    | Extractor | Terminal | Lab | Rampart | Observer | Nuker | PowerSpawn | Road
    | Factory | Controller | KeeperLair

  datatype Terrain = Plain | Swamp | Wall

  /** One entry of a `lookAt`/`lookAtArea` result for a single tile. `my`
      records ownership, which only ramparts care about. */
  datatype LookObject =
    | TerrainObj(terrain: Terrain)
    | StructureObj(structureType: StructureType, my: bool)
    | SiteObj(structureType: StructureType, my: bool)
    | SourceObj
    | OtherObj

  /** A structure or construction site returned by `room.find`, with its tile. */
  datatype Building = Building(structureType: StructureType, my: bool, x: int, y: int)

  /** A room position. */
  datatype Pos = Pos(x: int, y: int, roomName: string)

  /** The `structurePriority` list: earlier means built first. */
  const StructurePriority: seq<StructureType> := [
    Spawn, Storage, Tower, Extension, Container, Link, ConstructedWall,
    Extractor, Terminal, Lab, Rampart, Observer, Nuker, PowerSpawn, Road
  ]

  /** JavaScript's `indexOf`: the first position of `x`, or -1. */
  function IndexOf<T(==)>(s: seq<T>, x: T): (r: int)
    ensures -1 <= r < |s|
    ensures r == -1 <==> x !in s
    ensures r >= 0 ==> s[r] == x && forall j :: 0 <= j < r ==> s[j] != x
  {
    if |s| == 0 then -1
    else if s[0] == x then 0
    else
      var r := IndexOf(s[1..], x);
      if r == -1 then -1 else r + 1
  }

  /** The default priority of a structure: its index in `structurePriority`,
      -1 for a type that is not listed. */
  function Priority(t: StructureType): (r: int)
    ensures -1 <= r < |StructurePriority|
    ensures r == -1 <==> t !in StructurePriority
    ensures r >= 0 ==> StructurePriority[r] == t
  {
    IndexOf(StructurePriority, t)
  }

  /** Spawn is built first. */
  lemma SpawnFirst()
    ensures Priority(Spawn) == 0
  {
    assert StructurePriority[0] == Spawn;
  }

  /** Road is built last: index 14, after every other listed type. */
  lemma RoadLast()
    ensures Priority(Road) == 14
    ensures forall t :: t != Road && t in StructurePriority ==> Priority(t) < 14
  {
    var s := StructurePriority;
    assert s[14] == Road;
    assert forall j :: 0 <= j < 14 ==> s[j] != Road;
  }

  /** The engine's other buildable type, the factory, is unlisted: -1. */
  lemma FactoryUnlisted()
    ensures Priority(Factory) == -1
  {
    var s := StructurePriority;
    assert forall j :: 0 <= j < |s| ==> s[j] != Factory;
  }
}

=== FILE: worker.dfy ===
/** The task list of a worker creep in src/tasks/Worker.ts. A creep's
    memory holds its role, the role's target, the task it is doing and the
    tasks queued after it; the operations rewrite that memory. The action
    handlers themselves drive the engine and are not modelled: `run` is
    modelled by the handler it dispatches to. */
module Worker {
  import opened Wrappers
  import opened WorkerTasks

  /** The part of `creep.memory` the task list uses. */
  datatype CreepMemory = CreepMemory(
    role: string,
    roleTarget: Option<string>,
    currentTask: WorkerTask,
    nextTasks: seq<WorkerTask>)

  /** The idle task `new WorkerTask(WorkerAction.idle)`. */
  function IdleTask(): (t: WorkerTask)
    ensures t.action == Idle && t.targetId.None? && t.priority == DefaultPriority
  {
    NewWorkerTask(Idle, None, None)
  }

  /** `queueTask`: the task goes to the back of the queue. */
  function QueueTask(m: CreepMemory, t: WorkerTask): (r: CreepMemory)
    ensures r.currentTask == m.currentTask && r.role == m.role && r.roleTarget == m.roleTarget
    ensures |r.nextTasks| == |m.nextTasks| + 1 && r.nextTasks[..|m.nextTasks|] == m.nextTasks
    ensures r.nextTasks[|m.nextTasks|] == t
  {
    m.(nextTasks := m.nextTasks + [t])
  }

  /** `injectTask`: the new task becomes current and the old current task
      waits at the front of the queue. */
  function InjectTask(m: CreepMemory, t: WorkerTask): (r: CreepMemory)
    ensures r.currentTask == t && r.role == m.role && r.roleTarget == m.roleTarget
    ensures |r.nextTasks| == |m.nextTasks| + 1 && r.nextTasks[0] == m.currentTask && r.nextTasks[1..] == m.nextTasks
  {
    m.(currentTask := t, nextTasks := [m.currentTask] + m.nextTasks)
  }

  /** `pushTask`: the task goes to the front of the queue. */
  function PushTask(m: CreepMemory, t: WorkerTask): (r: CreepMemory)
    ensures r.currentTask == m.currentTask && r.role == m.role && r.roleTarget == m.roleTarget
    ensures |r.nextTasks| == |m.nextTasks| + 1 && r.nextTasks[0] == t && r.nextTasks[1..] == m.nextTasks
  {
    m.(nextTasks := [t] + m.nextTasks)
  }

  /** `targetTask`: the current task now targets the given id. */
  function TargetTask(m: CreepMemory, id: string): (r: CreepMemory)
    ensures r.currentTask.targetId == Some(id)
    ensures r.currentTask.action == m.currentTask.action && r.currentTask.priority == m.currentTask.priority
    ensures r.nextTasks == m.nextTasks && r.role == m.role && r.roleTarget == m.roleTarget
  {
    m.(currentTask := m.currentTask.(targetId := Some(id)))
  }

  /** `completeTask`: the head of the queue becomes current; with an empty
      queue the creep starts idling. */
  function CompleteTask(m: CreepMemory): (r: CreepMemory)
    ensures r.role == m.role && r.roleTarget == m.roleTarget
    ensures |m.nextTasks| > 0 ==> r.currentTask == m.nextTasks[0] && r.nextTasks == m.nextTasks[1..]
    ensures |m.nextTasks| == 0 ==> r.currentTask == IdleTask() && r.nextTasks == []
  {
    if |m.nextTasks| > 0 then m.(currentTask := m.nextTasks[0], nextTasks := m.nextTasks[1..])
    else m.(currentTask := IdleTask())
  }

  /** `queueMoveTask`: ignored while already moving; otherwise a move to the
      target is injected. */
  function QueueMoveTask(m: CreepMemory, targetId: string): (r: CreepMemory)
    ensures m.currentTask.action == Move ==> r == m
    ensures m.currentTask.action != Move ==>
      && r.currentTask == WorkerTask(Move, Some(targetId), DefaultPriority)
      && r.nextTasks == [m.currentTask] + m.nextTasks
  {
    if m.currentTask.action == Move then m
    else InjectTask(m, NewWorkerTask(Move, Some(targetId), None))
  }

  /** The `idle` handler: the role is reset, and the creep moves on to its
      next task exactly when one is queued. */
  function IdleStep(m: CreepMemory): (r: CreepMemory)
    ensures r.role == "idle" && r.roleTarget.None?
    ensures |m.nextTasks| > 0 ==> r.currentTask == m.nextTasks[0] && r.nextTasks == m.nextTasks[1..]
    ensures |m.nextTasks| == 0 ==> r.currentTask == m.currentTask && r.nextTasks == []
  {
    var reset := m.(role := "idle", roleTarget := None);
    if |m.nextTasks| > 0 then CompleteTask(reset) else reset
  }

  // ---------------------------------------------------------------------
  // Inverses and orderings

  /** Completing an injected task resumes the interrupted one: the memory
      is back as it was. */
  lemma CompleteUndoesInject(m: CreepMemory, t: WorkerTask)
    ensures CompleteTask(InjectTask(m, t)) == m
  {
    assert ([m.currentTask] + m.nextTasks)[1..] == m.nextTasks;
  }

  /** Completing after a push runs the pushed task next, with the queue as
      it was. */
  lemma CompleteTakesPushed(m: CreepMemory, t: WorkerTask)
    ensures CompleteTask(PushTask(m, t)) == m.(currentTask := t)
  {
    assert ([t] + m.nextTasks)[1..] == m.nextTasks;
  }

  /** A move queued while not moving is undone by completing it. */
  lemma MoveThenComplete(m: CreepMemory, targetId: string)
    requires m.currentTask.action != Move
    ensures CompleteTask(QueueMoveTask(m, targetId)) == m
  {
    CompleteUndoesInject(m, NewWorkerTask(Move, Some(targetId), None));
  }

  /** `queueMoveTask` twice is `queueMoveTask` once. */
  lemma QueueMoveIdempotent(m: CreepMemory, targetId: string, other: string)
    ensures QueueMoveTask(QueueMoveTask(m, targetId), other) == QueueMoveTask(m, targetId)
  {
  }

  /** Completing `n` times. */
  function Advance(m: CreepMemory, n: nat): CreepMemory
    decreases n
  {
    if n == 0 then m else Advance(CompleteTask(m), n - 1)
  }

  /** The queue is first in, first out: after `k + 1` completions the
      current task is the `k`-th queued one, and once the queue is used up
      the creep idles. */
  lemma {:induction false} AdvanceRunsQueueInOrder(m: CreepMemory, k: nat)
    ensures k < |m.nextTasks| ==> Advance(m, k + 1).currentTask == m.nextTasks[k]
    ensures k < |m.nextTasks| ==> Advance(m, k + 1).nextTasks == m.nextTasks[k + 1..]
    ensures k >= |m.nextTasks| ==> Advance(m, k + 1).currentTask == IdleTask() && Advance(m, k + 1).nextTasks == []
    decreases k
  {
    if k > 0 {
      var m' := CompleteTask(m);
      AdvanceRunsQueueInOrder(m', k - 1);
      assert Advance(m, k + 1) == Advance(m', k);
      if |m.nextTasks| > 0 {
        assert k < |m.nextTasks| ==> m'.nextTasks[k - 1] == m.nextTasks[k];
        assert k < |m.nextTasks| ==> m'.nextTasks[k..] == m.nextTasks[k + 1..];
      } else {
        IdleStays(m', k - 1);
      }
    }
  }

  /** An idle creep with nothing queued stays idle. */
  lemma {:induction false} IdleStays(m: CreepMemory, n: nat)
    requires m.currentTask == IdleTask() && m.nextTasks == []
    ensures Advance(m, n + 1).currentTask == IdleTask() && Advance(m, n + 1).nextTasks == []
    decreases n
  {
    if n > 0 {
      IdleStays(CompleteTask(m), n - 1);
    }
  }

  /** A queued task runs after everything queued before it. */
  lemma QueuedRunsLast(m: CreepMemory, t: WorkerTask)
    ensures Advance(QueueTask(m, t), |m.nextTasks| + 1).currentTask == t
  {
    AdvanceRunsQueueInOrder(QueueTask(m, t), |m.nextTasks|);
  }

  // ---------------------------------------------------------------------
  // Dispatch

  /** The handlers `run` can call. */
  datatype Handler =
    | OnIdle | OnMove | OnHarvestEnergy | OnPerpetualHarvestEnergy | OnStoreEnergy | OnWithdrawEnergy
    | OnPickupEnergy | OnFillCreepEnergy | OnSupplyEnergy | OnBuild | OnRepair | OnUpgradeRoom
    | OnPickEnergySourceForHarvest | OnPickEnergySourceForPerpetualHarvest

  /** The `switch` of `run` on the current task's action. Every action has
      a case, so the `unknownState` default is unreachable. */
  function Dispatch(a: WorkerAction): (h: Handler)
    ensures HandledAction(h) == a
  {
    match a
    case Idle => OnIdle
    case Move => OnMove
    case HarvestEnergy => OnHarvestEnergy
    case PerpetualHarvestEnergy => OnPerpetualHarvestEnergy
    case StoreEnergy => OnStoreEnergy
    case WithdrawEnergy => OnWithdrawEnergy
    case PickupEnergy => OnPickupEnergy
    case FillCreepEnergy => OnFillCreepEnergy
    case SupplyEnergy => OnSupplyEnergy
    case Build => OnBuild
    case Repair => OnRepair
    case UpgradeRoom => OnUpgradeRoom
    case PickEnergySourceForHarvest => OnPickEnergySourceForHarvest
    case PickEnergySourceForPerpetualHarvest => OnPickEnergySourceForPerpetualHarvest
  }

  /** The action whose case calls a handler. */
  function HandledAction(h: Handler): WorkerAction {
    match h
    case OnIdle => Idle
    case OnMove => Move
    case OnHarvestEnergy => HarvestEnergy
    case OnPerpetualHarvestEnergy => PerpetualHarvestEnergy
    case OnStoreEnergy => StoreEnergy
    case OnWithdrawEnergy => WithdrawEnergy
    case OnPickupEnergy => PickupEnergy
    case OnFillCreepEnergy => FillCreepEnergy
    case OnSupplyEnergy => SupplyEnergy
    case OnBuild => Build
    case OnRepair => Repair
    case OnUpgradeRoom => UpgradeRoom
    case OnPickEnergySourceForHarvest => PickEnergySourceForHarvest
    case OnPickEnergySourceForPerpetualHarvest => PickEnergySourceForPerpetualHarvest
  }

  /** Each action goes to its own handler, and every handler is reached. */
  lemma DispatchIsBijective(a: WorkerAction, b: WorkerAction, h: Handler)
    ensures Dispatch(a) == Dispatch(b) ==> a == b
    ensures exists c :: Dispatch(c) == h
  {
    assert HandledAction(Dispatch(a)) == a;
    assert HandledAction(Dispatch(b)) == b;
    assert Dispatch(HandledAction(h)) == h;
  }

  // ---------------------------------------------------------------------
  // pickBestEnergySource

  /** The source choice: walking the sources in order with a running
      minimum that starts at 100 and is replaced on `<=`, so the LAST source
      with the fewest miners next to it wins; none when no source has at
      most 100. `miners[i]` is the number of miners next to source `i`. */
  method PickBestEnergySource(miners: seq<nat>) returns (r: Option<nat>)
    ensures r.None? <==> forall i :: 0 <= i < |miners| ==> miners[i] > 100
    ensures r.Some? ==> r.value < |miners| && miners[r.value] <= 100
    ensures r.Some? ==> forall i :: 0 <= i < |miners| ==> miners[r.value] <= miners[i]
    ensures r.Some? ==> forall i :: r.value < i < |miners| ==> miners[r.value] < miners[i]
  {
    var min := 100;
    r := None;
    var k := 0;
    while k < |miners|
      invariant 0 <= k <= |miners|
      invariant r.None? <==> forall i :: 0 <= i < k ==> miners[i] > 100
      invariant r.None? ==> min == 100
      invariant r.Some? ==> r.value < k && miners[r.value] == min && min <= 100
      invariant forall i :: 0 <= i < k ==> min <= miners[i]
      invariant r.Some? ==> forall i :: r.value < i < k ==> min < miners[i]
    {
      if miners[k] <= min {
        min := miners[k];
        r := Some(k);
      }
      k := k + 1;
    }
  }
}

=== FILE: worker_task.dfy ===
/** The worker task record of src/tasks/WorkerTask.ts: the numbered
    `WorkerAction` enumeration and the task constructor's defaults. */
module WorkerTasks {
  import opened Wrappers

  datatype WorkerAction =
    | Idle | Move | HarvestEnergy | FillCreepEnergy | SupplyEnergy | Build | Repair
    | UpgradeRoom | WithdrawEnergy | PickupEnergy | StoreEnergy | PickEnergySourceForHarvest
    | PerpetualHarvestEnergy | PickEnergySourceForPerpetualHarvest

  const ActionCount: nat := 14

  /** The number a TypeScript numeric enum gives each member: its position,
      from 0. */
  function Code(a: WorkerAction): (n: nat)
    ensures n < ActionCount
    ensures n == 0 <==> a == Idle
  {
    match a
    case Idle => 0
    case Move => 1
    case HarvestEnergy => 2
    case FillCreepEnergy => 3
    case SupplyEnergy => 4
    case Build => 5
    case Repair => 6
    case UpgradeRoom => 7
    case WithdrawEnergy => 8
    case PickupEnergy => 9
    case StoreEnergy => 10
    case PickEnergySourceForHarvest => 11
    case PerpetualHarvestEnergy => 12
    case PickEnergySourceForPerpetualHarvest => 13
  }

  /** The reverse mapping of the enum object: a number to its member. */
  function FromCode(n: int): (r: Option<WorkerAction>)
    ensures r.Some? <==> 0 <= n < ActionCount
  {
    if n == 0 then Some(Idle)
    else if n == 1 then Some(Move)
    else if n == 2 then Some(HarvestEnergy)
    else if n == 3 then Some(FillCreepEnergy)
    else if n == 4 then Some(SupplyEnergy)
    else if n == 5 then Some(Build)
    else if n == 6 then Some(Repair)
    else if n == 7 then Some(UpgradeRoom)
    else if n == 8 then Some(WithdrawEnergy)
    else if n == 9 then Some(PickupEnergy)
    else if n == 10 then Some(StoreEnergy)
    else if n == 11 then Some(PickEnergySourceForHarvest)
    else if n == 12 then Some(PerpetualHarvestEnergy)
    else if n == 13 then Some(PickEnergySourceForPerpetualHarvest)
    else None
  }

  /** The numbering is a bijection between the members and 0..13. */
  lemma CodeRoundTrip(a: WorkerAction, n: int)
    ensures FromCode(Code(a)) == Some(a)
    ensures FromCode(n).Some? ==> Code(FromCode(n).value) == n
  {
  }

  lemma CodeInjective(a: WorkerAction, b: WorkerAction)
    ensures Code(a) == Code(b) <==> a == b
  {
    CodeRoundTrip(a, 0);
    CodeRoundTrip(b, 0);
  }

  /** A task: the action, its target's id if any, and a priority. */
  datatype WorkerTask = WorkerTask(action: WorkerAction, targetId: Option<string>, priority: int)

  const DefaultPriority: int := 5

  /** `new WorkerTask(action, targetId?, priority?)`. The priority is read
      with `||`, so an explicit 0 becomes the default 5 as well. */
  function NewWorkerTask(action: WorkerAction, targetId: Option<string>, priority: Option<int>): (t: WorkerTask)
    ensures t.action == action && t.targetId == targetId
    ensures priority.Some? && priority.value != 0 ==> t.priority == priority.value
    ensures priority.None? ==> t.priority == DefaultPriority
  {
    WorkerTask(action, targetId, if priority.Some? && priority.value != 0 then priority.value else DefaultPriority)
  }

  /** Asking for priority 0 gives the default priority. */
  lemma ZeroPriorityIsDefault(action: WorkerAction, targetId: Option<string>)
    ensures NewWorkerTask(action, targetId, Some(0)) == NewWorkerTask(action, targetId, None)
    ensures NewWorkerTask(action, targetId, Some(0)).priority == DefaultPriority
  {
  }
}

=== FILE: wrappers.dfy ===
/** Optional values: the model's stand-in for JavaScript's `undefined`. */
module Wrappers {

  datatype Option<+T> = None | Some(value: T) {

    /** Returns the value in Some, or the given default for None. */
    function GetOr(default: T): T {
      match this
      case Some(v) => v
      case None => default
    }
  }
}
